=== FILE: README.md ===
# GLSL token tree (dnload)

This project models the expression-tree engine that dnload's GLSL minifier
uses to rewrite shader source. It models `dnload/glsl_token.py` in Dafny and
proves properties of the model.

The engine has three parts:

- **`GlslToken`.** A ternary container with `left`, `middle` and `right`
  slots and a parent back-reference.
  - Children are attached with `addLeft`/`addMiddle`/`addRight`, which also
    set the child's parent.
  - `setParent` refuses a second, different parent.
  - The constructor collapses chains of degenerate wrappers through
    `token_descend`.
  - `getSingleChild` sees through a token that only has a middle.
  - `flatten` lists the leaves in order.
  - `removeChild` and `removeFromParent` detach a child in place.
  - `simplify` performs at most one rewrite per call.
- **The builder.**
  - `token_list_create` wraps every non-token element of a list in a token.
  - `token_tree_build` scans the list once, left to right. It keeps
    independent bracket and paren depth counters. It splices the first group
    whose delimiter returns to depth 0 into one token
    (`token_tree_split_paren`). Failing that, it splits at the depth-0
    operator of highest precedence, leftmost on ties.
- **The simplifier.**
  - `simplify` strips a `(` … `)` pair around a middle that holds a single
    leaf. It searches depth-first for a place to do that: the token itself,
    then the left children, then the right children, then the token-valued
    middle elements.
  - The constant-folding branch in `simplify` is guarded by `and False`, so it
    never runs, and the model leaves it out (see "Left out").

## Modules

- `glsl_leaf.dfy` (`GlslLeaf`): the leaf tokens as one datatype.
  - Precedence is a total order: an integer `precedence` field of each
    operator, compared with `<`.
  - The depth update of brackets and parens is `UpdateCount`.
- `token_tree.dfy` (`GlslTree`): tokens as values in an arena addressed by
  handles.
  - The invariant `Ordered`: a token only refers to tokens created before it.
  - `SingleChild` is `getSingleChild`.
  - `Leaves` is the specification of `flatten`.
  - `Descended` is `token_descend`, and `Visited` is the set of tokens whose
    parent it clears.
  - `RemoveChildFrom` is `removeChild` on a node.
- `token_rewrite.dfy` (`GlslRewrite`): the arena with its parent links.
  - `Detach` is `removeFromParent`.
  - `StripTest`/`StripAt` are the strip rewrite of `simplify`.
  - `FindSite` is the depth-first search for a place to strip.
- `token_arena.dfy` (`GlslArena`): the class `Arena`. It holds `nodes` and
  `parents` as fields, and its methods update them in place, as the methods
  of `GlslToken` do. Each method is proved against the functions above.
- `token_attach.dfy` (`GlslAttach`): parent references that agree with the
  slots.
  - `Attached(s, h)`: every token in the tree of `h` names, as its parent,
    the token whose slot holds it.
  - `Rewired`: between two arenas, only tokens under a given set of roots
    changed parent, each to none or to a newer token.
  - `Roots`: distinct, parentless, Attached tokens, which is what the builder
    receives.
- `token_scan.dfy` (`GlslScan`): the scan of `token_tree_build`.
  - It is stated declaratively: `Halts`, `FirstHalt`, `FirstOpener`, `Best`
    and `Decide`.
  - It is then computed by a loop (`Scan`) that is proved to agree with that
    statement.
  - The backward walk of `token_tree_split_paren` is `AbsorbStart`.
- `token_trace.dfy` (`GlslTrace`): what `token_tree_build` does, stated
  over values.
  - A build call is recorded as a `Call`: the arena it started from, the
    arena it left, its result, and a `Trace` of the calls it made in turn.
  - `BuiltAs` says, by the decision of the scan, what such a call must have
    done: `WholeBuilt`, `SplitBuilt` or `GroupBuilt`. The calls it records
    are themselves `BuiltAs`, down to the lists that make no further call.
  - `SideCall`, `OperatorCall`, `GroupCall` and `RunMade` state one step of
    a branch each.
- `token_build.dfy` (`GlslBuild`): `token_list_create`, `token_tree_build`,
  `token_tree_split_paren`, `token_tree_simplify` and `get_single_token`.
  - Every tree the builder returns is proved to flatten back to the input
    leaves, in order.

## Modelling decisions

- **Tokens as handles.** A Python `GlslToken` is a handle into the arena.
  Token identity (the `==` that `removeChild` uses on tokens) is handle
  equality.
- **Handle order.** Every handle a token holds is below the token's own
  handle. The source only ever adds tokens that already exist to a token that
  is being built, so `AddLeft`/`AddRight`/`AddMiddle` require the child to be
  older than the parent.
- **Middle elements.** A middle element is an `Item`: a leaf (`Atom`), a
  token (`Sub`) or an empty value (`Nil`). `Nil` stands for the falsy
  elements that `flatten` rejects with "empty element found during flatten".
- **Raises.** Every `raise RuntimeError` of the source becomes a `Fail` with
  its own error constant. The Python errors that the code raises by accident
  are modelled as the failure they cause:
  - an `AttributeError` when `removeFromParent` is called on a token without
    parent becomes `NoParent`;
  - an `AttributeError` when `token_descend` calls `setParent` on a non-token
    becomes `NonToken`.
- **Depth counters.** `updateParen`/`updateBracket` are +1 for an opening
  and -1 for a closing delimiter (`UpdateCount`). The "wut?" checks at lines
  313-314 and 326-327 therefore never fire.
- **Switched-off code.**
  - Constant folding: the docstring of `applyOperator` (line 72) says it
    collapses an operator into one number. Its only caller is the folding
    branch of `simplify`, whose condition ends in `and False` under a FIXME
    saying the folding does not work (lines 192-193). The branch never runs,
    and the model leaves it out.
- **A missing right operand.** The comment at line 355 allows the right side
  to be absent, for the subtree of a unary minus. The code then returns the
  operator token without a right child (lines 355-357), and `OperatorToken`
  does the same.
- **Parent references.** `simplify` detaches a flank through the flank's own
  parent reference (lines 184-188). The strip therefore relies on every
  parent reference agreeing with the slots (`Attached`). The builder proves
  this for the tree it returns, when its input tokens are distinct,
  parentless and Attached. `SimplifyTree` relies on it.

## Model

| member | source | states |
|---|---|---|
| GlslLeaf.UpdateCount | dnload/glsl_token.py:311-315 | an opening delimiter raises the depth counter and a closing one lowers it; the counter always changes |
| GlslTree.SingleChild | dnload/glsl_token.py:126-141 | each outcome of getSingleChild, as an if-and-only-if on the slots: the token itself when a flank exists and the middle is non-empty or both flanks exist; "empty middle" with one flank and no middle; the single middle element; the whole middle list; "no content" when all slots are empty |
| GlslTree.Descended | dnload/glsl_token.py:262-280 | a list holding a non-token raises; a non-token value and a list that does not hold exactly one element are returned as they are; a result never mentions a newer token than its input does, and it is settled: a single token in it has flanks, and a list in it holds only tokens and is not a singleton |
| GlslTree.DescendedLeaves | dnload/glsl_token.py:262-280 | descending never changes the leaves the value flattens to |
| GlslTree.DescendedInVisited | dnload/glsl_token.py:266-274 | every token in the descended value had its parent cleared on the way |
| GlslTree.FreshTokenLeaves | dnload/glsl_token.py:19-28 | a new token whose middle is the descended payload flattens to the payload's leaves |
| GlslTree.RemoveChildFrom | dnload/glsl_token.py:143-160 | the child is missing exactly when no slot holds it; otherwise only the first occurrence is removed, searching left, then right, then middle, and the other slots are unchanged; the node loses exactly one child |
| GlslTree.SingleChildSeesThrough | dnload/glsl_token.py:126-141 | when getSingleChild sees through a token, the token flattens to its middle |
| GlslTree.LeafTokenLeaves | dnload/glsl_token.py:126-141 | a token that resolves to one leaf flattens to exactly that leaf |
| GlslTree.HandlesLeavesAppend | dnload/glsl_token.py:103-104 | flattening a list of children is concatenation: the leaves of `a + b` are those of `a` followed by those of `b` |
| GlslTree.ItemsLeavesAppend | dnload/glsl_token.py:106-112 | the leaves of middle elements `a + b` are those of `a` followed by those of `b` |
| GlslTree.HandlesLeavesNonePrefix | dnload/glsl_token.py:103-104 | once a prefix of the children fails to flatten, the whole list fails |
| GlslTree.LeavesFrame | dnload/glsl_token.py:99-116 | what a token flattens to depends only on the tokens older than it, so adding new tokens never changes it |
| GlslRewrite.Detach | dnload/glsl_token.py:162-165 | without a parent it fails with `NoParent`; with one, it fails with `ChildNotFound` exactly when the parent does not hold the token; otherwise the parent loses exactly that child (as `RemoveChildFrom` says), only this token's parent is cleared, and the tree has one child fewer |
| GlslRewrite.StripTest | dnload/glsl_token.py:177-183 | true exactly when the single left and right children resolve to `(` and `)` and the middle is one element that flattens to one leaf; it raises exactly when there is one child on each side and getSingleChild raises on one of them, or the parens match around a middle token that fails to flatten, and the error is the one raised |
| GlslRewrite.StripAt | dnload/glsl_token.py:184-188 | the strip succeeds or fails with a detach error, the tree stays well formed, and a success empties both flanks and removes at least two children |
| GlslRewrite.StripTestLeaves | dnload/glsl_token.py:177-183 | a token the strip applies to flattens to `(`, one leaf, `)` |
| GlslRewrite.StripAtSite | dnload/glsl_token.py:177-188 | at a site whose flanks are attached to it, the strip succeeds, leaves only the middle, and the token then flattens to its old leaves without the first and last |
| GlslRewrite.FindSite | dnload/glsl_token.py:174-234 | the search returns this token when the strip applies here; "nothing found" implies the strip does not apply here; a site it returns is never newer than the token, and the strip applies there |
| GlslRewrite.FindInHandles | dnload/glsl_token.py:224-229 | a site found below a list of children lies below the list's ceiling, and the strip applies there |
| GlslRewrite.FindInItems | dnload/glsl_token.py:230-233 | a site found below the middle elements lies below their ceiling, and the strip applies there |
| GlslRewrite.FindInHandlesPrefix | dnload/glsl_token.py:224-229 | the search stops at the first child that finds a site or raises: later children do not change the outcome |
| GlslRewrite.FindInItemsPrefix | dnload/glsl_token.py:230-233 | the search over the middle stops at the first element that finds a site or raises |
| GlslAttach.AttachedSite | dnload/glsl_token.py:174-188 | in an Attached tree, the site the search finds has one left and one right child, and both name the site as their parent, so the two removeFromParent calls of the strip succeed |
| GlslAttach.AttachedStrip | dnload/glsl_token.py:174-188 | in an Attached tree, the strip at the found site succeeds, leaves only the middle there, and the site then flattens to its old leaves without the first and last |
| GlslAttach.DescendAttached | dnload/glsl_token.py:262-280 | descending into an Attached token clears the parent only of tokens under it, and the tokens it ends at are Attached |
| GlslAttach.FreshAttached | dnload/glsl_token.py:19-28 | a new token made from parentless Attached tokens, with the parents set as the constructor sets them, is Attached, and only tokens under those tokens changed parent |
| GlslAttach.AttachedKept | dnload/glsl_token.py:30-69 | a parentless Attached token stays so while other tokens, none of them under it, are adopted, as long as its own slots are kept |
| GlslAttach.RootsKept | dnload/glsl_token.py:292-359 | distinct parentless Attached tokens stay so while the arena grows and only tokens under other roots change parent |
| GlslArena.Arena.SetParent | dnload/glsl_token.py:167-172 | it fails exactly when a non-null parent differs from an existing non-null parent; a failure changes nothing; otherwise only this token's parent is set |
| GlslArena.Arena.Allocate | dnload/glsl_token.py:19-24 | a new token has empty slots and no parent, and nothing else changes |
| GlslArena.Arena.AddLeft | dnload/glsl_token.py:30-41 | a non-token raises and changes nothing; a token is appended to the left slot, and its parent is set or the parent conflict is reported |
| GlslArena.Arena.AddRight | dnload/glsl_token.py:58-69 | the same as AddLeft, for the right slot |
| GlslArena.Arena.AddMiddle | dnload/glsl_token.py:43-56 | every element (one value or a list) is appended to the middle in order, and each token in it gets this parent. It raises exactly when some token already has another parent (`Clash` is below the length), and only with a parent conflict. After a raise, the middle holds the elements up to and including the first clashing one, and only the tokens before it were adopted (`RaisedAt`) |
| GlslArena.Arena.AddMiddleItems | dnload/glsl_token.py:46-56 | the loop over a list: it succeeds exactly when no element clashes; then all elements are appended and adopted, otherwise the state is `RaisedAt` the first clash |
| GlslArena.ClashIsFirst | dnload/glsl_token.py:46-53 | no element before the first clash conflicts with its parent, so the loop gets past each of them |
| GlslArena.Arena.Descend | dnload/glsl_token.py:262-280 | it computes Descended; on success exactly the tokens in Visited have their parent cleared, and on a raise each parent is unchanged or cleared |
| GlslArena.Arena.ClearListParents | dnload/glsl_token.py:272-276 | it succeeds exactly when every element is a token, and then clears the parent of each of them |
| GlslArena.Arena.NewToken | dnload/glsl_token.py:19-28 | a falsy value gives an empty token; otherwise the new token's middle is the descended value; it flattens to the value's leaves; the parents are set as descending and adding prescribe; only a descend error fails. When the tokens of the value are parentless and Attached, the new token is Attached, and only tokens under them changed parent |
| GlslArena.Arena.Flatten | dnload/glsl_token.py:99-116 | the loop computes Leaves: left children, then middle elements, then right children; the only error is "empty element" |
| GlslArena.Arena.RemoveChild | dnload/glsl_token.py:143-160 | it removes the child as RemoveChildFrom says, or fails and changes nothing |
| GlslArena.Arena.RemoveFromParent | dnload/glsl_token.py:162-165 | the new state is the one Detach gives, and a failure changes nothing |
| GlslArena.Arena.TestStrip | dnload/glsl_token.py:177-183 | it computes StripTest without changing the tree |
| GlslArena.Arena.Strip | dnload/glsl_token.py:184-188 | the result and the new state are those StripAt gives |
| GlslArena.Arena.Simplify | dnload/glsl_token.py:174-234 | a single rewrite at the site FindSite selects: "nothing found" returns false and changes nothing; a search error is returned unchanged; otherwise the strip at that site |
| GlslScan.FirstHalt | dnload/glsl_token.py:306-338 | the index where the scan ends lies in the list and the scan does end there |
| GlslScan.FirstHaltIsFirst | dnload/glsl_token.py:306-338 | the scan does not end at any token before FirstHalt |
| GlslScan.FirstOpenerIsFirst | dnload/glsl_token.py:318-322 | the recorded opener is the first bracket (or paren) that takes its depth from 0 to 1 |
| GlslScan.DepthFacts | dnload/glsl_token.py:311-335 | until the scan ends, both depths are non-negative, and a depth is 0 exactly when no opener has been recorded |
| GlslScan.BestIsLeftmostMaximum | dnload/glsl_token.py:340-343 | the chosen operator is a depth-0 operator that none precedes strictly, and every candidate to its left precedes it strictly; there is none exactly when there is no candidate |
| GlslScan.Decide | dnload/glsl_token.py:306-343 | a group runs from the first opener to the first closer that returns its depth to 0; a closer at depth 0 raises the bracket or paren inconsistency; without a halt, the split is at Best, and the whole list is kept exactly when no candidate exists |
| GlslScan.CountDelimiter | dnload/glsl_token.py:311-335 | it stops exactly when the token halts the scan, with the decision Halted gives; otherwise it returns the next depth and first opener |
| GlslScan.PickOperator | dnload/glsl_token.py:340-343 | the recorded operator becomes Best for the next prefix |
| GlslScan.Scan | dnload/glsl_token.py:300-343 | the loop returns exactly what Decide states |
| GlslScan.AbsorbStart | dnload/glsl_token.py:370-378 | the start of the absorbed run: every token from it up to the opener is an access, name or type, and the token before it (if any) is not; a getSingleChild error during the walk is reported |
| GlslBuild.ListLeavesSubs | dnload/glsl_token.py:282-290 | a list of tokens flattens, element by element, to the leaves of those tokens |
| GlslBuild.ElementToken | dnload/glsl_token.py:285-289 | a token is kept as it is; any other element is wrapped in a new token; either way the result flattens to the element's leaves |
| GlslBuild.ListCreate | dnload/glsl_token.py:282-290 | one token per element, in order: the tokens of the input are kept, the other elements get new tokens, and the list flattens to the input's leaves. No old parent changes, and when the input tokens are distinct, parentless and Attached, so is the whole list |
| GlslBuild.Build | dnload/glsl_token.py:292-359 | an input that lists nothing gives None; otherwise the recorded call is the build of the listed tokens, as `BuiltAs` says (an operator or group token holds exactly the trees and tokens the source puts in its slots), and Build returns its result: its error, or a fresh parentless token that flattens to the input's leaves in order. Given distinct parentless input tokens with matching parent references, the returned tree's parent references match its slots, and only tokens under the input tokens changed parent |
| GlslBuild.BuildList | dnload/glsl_token.py:299-359 | `BuiltAs`, by the decision of the scan: a scan error is the result; a list without group or operator is wrapped whole; an operator gives `SplitBuilt`, a group `GroupBuilt`, with the group token's slots exactly as `GlslToken` builds them (`GroupShape`). A success is a fresh parentless token that flattens to the list's leaves. Given distinct parentless tokens whose trees have matching parent references (`Roots`), a success has a matching tree (`Attached`), and only tokens under the inputs changed parent (`Rewired`) |
| GlslBuild.BuildSide | dnload/glsl_token.py:292-298 | `SideCall`: an empty list makes no call, adds no token, changes no parent and gives None; otherwise the call is the build of the list (`BuiltAs`), the side fails exactly when that call fails and with its error, and a success is a fresh parentless token that flattens as the list |
| GlslBuild.WholeToken | dnload/glsl_token.py:358-359 | it fails exactly when descending the whole list fails, with that error; otherwise it gives a fresh parentless token whose middle is the descended list and which flattens to the list's leaves |
| GlslBuild.BuildAtOperator | dnload/glsl_token.py:344-357 | `SplitBuilt` at the chosen operator: the left side is built first and its error is the result; only then the right side, whose error is the result; then a missing left side of an operator other than `-`, `++`, `--` is `MissingOperand`. A success holds the operator alone in the middle with the side trees as flanks, each flank empty exactly when its side is (`OperatorShape`). Over `Roots`, each side is built over such tokens and nothing else fails |
| GlslBuild.BuildRightOfOperator | dnload/glsl_token.py:346-357 | once the left side is built: `SplitBuilt`, with the right side built next and its error as the result |
| GlslBuild.OperatorOfSides | dnload/glsl_token.py:347-357 | with both sides built, the operator token of their trees is the branch's result, as `SplitBuilt` says |
| GlslBuild.OperatorToken | dnload/glsl_token.py:347-357 | `OperatorCall`: a missing left side is an error unless the operator is `-`, `++` or `--`; the new token holds the sides as flanks and the operator in the middle, and flattens to left leaves, operator, right leaves. Only the sides change parent; when they are distinct, parentless and Attached, a success is Attached and the token fails exactly for a missing left side |
| GlslBuild.SplitParen | dnload/glsl_token.py:367-391 | `GroupBuilt` for the group the scan found: the run left of the opener is absorbed, the inside is built, then the group token is made: its left is the opener, or a token holding the absorbed run in its middle; its middle is the descended tree of the recorded inside build; its right is the closer (`GroupShape`). Then the list with the group token in place of the run, the group and the closer is built again; the first failure is the result, otherwise the result of that last build. Over `Roots`, only a failed build or descent of the inside stops it before the last build |
| GlslBuild.BuildGroup | dnload/glsl_token.py:380-391 | `GroupBuilt`, once the backward walk has found the start of the run: the group token's left, middle and right are exactly those `GlslToken(left)`, `GlslToken(middle)` and the closer give (`GroupShape`), and the result is that of the recorded rebuild |
| GlslBuild.MakeGroup | dnload/glsl_token.py:380-390 | `GroupCall`: the inside, where it is not empty, is built as its own call (`InsideBuilt`); the error is the inside's, otherwise that of descending its tree (`GroupStopped`); a success is a fresh parentless token that flattens to run, inside, closer. Its middle is exactly the descended tree of the recorded inside build, and a longer run is a token holding that run in its middle (`GroupMade`, `GroupShape`). Over `Roots`, it fails exactly when the inside's tree cannot be descended, and then only parents under the run, the group and the closer changed |
| GlslBuild.GroupOfParts | dnload/glsl_token.py:388-390 | with the run absorbed and the inside built, the group token made of them is as `GroupCall` says: the run token on the left, the inside's tree descended in the middle, the closer on the right |
| GlslBuild.BuildAroundGroup | dnload/glsl_token.py:391 | with the group token `g` made, the list `lst[..start] + [g] + lst[last + 1..]` is built; its call is recorded, its result is the branch's result (`GroupBuilt`), and a success flattens to the original list's leaves |
| GlslBuild.GroupToken | dnload/glsl_token.py:388-390 | the new token is exactly `Node([run], InnerMiddle(inner), [closer])`: the run on the left, the inside's tree descended in the middle (nothing for an empty pair), the closer on the right. It flattens to run, interior, closer. It fails exactly with the error of descending the inside's tree when that fails, when the inputs are distinct, parentless and Attached; then a success is Attached and only tokens under the inputs changed parent |
| GlslBuild.InnerToken | dnload/glsl_token.py:388 | `GlslToken(middle)` before the flanks are added: a fresh parentless token `Node([], InnerMiddle(inner), [])`, with the descended inside tree as its middle, or empty for an empty pair; it fails exactly when descending the inside's tree fails, with that error |
| GlslBuild.AbsorbedToken | dnload/glsl_token.py:380-383 | `RunMade`: a run of one token is that token, with nothing changed; a longer run is wrapped in a fresh token whose node is exactly `Node([], Subs(run), [])`; either way it flattens to the run's leaves. Over `Roots` it is parentless and Attached, and only tokens under the run changed parent |
| GlslTrace.SplitLeaves | dnload/glsl_token.py:346-347 | the leaves of a list are those before the operator, the operator's own leaves and those after it |
| GlslTrace.RegroupLeaves | dnload/glsl_token.py:391 | the list that replaces the group with one token keeps the leaves in order |
| GlslBuild.SimplifyTree | dnload/glsl_token.py:361-365 | false exactly when no strip site exists, and then nothing changes; true removes at least two children from the tree, so driving it to a fixed point ends. On an Attached tree, such as Build returns, it fails exactly when the search raises, and a found site is stripped: only its middle is left, and it flattens to its old leaves without the parens |
| GlslBuild.SingleToken | dnload/glsl_token.py:246-250 | None exactly for a non-token; for a token, the value and the error are those of getSingleChild |
| GlslBuild.SingleTokenLeaves | dnload/glsl_token.py:246-250 | what get_single_token sees through to flattens to the same leaves as the token |

## Left out

- `applyOperator` (lines 71-97) is not modelled. It is an unused operation:
  - The only call to it is in the folding branch of `simplify`
    (lines 189-222), which is guarded by `and False` (lines 192-193) and
    never runs. That branch is left out as well.
  - It computes with floats and with `interpret_float`, `interpret_int` and
    `truncatePrecision`, which are not part of this model.
- `flattenString` and `__str__` (lines 118-124, 236-240) only format text
  through the leaf tokens' `format`, which is not part of this model.
- `is_glsl_number` and `is_glsl_token` are type tests.
  - A token is the `Sub` item and is always truthy, so the `elif ii` test of
    `token_list_create` always holds for tokens.
  - The leaf classes (`glsl_float`, `glsl_int`, `glsl_name`, `glsl_type`,
    `glsl_access`, `glsl_operator`, `glsl_paren`) are not part of this model.
    They are abstracted into the `Leaf` datatype, whose operators carry an
    integer `precedence` field compared with `<`.
- `dnload/glsl_block_return.py` is not part of this model.
- GlslArena.Arena.AddLeft: the list branch of `addLeft` (lines 33-36) calls
  the misspelled `self.addleft`, so it would raise. No caller passes a list,
  so `AddLeft` models the single-token case only.
- GlslArena.Arena.AddLeft, GlslArena.Arena.AddRight: the error messages at
  lines 39 and 67 name an undefined `left`, which would turn the intended
  error into a `NameError`. Both are modelled simply as the `InvalidChild`
  failure.
- GlslArena.Arena.AddRight: the list branch of `addRight` is not modelled.
  No caller passes a list.
- Identity versus equality: `removeChild` compares with `==`. Leaves in the
  middle are never removed by handle, so only token identity is modelled.
- GlslBuild.Build, GlslBuild.BuildList, GlslBuild.SplitParen,
  GlslBuild.BuildAtOperator: an error raised part way through building is
  propagated. The contract does not describe the tokens created before it,
  beyond the arena staying well formed and old tokens staying unchanged.
- GlslBuild.Build, GlslBuild.BuildList, GlslBuild.BuildAtOperator,
  GlslBuild.SplitParen, GlslBuild.MakeGroup, GlslBuild.GroupToken: the
  parent-reference guarantee is stated for a successful build only. A descent
  that raises part way has already cleared some parents.
- GlslBuild.SimplifyTree: when the search itself raises (getSingleChild or
  flatten inside the strip test), the contract only says that the call fails.
  `GlslArena.Arena.Simplify` states the exact error.
- The "wut?" raises (lines 313-314, 326-327) cannot fire with +1/-1 depth
  updates and are not modelled.
- Object lifetime and garbage collection: tokens are never freed from the
  arena.

=== FILE: glsl_leaf.dfy ===
/**
 * Leaf tokens as the lexical layer hands them to the token tree.
 *
 * The classifiers of the minifier (numbers, names, type keywords, field
 * accesses, operators and delimiters) are not part of this model: a leaf is
 * just its kind plus the few facts the tree engine asks of it.
 */
module GlslLeaf {

  /** A classified leaf token. */
  datatype Leaf =
    | Number(text: string)
    | Identifier(text: string)
    | TypeKeyword(text: string)
    | Access(text: string)
    | Operator(symbol: string, precedence: int)
    | Paren(opening: bool)
    | Bracket(opening: bool)
    | Brace(opening: bool)

  /** `a < b` on operators: b binds more tightly than a. */
  predicate PrecedesStrictly(a: Leaf, b: Leaf)
    requires a.Operator? && b.Operator?
  {
    a.precedence < b.precedence
  }

  /** The operators that may legally miss their left operand. */
  predicate IsPrefixOperator(op: Leaf)
  {
    op.Operator? && op.symbol in ["-", "++", "--"]
  }

  /** Tokens absorbed to the left of an opening bracket or paren. */
  predicate IsAbsorbable(l: Leaf)
  {
    l.Access? || l.Identifier? || l.TypeKeyword?
  }

  /** Depth after a paren or bracket (updateParen / updateBracket). */
  function UpdateCount(opening: bool, count: int): (r: int)
    ensures r != count
    ensures opening <==> r > count
  {
    if opening then count + 1 else count - 1
  }
}

=== FILE: token_arena.dfy ===
/**
 * GlslToken objects and the methods that change them in place.
 *
 * Every token ever created lives in one arena and is addressed by its
 * handle; `nodes[h]` holds the three slots of token `h` and `parents[h]` its
 * parent reference. A token is only ever added to a token created after it,
 * which keeps the arena `Valid`.
 */
module GlslArena {
  import opened GlslLeaf
  import opened GlslTree
  import opened GlslRewrite
  import opened GlslAttach

  /** The parent references after every token among `its` was given `h` as parent. */
  ghost function Adopted(ps: seq<Option<Handle>>, its: seq<Item>, h: Handle): seq<Option<Handle>>
  {
    seq(|ps|, x requires 0 <= x < |ps| => if Sub(x) in its then Some(h) else ps[x])
  }

  /** Adopting one more element changes at most that element's parent. */
  lemma AdoptedStep(ps: seq<Option<Handle>>, its: seq<Item>, i: nat, h: Handle)
    requires i < |its| && (its[i].Sub? ==> its[i].handle < |ps|)
    ensures its[i].Sub? ==> Adopted(ps, its[..i + 1], h) == Adopted(ps, its[..i], h)[its[i].handle := Some(h)]
    ensures !its[i].Sub? ==> Adopted(ps, its[..i + 1], h) == Adopted(ps, its[..i], h)
  {
    assert its[..i + 1] == its[..i] + [its[i]];
  }

  /** setParent(h) raises for the element: it is a token whose parent in `ps` is neither None nor `h`. */
  predicate Conflicts(ps: seq<Option<Handle>>, it: Item, h: Handle)
  {
    it.Sub? && it.handle < |ps| && ps[it.handle].Some? && ps[it.handle] != Some(h)
  }

  /** The position of the first element of `its` that conflicts with its parent in `ps`; `|its|` when none does. */
  function Clash(ps: seq<Option<Handle>>, its: seq<Item>, h: Handle): (i: nat)
    ensures i <= |its|
    ensures i < |its| ==> Conflicts(ps, its[i], h)
  {
    if its == [] then 0
    else if Conflicts(ps, its[0], h) then 0
    else 1 + Clash(ps, its[1..], h)
  }

  /** No element before the first clash conflicts. */
  lemma {:induction false} ClashIsFirst(ps: seq<Option<Handle>>, its: seq<Item>, h: Handle, j: nat)
    requires j < Clash(ps, its, h)
    ensures !Conflicts(ps, its[j], h)
    decreases j
  {
    if j > 0 {
      ClashIsFirst(ps, its[1..], h, j - 1);
    }
  }

  /**
   * Before the first clash, the element at `i` clashes with its parent after
   * the elements before it were adopted exactly when it clashes with its
   * original parent, and then it is the first clash.
   */
  lemma {:induction false} ClashStep(ps: seq<Option<Handle>>, its: seq<Item>, i: nat, h: Handle)
    requires i < |its| && i <= Clash(ps, its, h) && (its[i].Sub? ==> its[i].handle < |ps|)
    ensures Conflicts(Adopted(ps, its[..i], h), its[i], h) <==> Conflicts(ps, its[i], h)
    ensures Conflicts(ps, its[i], h) <==> Clash(ps, its, h) == i
  {
    if i < Clash(ps, its, h) {
      ClashIsFirst(ps, its, h, i);
    }
    if its[i].Sub? {
      var x := its[i].handle;
      if Sub(x) in its[..i] {
        var j :| 0 <= j < i && its[..i][j] == Sub(x);
        ClashIsFirst(ps, its, h, j);
        assert its[j] == Sub(x);
      }
    }
  }

  /**
   * addMiddle of the elements `its` on token `h` raised, from the slots `ns0`
   * and parents `ps0` to `ns` and `ps`: at the first clash, which was itself
   * appended, and after only the tokens before it were adopted.
   */
  ghost predicate RaisedAt(ns0: seq<Node>, ps0: seq<Option<Handle>>, ns: seq<Node>, ps: seq<Option<Handle>>,
                           h: Handle, its: seq<Item>)
    requires h < |ns0|
  {
    var i := Clash(ps0, its, h);
    i < |its| &&
    ns == ns0[h := ns0[h].(middle := ns0[h].middle + its[..i + 1])] &&
    ps == Adopted(ps0, its[..i], h)
  }

  class Arena {
    /** The left, middle and right slots of every token. */
    var nodes: seq<Node>
    /** The parent reference of every token. */
    var parents: seq<Option<Handle>>

    predicate Valid()
      reads this
    {
      Wellformed(State(nodes, parents))
    }

    /** The whole arena as a value. */
    function St(): State
      reads this
    {
      State(nodes, parents)
    }

    constructor()
      ensures Valid() && nodes == [] && parents == []
    {
      nodes := [];
      parents := [];
    }

    /**
     * setParent: raises when a parent different from an existing one is
     * assigned; clearing, or assigning the same parent again, always succeeds.
     */
    method SetParent(x: Handle, op: Option<Handle>) returns (r: Result<()>)
      requires Valid() && x < |nodes|
      requires op.Some? ==> x < op.value < |nodes|
      modifies this
      ensures Valid() && nodes == old(nodes)
      ensures r.Fail? <==> op.Some? && old(parents[x]).Some? && old(parents[x]) != op
      ensures r.Fail? ==> r.error == ParentConflict && parents == old(parents)
      ensures r.Ok? ==> parents == old(parents)[x := op]
    {
      if op.Some? && parents[x].Some? && parents[x] != op {
        return Fail(ParentConflict);
      }
      parents := parents[x := op];
      r := Ok(());
    }

    /** Allocate a token with empty slots and no parent. */
    method Allocate() returns (h: Handle)
      requires Valid()
      modifies this
      ensures Valid() && h == |old(nodes)|
      ensures nodes == old(nodes) + [Node([], [], [])]
      ensures parents == old(parents) + [None]
    {
      h := |nodes|;
      OrderedAppend(nodes, Node([], [], []));
      nodes := nodes + [Node([], [], [])];
      parents := parents + [None];
    }

    /**
     * addLeft of a single value: a non-token raises; a token is appended to
     * the left slot and then given `h` as parent, which may raise after the
     * append.
     */
    method AddLeft(h: Handle, it: Item) returns (r: Result<()>)
      requires Valid() && h < |nodes| && ItemCeiling(it) <= h
      modifies this
      ensures Valid()
      ensures !it.Sub? ==> r == Fail(InvalidChild) && nodes == old(nodes) && parents == old(parents)
      ensures it.Sub? ==>
        nodes == old(nodes)[h := old(nodes)[h].(left := old(nodes)[h].left + [it.handle])]
      ensures it.Sub? ==>
        (r.Fail? <==> old(parents[it.handle]).Some? && old(parents[it.handle]) != Some(h))
      ensures it.Sub? && r.Ok? ==> parents == old(parents)[it.handle := Some(h)]
      ensures r.Fail? ==> parents == old(parents)
    {
      if !it.Sub? {
        return Fail(InvalidChild);
      }
      var n := nodes[h];
      var n' := n.(left := n.left + [it.handle]);
      assert Below(n, h);
      CeilingSnoc(n.left, it.handle);
      OrderedUpdate(nodes, h, n');
      nodes := nodes[h := n'];
      r := SetParent(it.handle, Some(h));
    }

    /** addRight of a single value, the mirror image of AddLeft. */
    method AddRight(h: Handle, it: Item) returns (r: Result<()>)
      requires Valid() && h < |nodes| && ItemCeiling(it) <= h
      modifies this
      ensures Valid()
      ensures !it.Sub? ==> r == Fail(InvalidChild) && nodes == old(nodes) && parents == old(parents)
      ensures it.Sub? ==>
        nodes == old(nodes)[h := old(nodes)[h].(right := old(nodes)[h].right + [it.handle])]
      ensures it.Sub? ==>
        (r.Fail? <==> old(parents[it.handle]).Some? && old(parents[it.handle]) != Some(h))
      ensures it.Sub? && r.Ok? ==> parents == old(parents)[it.handle := Some(h)]
      ensures r.Fail? ==> parents == old(parents)
    {
      if !it.Sub? {
        return Fail(InvalidChild);
      }
      var n := nodes[h];
      var n' := n.(right := n.right + [it.handle]);
      assert Below(n, h);
      CeilingSnoc(n.right, it.handle);
      OrderedUpdate(nodes, h, n');
      nodes := nodes[h := n'];
      r := SetParent(it.handle, Some(h));
    }

    /** addMiddle of a single value: appended as-is; a token also gets `h` as parent. */
    method AddMiddleItem(h: Handle, it: Item) returns (r: Result<()>)
      requires Valid() && h < |nodes| && ItemCeiling(it) <= h
      modifies this
      ensures Valid()
      ensures nodes == old(nodes)[h := old(nodes)[h].(middle := old(nodes)[h].middle + [it])]
      ensures !it.Sub? ==> r.Ok? && parents == old(parents)
      ensures it.Sub? ==>
        (r.Fail? <==> old(parents[it.handle]).Some? && old(parents[it.handle]) != Some(h))
      ensures it.Sub? && r.Ok? ==> parents == old(parents)[it.handle := Some(h)]
      ensures r.Fail? ==> r.error == ParentConflict && parents == old(parents)
    {
      var n := nodes[h];
      var n' := n.(middle := n.middle + [it]);
      assert Below(n, h);
      ItemsCeilingSnoc(n.middle, it);
      OrderedUpdate(nodes, h, n');
      nodes := nodes[h := n'];
      if it.Sub? {
        r := SetParent(it.handle, Some(h));
      } else {
        r := Ok(());
      }
    }

    /**
     * addMiddle of a value or a list: every element is appended in order and
     * every token among them gets `h` as parent. It raises exactly when one
     * of those tokens already has a different parent: the first such element
     * has then been appended, and only the tokens before it were adopted.
     */
    method AddMiddle(h: Handle, p: Payload) returns (r: Result<()>)
      requires Valid() && h < |nodes| && PayloadCeiling(p) <= h
      modifies this
      ensures Valid() && |nodes| == |old(nodes)|
      ensures r.Ok? ==>
        nodes == old(nodes)[h := old(nodes)[h].(middle := old(nodes)[h].middle + PayloadItems(p))]
      ensures r.Ok? ==> forall x :: 0 <= x < |parents| ==>
        parents[x] == if Sub(x) in PayloadItems(p) then Some(h) else old(parents[x])
      ensures r.Fail? ==> r.error == ParentConflict
      ensures r.Fail? <==> Clash(old(parents), PayloadItems(p), h) < |PayloadItems(p)|
      ensures r.Fail? ==> RaisedAt(old(nodes), old(parents), nodes, parents, h, PayloadItems(p))
      ensures (forall x :: 0 <= x < |old(parents)| && Sub(x) in PayloadItems(p) ==>
        old(parents)[x] in {None, Some(h)}) ==> r.Ok?
    {
      var its := PayloadItems(p);
      assert PayloadCeiling(p) == ItemsCeiling(its) by {
        if p.One? { ItemsCeilingSnoc([], p.item); assert [] + [p.item] == [p.item]; }
      }
      ghost var p0 := parents;
      r := AddMiddleItems(h, its);
      if r.Fail? {
        var i := Clash(p0, its, h);
        assert its[i] in its && Conflicts(p0, its[i], h);
      }
    }

    /** The loop of addMiddle over the elements `its`, stopping at the first element that raises. */
    method AddMiddleItems(h: Handle, its: seq<Item>) returns (r: Result<()>)
      requires Valid() && h < |nodes| && ItemsCeiling(its) <= h
      modifies this
      ensures Valid() && |nodes| == |old(nodes)|
      ensures r.Ok? <==> Clash(old(parents), its, h) == |its|
      ensures r.Ok? ==>
        nodes == old(nodes)[h := old(nodes)[h].(middle := old(nodes)[h].middle + its)] &&
        parents == Adopted(old(parents), its, h)
      ensures r.Fail? ==> r.error == ParentConflict && RaisedAt(old(nodes), old(parents), nodes, parents, h, its)
    {
      ghost var n0 := nodes;
      ghost var p0 := parents;
      var i := 0;
      assert its[..0] == [] && n0[h].middle + [] == n0[h].middle;
      assert parents == Adopted(p0, [], h);
      while i < |its|
        invariant 0 <= i <= |its|
        invariant Valid() && |nodes| == |n0| && |parents| == |p0|
        invariant nodes == n0[h := n0[h].(middle := n0[h].middle + its[..i])]
        invariant parents == Adopted(p0, its[..i], h)
        invariant i <= Clash(p0, its, h)
      {
        ItemsCeilingBound(its, i);
        AdoptedStep(p0, its, i, h);
        ClashStep(p0, its, i, h);
        var step := AddMiddleItem(h, its[i]);
        assert n0[h].middle + its[..i] + [its[i]] == n0[h].middle + its[..i + 1] by {
          assert its[..i + 1] == its[..i] + [its[i]];
        }
        if step.Fail? {
          // The clash is with a parent the token already had before this call.
          return step;
        }
        i := i + 1;
      }
      assert its[..i] == its;
      r := Ok(());
    }

    /**
     * token_descend: the result is the pure Descended; along the way the
     * parent of every token descended through is cleared.
     */
    method Descend(p: Payload) returns (r: Result<Payload>)
      requires Valid() && PayloadCeiling(p) <= |nodes|
      modifies this
      ensures Valid() && nodes == old(nodes) && |parents| == |old(parents)|
      ensures r == Descended(nodes, p)
      ensures forall x :: 0 <= x < |parents| ==> parents[x] == old(parents[x]) || parents[x].None?
      ensures r.Ok? ==> forall x :: 0 <= x < |parents| ==>
        parents[x] == if x in Visited(nodes, p) then None else old(parents[x])
      decreases PayloadCeiling(p), if p.One? then 0 else 1, 2
    {
      match p
      case One(it) =>
        if !it.Sub? {
          return Ok(p);
        }
        r := DescendToken(it.handle);
      case Many(its) =>
        r := DescendList(its);
    }

    /** token_descend of a token: its parent is cleared and its single child, if any, descended into. */
    method DescendToken(h: Handle) returns (r: Result<Payload>)
      requires Valid() && h < |nodes|
      modifies this
      ensures Valid() && nodes == old(nodes) && |parents| == |old(parents)|
      ensures r == Descended(nodes, One(Sub(h)))
      ensures forall x :: 0 <= x < |parents| ==> parents[x] == old(parents[x]) || parents[x].None?
      ensures r.Ok? ==> forall x :: 0 <= x < |parents| ==>
        parents[x] == if x in Visited(nodes, One(Sub(h))) then None else old(parents[x])
      decreases h + 1, 0, 1
    {
      parents := parents[h := None];
      assert Below(nodes[h], h);
      var single := SingleChild(nodes, h);
      match single {
        case Fail(e) =>
          return Fail(e);
        case Ok(Composite) =>
          return Ok(One(Sub(h)));
        case Ok(Only(c)) =>
          ItemsCeilingBound(nodes[h].middle, 0);
          r := Descend(One(c));
        case Ok(Several(its)) =>
          r := Descend(Many(its));
      }
    }

    /** token_descend of a list: every element's parent is cleared; a single element is descended into. */
    method DescendList(its: seq<Item>) returns (r: Result<Payload>)
      requires Valid() && ItemsCeiling(its) <= |nodes|
      modifies this
      ensures Valid() && nodes == old(nodes) && |parents| == |old(parents)|
      ensures r == Descended(nodes, Many(its))
      ensures forall x :: 0 <= x < |parents| ==> parents[x] == old(parents[x]) || parents[x].None?
      ensures r.Ok? ==> forall x :: 0 <= x < |parents| ==>
        parents[x] == if x in Visited(nodes, Many(its)) then None else old(parents[x])
      decreases ItemsCeiling(its), 1, 1
    {
      var ok := ClearListParents(its);
      if !ok {
        return Fail(NonToken);
      }
      if |its| == 1 {
        ItemsCeilingBound(its, 0);
        r := Descend(One(its[0]));
      } else {
        r := Ok(Many(its));
        forall x | 0 <= x < |parents|
          ensures parents[x] == if x in Visited(nodes, Many(its)) then None else old(parents[x])
        {
          if Sub(x) in its {
            var k :| 0 <= k < |its| && its[k] == Sub(x);
            assert its[k].handle == x;
          }
        }
      }
    }

    /**
     * The list case of token_descend: the parent of every element is
     * cleared, up to the first element that is not a token, which raises.
     */
    method ClearListParents(its: seq<Item>) returns (ok: bool)
      requires Valid() && ItemsCeiling(its) <= |nodes|
      modifies this
      ensures Valid() && nodes == old(nodes) && |parents| == |old(parents)|
      ensures ok == AllTokens(its)
      ensures forall x :: 0 <= x < |parents| ==> parents[x] == old(parents[x]) || parents[x].None?
      ensures ok ==> forall x :: 0 <= x < |parents| ==>
        parents[x] == if Sub(x) in its then None else old(parents[x])
    {
      var i := 0;
      while i < |its|
        invariant 0 <= i <= |its|
        invariant Valid() && nodes == old(nodes) && |parents| == |old(parents)|
        invariant forall k :: 0 <= k < i ==> its[k].Sub?
        invariant forall x :: 0 <= x < |parents| ==>
          parents[x] == if Sub(x) in its[..i] then None else old(parents[x])
      {
        if !its[i].Sub? {
          return false;
        }
        ItemsCeilingBound(its, i);
        parents := parents[its[i].handle := None];
        assert its[..i + 1] == its[..i] + [its[i]];
        i := i + 1;
      }
      assert its[..i] == its;
      ok := true;
    }

    /**
     * The constructor GlslToken(token): a falsy value gives a token with
     * empty slots; anything else is descended and placed in the middle slot
     * of a fresh token, which then flattens exactly as the value did.
     */
    method NewToken(p: Payload) returns (r: Result<Handle>)
      requires Valid() && PayloadCeiling(p) <= |nodes|
      modifies this
      ensures Valid()
      ensures r.Fail? <==> !Falsy(p) && Descended(old(nodes), p).Fail?
      ensures r.Fail? ==> r.error == Descended(old(nodes), p).error && nodes == old(nodes)
      ensures r.Ok? ==> r.value == |old(nodes)| && |nodes| == |old(nodes)| + 1
      ensures r.Ok? ==> nodes[..r.value] == old(nodes) && parents[r.value] == None
      ensures r.Ok? && Falsy(p) ==> nodes[r.value] == Node([], [], []) && parents[..r.value] == old(parents)
      ensures r.Ok? && !Falsy(p) ==>
        nodes[r.value] == Node([], PayloadItems(Descended(old(nodes), p).value), [])
      ensures r.Ok? && !Falsy(p) ==> Leaves(nodes, r.value) == PayloadLeaves(old(nodes), p)
      ensures r.Ok? && !Falsy(p) ==> forall x :: 0 <= x < |old(nodes)| ==>
        parents[x] == if Sub(x) in PayloadItems(Descended(old(nodes), p).value) then Some(r.value)
          else if x in Visited(old(nodes), p) then None
          else old(parents[x])
      ensures r.Ok? && RootItems(old(St()), PayloadItems(p)) ==>
        Attached(St(), r.value) && Rewired(old(parents), parents, Handles(PayloadItems(p)))
    {
      ghost var s0 := St();
      if Falsy(p) {
        var h := Allocate();
        assert nodes[..h] == old(nodes);
        r := Ok(h);
      } else {
        r := NewDescended(p);
      }
      if r.Ok? && RootItems(s0, PayloadItems(p)) {
        FreshAttached(s0, St(), p);
      }
    }

    /** The constructor for a value that is not falsy: descend it, then add the result as the middle slot. */
    method NewDescended(p: Payload) returns (r: Result<Handle>)
      requires Valid() && PayloadCeiling(p) <= |nodes| && !Falsy(p)
      modifies this
      ensures Valid()
      ensures r.Fail? <==> Descended(old(nodes), p).Fail?
      ensures r.Fail? ==> r.error == Descended(old(nodes), p).error && nodes == old(nodes)
      ensures r.Ok? ==> r.value == |old(nodes)| && |nodes| == |old(nodes)| + 1
      ensures r.Ok? ==> nodes[..r.value] == old(nodes) && parents[r.value] == None
      ensures r.Ok? ==> nodes[r.value] == Node([], PayloadItems(Descended(old(nodes), p).value), [])
      ensures r.Ok? ==> Leaves(nodes, r.value) == PayloadLeaves(old(nodes), p)
      ensures r.Ok? ==> forall x :: 0 <= x < |old(nodes)| ==>
        parents[x] == if Sub(x) in PayloadItems(Descended(old(nodes), p).value) then Some(r.value)
          else if x in Visited(old(nodes), p) then None
          else old(parents[x])
    {
      var d := Descend(p);
      if d.Fail? {
        return Fail(d.error);
      }
      ghost var ns := nodes;
      ghost var ps := parents;
      var h := Allocate();
      forall x | 0 <= x < |parents| && Sub(x) in PayloadItems(d.value)
        ensures parents[x] == None
      {
        DescendedInVisited(ns, p, x);
      }
      var a := AddMiddle(h, d.value);
      assert a.Ok?;
      r := Ok(h);
      assert [] + PayloadItems(d.value) == PayloadItems(d.value);
      assert nodes == ns + [Node([], PayloadItems(d.value), [])];
      assert nodes[..h] == ns;
      FreshTokenLeaves(ns, p);
    }

    /**
     * flatten: the leaves of the left children, then of the middle
     * elements, then of the right children, in order; an empty middle
     * element raises.
     */
    method Flatten(h: Handle) returns (r: Result<seq<Leaf>>)
      requires Valid() && h < |nodes|
      ensures Leaves(nodes, h) == if r.Ok? then Some(r.value) else None
      ensures r.Fail? ==> r.error == EmptyElement
      decreases h + 1, 0
    {
      var n := nodes[h];
      assert Below(n, h);
      assert Leaves(nodes, h) == Join(Join(HandlesLeaves(nodes, n.left), ItemsLeaves(nodes, n.middle)), HandlesLeaves(nodes, n.right));
      var left := FlattenHandles(n.left);
      if left.Fail? {
        return left;
      }
      var middle := FlattenItems(n.middle);
      if middle.Fail? {
        return middle;
      }
      var right := FlattenHandles(n.right);
      if right.Fail? {
        return right;
      }
      r := Ok(left.value + middle.value + right.value);
    }

    /** The loop of flatten over one flank. */
    method FlattenHandles(hs: seq<Handle>) returns (r: Result<seq<Leaf>>)
      requires Valid() && Ceiling(hs) <= |nodes|
      ensures HandlesLeaves(nodes, hs) == if r.Ok? then Some(r.value) else None
      ensures r.Fail? ==> r.error == EmptyElement
      decreases Ceiling(hs), 1
    {
      var acc: seq<Leaf> := [];
      var i := 0;
      assert hs[..0] == [];
      while i < |hs|
        invariant 0 <= i <= |hs|
        invariant Ceiling(hs[..i]) <= |nodes|
        invariant HandlesLeaves(nodes, hs[..i]) == Some(acc)
      {
        CeilingBound(hs, i);
        CeilingPrefix(hs, i + 1);
        assert hs[..i + 1][..i] == hs[..i];
        var sub := Flatten(hs[i]);
        if sub.Fail? {
          HandlesLeavesNonePrefix(nodes, hs, i + 1);
          return sub;
        }
        acc := acc + sub.value;
        i := i + 1;
      }
      assert hs[..i] == hs;
      r := Ok(acc);
    }

    /** The loop of flatten over the middle slot. */
    method FlattenItems(its: seq<Item>) returns (r: Result<seq<Leaf>>)
      requires Valid() && ItemsCeiling(its) <= |nodes|
      ensures ItemsLeaves(nodes, its) == if r.Ok? then Some(r.value) else None
      ensures r.Fail? ==> r.error == EmptyElement
      decreases ItemsCeiling(its), 1
    {
      var acc: seq<Leaf> := [];
      var i := 0;
      assert its[..0] == [];
      while i < |its|
        invariant 0 <= i <= |its|
        invariant ItemsCeiling(its[..i]) <= |nodes|
        invariant ItemsLeaves(nodes, its[..i]) == Some(acc)
      {
        ItemsCeilingBound(its, i);
        ItemsCeilingPrefix(its, i + 1);
        assert its[..i + 1][..i] == its[..i];
        match its[i] {
          case Sub(c) =>
            var sub := Flatten(c);
            if sub.Fail? {
              ItemsLeavesNonePrefix(nodes, its, i + 1);
              return sub;
            }
            acc := acc + sub.value;
          case Atom(l) =>
            acc := acc + [l];
          case Nil =>
            ItemsLeavesNonePrefix(nodes, its, i + 1);
            return Fail(EmptyElement);
        }
        i := i + 1;
      }
      assert its[..i] == its;
      r := Ok(acc);
    }

    /**
     * removeChild: pop the first occurrence of token `x` from the left
     * slot, else from the right slot, else from the middle slot; raise when
     * no slot holds it, changing nothing.
     */
    method RemoveChild(h: Handle, x: Handle) returns (r: Result<()>)
      requires Valid() && h < |nodes|
      modifies this
      ensures Valid() && parents == old(parents)
      ensures RemoveChildFrom(old(nodes[h]), x).None? ==>
        r == Fail(ChildNotFound) && nodes == old(nodes)
      ensures RemoveChildFrom(old(nodes[h]), x).Some? ==>
        r == Ok(()) && nodes == old(nodes)[h := RemoveChildFrom(old(nodes[h]), x).value]
    {
      var n := nodes[h];
      assert Below(n, h);
      for i := 0 to |n.left|
        invariant x !in n.left[..i]
      {
        if n.left[i] == x {
          FindFirst(n.left, x, i);
          Replace(h, n.(left := RemoveAt(n.left, i)), x);
          return Ok(());
        }
        assert n.left[..i + 1] == n.left[..i] + [n.left[i]];
      }
      assert n.left[..|n.left|] == n.left;
      for i := 0 to |n.right|
        invariant x !in n.right[..i]
      {
        if n.right[i] == x {
          FindFirst(n.right, x, i);
          Replace(h, n.(right := RemoveAt(n.right, i)), x);
          return Ok(());
        }
        assert n.right[..i + 1] == n.right[..i] + [n.right[i]];
      }
      assert n.right[..|n.right|] == n.right;
      for i := 0 to |n.middle|
        invariant Sub(x) !in n.middle[..i]
      {
        if n.middle[i] == Sub(x) {
          FindFirst(n.middle, Sub(x), i);
          Replace(h, n.(middle := RemoveAt(n.middle, i)), x);
          return Ok(());
        }
        assert n.middle[..i + 1] == n.middle[..i] + [n.middle[i]];
      }
      assert n.middle[..|n.middle|] == n.middle;
      r := Fail(ChildNotFound);
    }

    /** Store the slots removeChild computed for `h`. */
    method Replace(h: Handle, n: Node, x: Handle)
      requires Valid() && h < |nodes| && RemoveChildFrom(nodes[h], x) == Some(n)
      modifies this
      ensures Valid() && parents == old(parents) && nodes == old(nodes)[h := n]
    {
      assert Below(nodes[h], h);
      RemoveChildFromBelow(nodes[h], x, h);
      OrderedUpdate(nodes, h, n);
      nodes := nodes[h := n];
    }

    /** removeFromParent: removeChild on the parent, then clear the reference. */
    method RemoveFromParent(x: Handle) returns (r: Result<()>)
      requires Valid() && x < |nodes|
      modifies this
      ensures Valid()
      ensures Detach(old(St()), x).Fail? ==>
        r == Fail(Detach(old(St()), x).error) && St() == old(St())
      ensures Detach(old(St()), x).Ok? ==> r == Ok(()) && St() == Detach(old(St()), x).value
    {
      ghost var s0 := St();
      match parents[x] {
        case None =>
          return Fail(NoParent);
        case Some(p) =>
          var c := RemoveChild(p, x);
          if c.Fail? {
            assert Detach(s0, x) == Fail(ChildNotFound);
            return c;
          }
          parents := parents[x := None];
          r := Ok(());
          assert Detach(s0, x) == Ok(St());
      }
    }

    /** The test of simplify at token `c`, computed with getSingleChild and flatten. */
    method TestStrip(c: Handle) returns (r: Result<bool>)
      requires Valid() && c < |nodes|
      ensures r == StripTest(St(), c)
    {
      var n := nodes[c];
      assert Below(n, c);
      if |n.left| == 1 && |n.right| == 1 {
        CeilingBound(n.left, 0);
        CeilingBound(n.right, 0);
        var left := SingleChild(nodes, n.left[0]);
        var right := SingleChild(nodes, n.right[0]);
        if left.Fail? {
          return Fail(left.error);
        }
        if right.Fail? {
          return Fail(right.error);
        }
        if LeafOf(left) == Some(Paren(true)) && LeafOf(right) == Some(Paren(false)) && |n.middle| == 1 {
          if n.middle[0].Sub? {
            ItemsCeilingBound(n.middle, 0);
            var f := Flatten(n.middle[0].handle);
            if f.Fail? {
              return Fail(EmptyElement);
            }
            return Ok(|f.value| == 1);
          }
          return Ok(true);
        }
      }
      r := Ok(false);
    }

    /**
     * The strip: detach both flanks from their parents, then empty the
     * left and right slots of `c`.
     */
    method Strip(c: Handle) returns (r: Result<bool>)
      requires Valid() && c < |nodes|
      requires |nodes[c].left| == 1 && |nodes[c].right| == 1
      modifies this
      ensures Valid()
      ensures (r, St()) == StripAt(old(St()), c)
    {
      ghost var s := St();
      var n := nodes[c];
      assert Below(n, c);
      CeilingBound(n.left, 0);
      CeilingBound(n.right, 0);
      var a := RemoveFromParent(n.left[0]);
      if a.Fail? {
        assert Detach(s, n.left[0]).Fail?;
        return Fail(a.error);
      }
      DetachKeepsRight(s, n.left[0], c);
      ghost var s1 := St();
      assert s1 == Detach(s, n.left[0]).value;
      var b := RemoveFromParent(nodes[c].right[0]);
      if b.Fail? {
        assert Detach(s1, n.right[0]).Fail?;
        return Fail(b.error);
      }
      assert St() == Detach(s1, n.right[0]).value;
      var m := nodes[c];
      assert Below(m, c);
      OrderedUpdate(nodes, c, m.(left := [], right := []));
      nodes := nodes[c := m.(left := [], right := [])];
      r := Ok(true);
    }

    /**
     * simplify: perform the first strip found in search order and report
     * whether there was one. A search that finds nothing, or raises,
     * leaves every token as it was.
     */
    method Simplify(h: Handle) returns (r: Result<bool>)
      requires Valid() && h < |nodes|
      modifies this
      ensures Valid()
      ensures Searched(old(St()), FindSite(old(St()), h), r, St())
      decreases h + 1, 0
    {
      ghost var s := St();
      var n := nodes[h];
      assert Below(n, h);
      var t := TestStrip(h);
      if t.Fail? {
        return t;
      }
      if t.value {
        r := Strip(h);
        return;
      }
      // Recurse down: left children, right children, then middle tokens.
      r := SimplifyHandles(n.left);
      if r != Ok(false) {
        return;
      }
      r := SimplifyHandles(n.right);
      if r != Ok(false) {
        return;
      }
      r := SimplifyItems(n.middle);
    }

    /** Simplify each token of a list in turn, stopping at the first that did not report false. */
    method SimplifyHandles(hs: seq<Handle>) returns (r: Result<bool>)
      requires Valid() && Ceiling(hs) <= |nodes|
      modifies this
      ensures Valid()
      ensures Searched(old(St()), FindInHandles(old(St()), hs), r, St())
      decreases Ceiling(hs), 1
    {
      ghost var s := St();
      for i := 0 to |hs|
        invariant St() == s
        invariant Ceiling(hs[..i]) <= |nodes| && FindInHandles(s, hs[..i]) == Ok(None)
      {
        CeilingBound(hs, i);
        FindInHandlesPrefix(s, hs, i + 1);
        assert hs[..i + 1][..i] == hs[..i];
        r := Simplify(hs[i]);
        if r != Ok(false) {
          return;
        }
      }
      assert hs[..|hs|] == hs;
      r := Ok(false);
    }

    /** Simplify each token-valued element of a middle slot in turn, as SimplifyHandles does. */
    method SimplifyItems(its: seq<Item>) returns (r: Result<bool>)
      requires Valid() && ItemsCeiling(its) <= |nodes|
      modifies this
      ensures Valid()
      ensures Searched(old(St()), FindInItems(old(St()), its), r, St())
      decreases ItemsCeiling(its), 1
    {
      ghost var s := St();
      for i := 0 to |its|
        invariant St() == s
        invariant ItemsCeiling(its[..i]) <= |nodes| && FindInItems(s, its[..i]) == Ok(None)
      {
        ItemsCeilingBound(its, i);
        FindInItemsPrefix(s, its, i + 1);
        assert its[..i + 1][..i] == its[..i];
        if its[i].Sub? {
          r := Simplify(its[i].handle);
          if r != Ok(false) {
            return;
          }
        }
      }
      assert its[..|its|] == its;
      r := Ok(false);
    }
  }
}

=== FILE: token_attach.dfy ===
/**
 * Parent references that agree with the slots.
 *
 * A GlslToken keeps both its children (in its slots) and a reference to its
 * parent, and simplify detaches a flank through the flank's own parent
 * reference. A tree is Attached when every token in it names, as its parent,
 * the token whose slot holds it; `Under` follows parent references upwards.
 */
module GlslAttach {
  import opened GlslLeaf
  import opened GlslTree
  import opened GlslRewrite

  /** Following parent references upwards from `x` reaches `h`. */
  ghost predicate Under(ps: seq<Option<Handle>>, x: Handle, h: Handle)
    decreases h - x
  {
    x == h || (x < h && x < |ps| && ps[x].Some? && x < ps[x].value && Under(ps, ps[x].value, h))
  }

  /** Every token in the tree of `h` has the token whose slot holds it as its parent. */
  ghost predicate Attached(s: State, h: Handle)
    requires Wellformed(s) && h < |s.nodes|
    decreases h + 1, 0
  {
    var n := s.nodes[h];
    assert Below(n, h);
    HandlesAttached(s, n.left, h) && HandlesAttached(s, n.right, h) && ItemsAttached(s, n.middle, h)
  }

  /** Every token of `hs` has `p` as its parent and an Attached tree. */
  ghost predicate HandlesAttached(s: State, hs: seq<Handle>, p: Handle)
    requires Wellformed(s) && Ceiling(hs) <= |s.nodes|
    decreases Ceiling(hs), 1, |hs|
  {
    hs != [] ==>
      HandlesAttached(s, hs[..|hs| - 1], p) &&
      s.parents[hs[|hs| - 1]] == Some(p) && Attached(s, hs[|hs| - 1])
  }

  /** Every token-valued element of `its` has `p` as its parent and an Attached tree. */
  ghost predicate ItemsAttached(s: State, its: seq<Item>, p: Handle)
    requires Wellformed(s) && ItemsCeiling(its) <= |s.nodes|
    decreases ItemsCeiling(its), 1, |its|
  {
    its != [] ==>
      ItemsAttached(s, its[..|its| - 1], p) &&
      (its[|its| - 1].Sub? ==>
         s.parents[its[|its| - 1].handle] == Some(p) && Attached(s, its[|its| - 1].handle))
  }

  // ---------------------------------------------------------------------
  // simplify on an Attached tree

  /** In an Attached tree, the flanks of the site simplify finds name that site as their parent. */
  lemma {:induction false} AttachedSite(s: State, h: Handle, c: Handle)
    requires Wellformed(s) && h < |s.nodes| && Attached(s, h) && FindSite(s, h) == Ok(Some(c))
    ensures c < |s.nodes| && StripTest(s, c) == Ok(true)
    ensures |s.nodes[c].left| == 1 && |s.nodes[c].right| == 1
    ensures s.parents[s.nodes[c].left[0]] == Some(c) && s.parents[s.nodes[c].right[0]] == Some(c)
    decreases h + 1, 0
  {
    var n := s.nodes[h];
    assert Below(n, h);
    if StripTest(s, h) == Ok(true) {
      assert n.left == n.left[..0] + [n.left[0]] && n.right == n.right[..0] + [n.right[0]];
    } else if FindInHandles(s, n.left) != Ok(None) {
      HandlesSite(s, n.left, h, c);
    } else if FindInHandles(s, n.right) != Ok(None) {
      HandlesSite(s, n.right, h, c);
    } else {
      ItemsSite(s, n.middle, h, c);
    }
  }

  lemma {:induction false} HandlesSite(s: State, hs: seq<Handle>, p: Handle, c: Handle)
    requires Wellformed(s) && Ceiling(hs) <= |s.nodes| && HandlesAttached(s, hs, p)
    requires FindInHandles(s, hs) == Ok(Some(c))
    ensures c < |s.nodes| && StripTest(s, c) == Ok(true)
    ensures |s.nodes[c].left| == 1 && |s.nodes[c].right| == 1
    ensures s.parents[s.nodes[c].left[0]] == Some(c) && s.parents[s.nodes[c].right[0]] == Some(c)
    decreases Ceiling(hs), 1, |hs|
  {
    var init := hs[..|hs| - 1];
    if FindInHandles(s, init) != Ok(None) {
      HandlesSite(s, init, p, c);
    } else {
      CeilingBound(hs, |hs| - 1);
      AttachedSite(s, hs[|hs| - 1], c);
    }
  }

  lemma {:induction false} ItemsSite(s: State, its: seq<Item>, p: Handle, c: Handle)
    requires Wellformed(s) && ItemsCeiling(its) <= |s.nodes| && ItemsAttached(s, its, p)
    requires FindInItems(s, its) == Ok(Some(c))
    ensures c < |s.nodes| && StripTest(s, c) == Ok(true)
    ensures |s.nodes[c].left| == 1 && |s.nodes[c].right| == 1
    ensures s.parents[s.nodes[c].left[0]] == Some(c) && s.parents[s.nodes[c].right[0]] == Some(c)
    decreases ItemsCeiling(its), 1, |its|
  {
    var init := its[..|its| - 1];
    if FindInItems(s, init) != Ok(None) {
      ItemsSite(s, init, p, c);
    } else {
      ItemsCeilingBound(its, |its| - 1);
      AttachedSite(s, its[|its| - 1].handle, c);
    }
  }

  /**
   * On an Attached tree, a search that finds a site makes simplify strip
   * it: the strip succeeds, the site keeps only its middle, and the site
   * flattens to its old leaves minus the outer `(` and `)`.
   */
  lemma AttachedStrip(s: State, h: Handle)
    requires Wellformed(s) && h < |s.nodes| && Attached(s, h)
    requires FindSite(s, h).Ok? && FindSite(s, h).value.Some?
    ensures var c := FindSite(s, h).value.value;
      c < |s.nodes| && StripTest(s, c) == Ok(true) &&
      |s.nodes[c].left| == 1 && |s.nodes[c].right| == 1 &&
      StripAt(s, c).0 == Ok(true) &&
      StripAt(s, c).1.nodes == s.nodes[c := Node([], s.nodes[c].middle, [])] &&
      var before := Leaves(s.nodes, c);
      var after := Leaves(StripAt(s, c).1.nodes, c);
      (before.None? ==> after.None?) &&
      (before.Some? ==> |before.value| == 3 && after == Some(before.value[1..2]))
  {
    var c := FindSite(s, h).value.value;
    AttachedSite(s, h, c);
    StripAtSite(s, c);
  }

  // ---------------------------------------------------------------------
  // Parent chains

  lemma UnderAtMost(ps: seq<Option<Handle>>, x: Handle, h: Handle)
    requires Under(ps, x, h)
    ensures x <= h
  {
  }

  /** A token with no parent is under no token but itself. */
  lemma UnderParentless(ps: seq<Option<Handle>>, x: Handle, h: Handle)
    requires x < |ps| && ps[x].None? && Under(ps, x, h)
    ensures x == h
  {
  }

  lemma {:induction false} UnderTrans(ps: seq<Option<Handle>>, x: Handle, y: Handle, z: Handle)
    requires Under(ps, x, y) && Under(ps, y, z)
    ensures Under(ps, x, z)
    decreases y - x
  {
    if x != y {
      UnderTrans(ps, ps[x].value, y, z);
      UnderAtMost(ps, y, z);
    }
  }

  /** The chain from `x` ends at one token with no parent: two such tokens above `x` are the same. */
  lemma {:induction false} UnderOneRoot(ps: seq<Option<Handle>>, x: Handle, h: Handle, k: Handle)
    requires h < |ps| && ps[h].None? && k < |ps| && ps[k].None?
    requires Under(ps, x, h) && Under(ps, x, k)
    ensures h == k
    decreases h - x
  {
    if x == h {
      UnderParentless(ps, x, k);
    } else if x == k {
      UnderParentless(ps, x, h);
    } else {
      UnderOneRoot(ps, ps[x].value, h, k);
    }
  }

  /** `ps1` keeps the parent of every token strictly under `top` in `ps0`. */
  ghost predicate Agree(ps0: seq<Option<Handle>>, ps1: seq<Option<Handle>>, top: Handle)
  {
    forall x :: 0 <= x < |ps0| && x != top && Under(ps0, x, top) ==> x < |ps1| && ps1[x] == ps0[x]
  }

  /** The arena grew and kept its old slots. */
  predicate Grown(s0: State, s1: State)
  {
    |s0.nodes| <= |s1.nodes| && s1.nodes[..|s0.nodes|] == s0.nodes
  }

  /** The first `k` slots are the same in both arenas. */
  predicate Kept(s0: State, s1: State, k: nat)
  {
    k <= |s0.nodes| && k <= |s1.nodes| && s1.nodes[..k] == s0.nodes[..k]
  }

  lemma KeptFewer(s0: State, s1: State, k: nat, j: nat)
    requires Kept(s0, s1, k) && j <= k
    ensures Kept(s0, s1, j)
  {
    assert s1.nodes[..j] == s1.nodes[..k][..j];
    assert s0.nodes[..j] == s0.nodes[..k][..j];
  }

  lemma GrownKept(s0: State, s1: State, k: nat)
    requires Grown(s0, s1) && k <= |s0.nodes|
    ensures Kept(s0, s1, k)
  {
    KeptFewer(s0, s1, |s0.nodes|, k);
  }

  /**
   * Attached only depends on the slots of the tokens below the root, and on
   * the parents of the tokens under `top`, which `Agree` keeps.
   */
  lemma {:induction false} AttachedFrame(s0: State, s1: State, h: Handle, top: Handle)
    requires Wellformed(s0) && Wellformed(s1) && Kept(s0, s1, h + 1)
    requires Under(s0.parents, h, top) && Agree(s0.parents, s1.parents, top)
    requires Attached(s0, h)
    ensures Attached(s1, h)
    decreases h + 1, 0
  {
    var n := s0.nodes[h];
    assert Below(n, h);
    assert s1.nodes[..h + 1][h] == s1.nodes[h];
    assert s1.nodes[h] == n;
    KeptFewer(s0, s1, h + 1, Ceiling(n.left));
    KeptFewer(s0, s1, h + 1, Ceiling(n.right));
    KeptFewer(s0, s1, h + 1, ItemsCeiling(n.middle));
    HandlesAttachedFrame(s0, s1, n.left, h, top);
    HandlesAttachedFrame(s0, s1, n.right, h, top);
    ItemsAttachedFrame(s0, s1, n.middle, h, top);
  }

  lemma {:induction false} HandlesAttachedFrame(s0: State, s1: State, hs: seq<Handle>, p: Handle, top: Handle)
    requires Wellformed(s0) && Wellformed(s1) && Kept(s0, s1, Ceiling(hs))
    requires Under(s0.parents, p, top) && Agree(s0.parents, s1.parents, top)
    requires HandlesAttached(s0, hs, p)
    ensures HandlesAttached(s1, hs, p)
    decreases Ceiling(hs), 1, |hs|
  {
    if hs != [] {
      var k := hs[|hs| - 1];
      CeilingPrefix(hs, |hs| - 1);
      CeilingBound(hs, |hs| - 1);
      KeptFewer(s0, s1, Ceiling(hs), Ceiling(hs[..|hs| - 1]));
      KeptFewer(s0, s1, Ceiling(hs), k + 1);
      HandlesAttachedFrame(s0, s1, hs[..|hs| - 1], p, top);
      UnderAtMost(s0.parents, p, top);
      assert Under(s0.parents, k, top);
      AttachedFrame(s0, s1, k, top);
    }
  }

  lemma {:induction false} ItemsAttachedFrame(s0: State, s1: State, its: seq<Item>, p: Handle, top: Handle)
    requires Wellformed(s0) && Wellformed(s1) && Kept(s0, s1, ItemsCeiling(its))
    requires Under(s0.parents, p, top) && Agree(s0.parents, s1.parents, top)
    requires ItemsAttached(s0, its, p)
    ensures ItemsAttached(s1, its, p)
    decreases ItemsCeiling(its), 1, |its|
  {
    if its != [] {
      ItemsCeilingPrefix(its, |its| - 1);
      KeptFewer(s0, s1, ItemsCeiling(its), ItemsCeiling(its[..|its| - 1]));
      ItemsAttachedFrame(s0, s1, its[..|its| - 1], p, top);
      var it := its[|its| - 1];
      if it.Sub? {
        ItemsCeilingBound(its, |its| - 1);
        KeptFewer(s0, s1, ItemsCeiling(its), it.handle + 1);
        UnderAtMost(s0.parents, p, top);
        assert Under(s0.parents, it.handle, top);
        AttachedFrame(s0, s1, it.handle, top);
      }
    }
  }

  /** Every token-valued element of an Attached list has the list's owner as parent and an Attached tree. */
  lemma {:induction false} ItemsAttachedAt(s: State, its: seq<Item>, p: Handle, i: nat)
    requires Wellformed(s) && ItemsCeiling(its) <= |s.nodes| && ItemsAttached(s, its, p)
    requires i < |its| && its[i].Sub?
    ensures its[i].handle < |s.nodes| && s.parents[its[i].handle] == Some(p) && Attached(s, its[i].handle)
    decreases |its|
  {
    ItemsCeilingBound(its, i);
    if i < |its| - 1 {
      ItemsAttachedAt(s, its[..|its| - 1], p, i);
    }
  }

  // ---------------------------------------------------------------------
  // What a build step may do to parent references

  /** `x` lies under one of `roots`. */
  ghost predicate UnderAny(ps: seq<Option<Handle>>, x: Handle, roots: set<Handle>)
  {
    exists h :: h in roots && Under(ps, x, h)
  }

  /**
   * From `ps0` to `ps1`, the parent of an old token only changed if the
   * token lies under one of `roots`, and then it was cleared or set to a
   * token created since.
   */
  ghost predicate Rewired(ps0: seq<Option<Handle>>, ps1: seq<Option<Handle>>, roots: set<Handle>)
  {
    |ps0| <= |ps1| &&
    forall x :: 0 <= x < |ps0| ==>
      ps1[x] == ps0[x] || (UnderAny(ps0, x, roots) && (ps1[x].None? || |ps0| <= ps1[x].value))
  }

  function Elems(lst: seq<Handle>): set<Handle>
  {
    set h | h in lst
  }

  /** Distinct tokens without a parent, each with an Attached tree: what the builder receives. */
  ghost predicate Roots(s: State, lst: seq<Handle>)
    requires Wellformed(s)
  {
    (forall i :: 0 <= i < |lst| ==>
       lst[i] < |s.nodes| && s.parents[lst[i]].None? && Attached(s, lst[i])) &&
    (forall i, j :: 0 <= i < j < |lst| ==> lst[i] != lst[j])
  }

  lemma UnderAnyMono(ps: seq<Option<Handle>>, x: Handle, r1: set<Handle>, r2: set<Handle>)
    requires UnderAny(ps, x, r1) && r1 <= r2
    ensures UnderAny(ps, x, r2)
  {
  }

  /**
   * A chain of new parents from an old token either was a chain before or
   * passes through a rewired token.
   */
  lemma {:induction false} UnderTransfer(s0: State, ps1: seq<Option<Handle>>, roots: set<Handle>, x: Handle, h: Handle)
    requires Wellformed(s0) && Rewired(s0.parents, ps1, roots) && x < |s0.parents|
    requires Under(ps1, x, h)
    ensures (h < |s0.parents| && Under(s0.parents, x, h)) || UnderAny(s0.parents, x, roots)
    decreases h - x
  {
    var ps0 := s0.parents;
    if x != h && ps1[x] == ps0[x] {
      var q := ps1[x].value;
      UnderTransfer(s0, ps1, roots, q, h);
      assert Under(ps0, x, q);
      if UnderAny(ps0, q, roots) {
        var r :| r in roots && Under(ps0, q, r);
        UnderTrans(ps0, x, q, r);
      } else {
        UnderTrans(ps0, x, q, h);
      }
    }
  }

  /** Two build steps in a row rewire no more than the roots of both, seen from before the first. */
  lemma {:induction false} RewiredTrans(s0: State, ps1: seq<Option<Handle>>, ps2: seq<Option<Handle>>,
                                        r1: set<Handle>, r2: set<Handle>, r: set<Handle>)
    requires Wellformed(s0) && Rewired(s0.parents, ps1, r1) && Rewired(ps1, ps2, r2)
    requires r1 <= r && forall h :: h in r2 && h < |s0.parents| ==> h in r
    ensures Rewired(s0.parents, ps2, r)
  {
    var ps0 := s0.parents;
    forall x | 0 <= x < |ps0|
      ensures ps2[x] == ps0[x] || (UnderAny(ps0, x, r) && (ps2[x].None? || |ps0| <= ps2[x].value))
    {
      if ps1[x] != ps0[x] {
        UnderAnyMono(ps0, x, r1, r);
      }
      if ps2[x] != ps1[x] {
        var h :| h in r2 && Under(ps1, x, h);
        UnderTransfer(s0, ps1, r1, x, h);
        if !UnderAny(ps0, x, r1) {
          assert h in r;
        } else {
          UnderAnyMono(ps0, x, r1, r);
        }
      }
    }
  }

  /** Roots outside the rewired part stay parentless and Attached. */
  lemma RootsKept(s0: State, s1: State, lst: seq<Handle>, r: set<Handle>)
    requires Wellformed(s0) && Wellformed(s1) && Grown(s0, s1)
    requires Roots(s0, lst) && Rewired(s0.parents, s1.parents, r)
    requires forall h :: h in r ==> h < |s0.parents| && s0.parents[h].None?
    requires forall i :: 0 <= i < |lst| ==> lst[i] !in r
    ensures Roots(s1, lst)
  {
    var ps0, ps1 := s0.parents, s1.parents;
    forall i | 0 <= i < |lst|
      ensures lst[i] < |s1.nodes| && ps1[lst[i]].None? && Attached(s1, lst[i])
    {
      var y := lst[i];
      if ps1[y] != ps0[y] {
        var h :| h in r && Under(ps0, y, h);
        UnderParentless(ps0, y, h);
      }
      forall x | 0 <= x < |ps0| && x != y && Under(ps0, x, y)
        ensures x < |ps1| && ps1[x] == ps0[x]
      {
        if ps1[x] != ps0[x] {
          var h :| h in r && Under(ps0, x, h);
          UnderOneRoot(ps0, x, y, h);
        }
      }
      GrownKept(s0, s1, y + 1);
      AttachedFrame(s0, s1, y, y);
    }
  }

  // ---------------------------------------------------------------------
  // The constructor on Attached tokens

  /** The tokens among `its`. */
  function Handles(its: seq<Item>): set<Handle>
  {
    set i | 0 <= i < |its| && its[i].Sub? :: its[i].handle
  }

  /** Every token among `its` has no parent and an Attached tree. */
  ghost predicate RootItems(s: State, its: seq<Item>)
    requires Wellformed(s)
  {
    forall i :: 0 <= i < |its| && its[i].Sub? ==>
      its[i].handle < |s.nodes| && s.parents[its[i].handle].None? && Attached(s, its[i].handle)
  }

  /**
   * A descent that ends at Attached tokens: every token it ends at has an
   * Attached tree, and no other token whose parent it cleared lies under one.
   */
  ghost predicate CleanDescent(s: State, p: Payload)
    requires Wellformed(s) && PayloadCeiling(p) <= |s.nodes| && Descended(s.nodes, p).Ok?
  {
    var its := PayloadItems(Descended(s.nodes, p).value);
    forall i :: 0 <= i < |its| && its[i].Sub? ==>
      its[i].handle < |s.nodes| && Attached(s, its[i].handle) &&
      forall y :: y in Visited(s.nodes, p) && y != its[i].handle ==> !Under(s.parents, y, its[i].handle)
  }

  lemma UnderAbove(ps: seq<Option<Handle>>, y: Handle, x: Handle)
    requires y < |ps| && ps[y].Some? && x < ps[y].value && y != x
    ensures !Under(ps, y, x)
  {
    if Under(ps, y, x) {
      UnderAtMost(ps, ps[y].value, x);
    }
  }

  /** Descending from an Attached token stays under it and ends cleanly. */
  lemma {:induction false} DescendAttached(s: State, h: Handle)
    requires Wellformed(s) && h < |s.nodes| && Attached(s, h)
    requires Descended(s.nodes, One(Sub(h))).Ok?
    ensures forall y :: y in Visited(s.nodes, One(Sub(h))) ==> Under(s.parents, y, h)
    ensures CleanDescent(s, One(Sub(h)))
    decreases h, 1
  {
    var ns := s.nodes;
    assert Below(ns[h], h);
    match SingleChild(ns, h) {
      case Ok(Composite) =>
        assert PayloadItems(Descended(ns, One(Sub(h))).value) == [Sub(h)];
        assert Visited(ns, One(Sub(h))) == {h};
      case Ok(Only(c)) =>
        DescendOnly(s, h);
      case Ok(Several(m)) =>
        DescendSeveral(s, h);
    }
  }

  /** The descent through a token whose middle is one element. */
  lemma {:induction false} DescendOnly(s: State, h: Handle)
    requires Wellformed(s) && h < |s.nodes| && Attached(s, h)
    requires SingleChild(s.nodes, h).Ok? && SingleChild(s.nodes, h).value.Only?
    requires Descended(s.nodes, One(Sub(h))).Ok?
    ensures forall y :: y in Visited(s.nodes, One(Sub(h))) ==> Under(s.parents, y, h)
    ensures CleanDescent(s, One(Sub(h)))
    decreases h, 0
  {
    var ns, ps := s.nodes, s.parents;
    var n := ns[h];
    assert Below(n, h);
    var c := n.middle[0];
    ItemsCeilingBound(n.middle, 0);
    var q := Descended(ns, One(Sub(h))).value;
    assert q == Descended(ns, One(c)).value;
    var its := PayloadItems(q);
    var v := Visited(ns, One(Sub(h)));
    assert v == {h} + Visited(ns, One(c));
    if c.Sub? {
      ItemsAttachedAt(s, n.middle, h, 0);
      DescendAttached(s, c.handle);
      forall y | y in v ensures Under(ps, y, h) {
        if y != h {
          assert Under(ps, c.handle, h);
          UnderTrans(ps, y, c.handle, h);
        }
      }
      forall i | 0 <= i < |its| && its[i].Sub?
        ensures its[i].handle < |ns| && Attached(s, its[i].handle) &&
          forall y :: y in v && y != its[i].handle ==> !Under(ps, y, its[i].handle)
      {
        var x := its[i].handle;
        ItemsCeilingBound(its, i);
        assert ItemsCeiling(its) == PayloadCeiling(q) by {
          if q.One? { ItemsCeilingSnoc([], q.item); assert [] + [q.item] == [q.item]; }
        }
        if Under(ps, h, x) {
          UnderAtMost(ps, h, x);
        }
      }
    } else {
      assert its == [c];
    }
  }

  /** The descent through a token whose middle is a list of several elements. */
  lemma {:induction false} DescendSeveral(s: State, h: Handle)
    requires Wellformed(s) && h < |s.nodes| && Attached(s, h)
    requires SingleChild(s.nodes, h).Ok? && SingleChild(s.nodes, h).value.Several?
    requires Descended(s.nodes, One(Sub(h))).Ok?
    ensures forall y :: y in Visited(s.nodes, One(Sub(h))) ==> Under(s.parents, y, h)
    ensures CleanDescent(s, One(Sub(h)))
    decreases h, 0
  {
    var ns, ps := s.nodes, s.parents;
    var n := ns[h];
    assert Below(n, h);
    var m := n.middle;
    var its := PayloadItems(Descended(ns, One(Sub(h))).value);
    assert its == m;
    var v := Visited(ns, One(Sub(h)));
    assert v == {h} + Visited(ns, Many(m));
    forall y | y in v && y != h
      ensures exists j :: 0 <= j < |m| && m[j].Sub? && m[j].handle == y
    {
    }
    forall i | 0 <= i < |its| && its[i].Sub?
      ensures its[i].handle < |ns| && Attached(s, its[i].handle) &&
        forall y :: y in v && y != its[i].handle ==> !Under(ps, y, its[i].handle)
    {
      var x := its[i].handle;
      ItemsAttachedAt(s, m, h, i);
      forall y | y in v && y != x ensures !Under(ps, y, x) {
        if y == h {
          if Under(ps, h, x) {
            UnderAtMost(ps, h, x);
          }
        } else {
          var j :| 0 <= j < |m| && m[j].Sub? && m[j].handle == y;
          ItemsAttachedAt(s, m, h, j);
          UnderAbove(ps, y, x);
        }
      }
    }
    forall y | y in v ensures Under(ps, y, h) {
      if y != h {
        var j :| 0 <= j < |m| && m[j].Sub? && m[j].handle == y;
        ItemsAttachedAt(s, m, h, j);
        assert Under(ps, h, h);
      }
    }
  }

  /** A list whose every token has `p` as parent and an Attached tree is Attached to `p`. */
  lemma {:induction false} ItemsAttachedAll(s: State, its: seq<Item>, p: Handle)
    requires Wellformed(s) && ItemsCeiling(its) <= |s.nodes|
    requires forall i :: 0 <= i < |its| && its[i].Sub? ==>
      its[i].handle < |s.nodes| && s.parents[its[i].handle] == Some(p) && Attached(s, its[i].handle)
    ensures ItemsAttached(s, its, p)
    decreases |its|
  {
    if its != [] {
      var init := its[..|its| - 1];
      ItemsCeilingPrefix(its, |its| - 1);
      assert forall i :: 0 <= i < |init| ==> init[i] == its[i];
      ItemsAttachedAll(s, init, p);
    }
  }

  /** Descending a payload of parentless Attached tokens stays under them and ends cleanly. */
  lemma {:induction false} PayloadDescent(s: State, p: Payload)
    requires Wellformed(s) && PayloadCeiling(p) <= |s.nodes| && RootItems(s, PayloadItems(p))
    requires Descended(s.nodes, p).Ok?
    ensures forall y :: y in Visited(s.nodes, p) ==> UnderAny(s.parents, y, Handles(PayloadItems(p)))
    ensures CleanDescent(s, p)
  {
    var ns, ps := s.nodes, s.parents;
    var its := PayloadItems(p);
    match p {
      case One(it) =>
        if it.Sub? {
          assert its[0] == it;
          DescendAttached(s, it.handle);
          assert it.handle in Handles(its);
        }
      case Many(m) =>
        if |m| == 1 {
          ItemsCeilingBound(m, 0);
          DescendAttached(s, m[0].handle);
          assert m[0].handle in Handles(its);
        } else {
          forall y | y in Visited(ns, p) ensures UnderAny(ps, y, Handles(its)) {
            assert Under(ps, y, y);
          }
          forall i | 0 <= i < |m| && m[i].Sub?
            ensures m[i].handle < |ns| && Attached(s, m[i].handle) &&
              forall y :: y in Visited(ns, p) && y != m[i].handle ==> !Under(ps, y, m[i].handle)
          {
            forall y | y in Visited(ns, p) && y != m[i].handle ensures !Under(ps, y, m[i].handle) {
              var j :| 0 <= j < |m| && m[j].Sub? && m[j].handle == y;
              if Under(ps, y, m[i].handle) {
                UnderParentless(ps, y, m[i].handle);
              }
            }
          }
        }
    }
  }

  /**
   * The constructor on a payload of parentless Attached tokens: the fresh
   * token is Attached, and only parents under the payload's tokens changed.
   * Its arguments are the arena before and after, as NewToken states them.
   */
  lemma TokenAttached(s: State, s2: State, p: Payload)
    requires Wellformed(s) && Wellformed(s2) && Grown(s, s2) && PayloadCeiling(p) <= |s.nodes|
    requires RootItems(s, PayloadItems(p)) && Descended(s.nodes, p).Ok?
    requires |s2.nodes| == |s.nodes| + 1
    requires s2.nodes[|s.nodes|] == Node([], PayloadItems(Descended(s.nodes, p).value), [])
    requires forall x :: 0 <= x < |s.parents| ==>
      s2.parents[x] == if Sub(x) in PayloadItems(Descended(s.nodes, p).value) then Some(|s.nodes|)
        else if x in Visited(s.nodes, p) then None else s.parents[x]
    ensures Attached(s2, |s.nodes|)
    ensures Rewired(s.parents, s2.parents, Handles(PayloadItems(p)))
  {
    var ns, ps, ps2 := s.nodes, s.parents, s2.parents;
    var r := |ns|;
    var q := Descended(ns, p).value;
    var its := PayloadItems(q);
    PayloadDescent(s, p);
    assert ItemsCeiling(its) == PayloadCeiling(q) by {
      if q.One? { ItemsCeilingSnoc([], q.item); assert [] + [q.item] == [q.item]; }
    }
    forall i | 0 <= i < |its| && its[i].Sub?
      ensures its[i].handle < |s2.nodes| && ps2[its[i].handle] == Some(r) && Attached(s2, its[i].handle)
    {
      var x := its[i].handle;
      assert Sub(x) in its;
      forall y | 0 <= y < |ps| && y != x && Under(ps, y, x) ensures y < |ps2| && ps2[y] == ps[y] {
        if Sub(y) in its {
          DescendedInVisited(ns, p, y);
        }
      }
      GrownKept(s, s2, x + 1);
      AttachedFrame(s, s2, x, x);
    }
    assert Below(s2.nodes[r], r);
    ItemsAttachedAll(s2, its, r);
    forall x | 0 <= x < |ps|
      ensures ps2[x] == ps[x] || (UnderAny(ps, x, Handles(PayloadItems(p))) && (ps2[x].None? || |ps| <= ps2[x].value))
    {
      if Sub(x) in its {
        DescendedInVisited(ns, p, x);
      }
    }
  }

  /** A fresh token, falsy payload or not, has an Attached tree, and only parents under the payload's tokens changed. */
  lemma FreshAttached(s: State, s2: State, p: Payload)
    requires Wellformed(s) && Wellformed(s2) && PayloadCeiling(p) <= |s.nodes| && RootItems(s, PayloadItems(p))
    requires |s2.nodes| == |s.nodes| + 1 && s2.nodes[..|s.nodes|] == s.nodes
    requires Falsy(p) ==> s2.nodes[|s.nodes|] == Node([], [], []) && s2.parents[..|s.nodes|] == s.parents
    requires !Falsy(p) ==> Descended(s.nodes, p).Ok?
    requires !Falsy(p) ==> s2.nodes[|s.nodes|] == Node([], PayloadItems(Descended(s.nodes, p).value), [])
    requires !Falsy(p) ==> forall x :: 0 <= x < |s.parents| ==>
      s2.parents[x] == if Sub(x) in PayloadItems(Descended(s.nodes, p).value) then Some(|s.nodes|)
        else if x in Visited(s.nodes, p) then None else s.parents[x]
    ensures Attached(s2, |s.nodes|)
    ensures Rewired(s.parents, s2.parents, Handles(PayloadItems(p)))
  {
    if Falsy(p) {
      assert forall x :: 0 <= x < |s.parents| ==> s2.parents[x] == s2.parents[..|s.nodes|][x];
    } else {
      TokenAttached(s, s2, p);
    }
  }

  /** Rewiring under no root changes no old parent. */
  lemma RewiredNone(ps0: seq<Option<Handle>>, ps1: seq<Option<Handle>>)
    requires Rewired(ps0, ps1, {})
    ensures ps1[..|ps0|] == ps0
  {
  }

  /** Keeping every old parent is a rewiring under any roots. */
  lemma RewiredSame(ps0: seq<Option<Handle>>, ps1: seq<Option<Handle>>, roots: set<Handle>)
    requires |ps0| <= |ps1| && ps1[..|ps0|] == ps0
    ensures Rewired(ps0, ps1, roots)
  {
    assert forall x :: 0 <= x < |ps0| ==> ps1[x] == ps1[..|ps0|][x];
  }

  /** From `ps0` to `ps1`, the parent of an old token only changed if the token lies under one of `roots`. */
  ghost predicate Moved(ps0: seq<Option<Handle>>, ps1: seq<Option<Handle>>, roots: set<Handle>)
  {
    |ps0| <= |ps1| && forall x :: 0 <= x < |ps0| ==> ps1[x] == ps0[x] || UnderAny(ps0, x, roots)
  }

  /** From `ps0` to `ps1`, only tokens of `flanks` changed parent, and each got `t`. */
  ghost predicate FlankParents(ps0: seq<Option<Handle>>, ps1: seq<Option<Handle>>, t: Handle, flanks: set<Handle>)
  {
    |ps0| <= |ps1| && forall x :: 0 <= x < |ps0| ==> ps1[x] == ps0[x] || (x in flanks && ps1[x] == Some(t))
  }

  /** A rewiring followed by giving some of its roots the parent `t`, created since, is a rewiring. */
  lemma RewiredFlanks(ps0: seq<Option<Handle>>, ps1: seq<Option<Handle>>, ps2: seq<Option<Handle>>,
                      roots: set<Handle>, t: Handle, flanks: set<Handle>)
    requires Rewired(ps0, ps1, roots) && FlankParents(ps1, ps2, t, flanks) && flanks <= roots && |ps0| <= t
    ensures Rewired(ps0, ps2, roots)
  {
    forall x | 0 <= x < |ps0| && ps2[x] != ps1[x] ensures UnderAny(ps0, x, roots) {
      assert Under(ps0, x, x);
    }
  }

  lemma RewiredMono(ps0: seq<Option<Handle>>, ps1: seq<Option<Handle>>, r1: set<Handle>, r2: set<Handle>)
    requires Rewired(ps0, ps1, r1) && r1 <= r2
    ensures Rewired(ps0, ps1, r2)
  {
    forall x | 0 <= x < |ps0| && UnderAny(ps0, x, r1) ensures UnderAny(ps0, x, r2) {
      UnderAnyMono(ps0, x, r1, r2);
    }
  }

  /**
   * A parentless Attached token outside the rewired part stays parentless
   * and Attached, when its own slots are kept.
   */
  lemma AttachedKept(s1: State, s2: State, h: Handle, roots: set<Handle>)
    requires Wellformed(s1) && Wellformed(s2) && Kept(s1, s2, h + 1)
    requires Moved(s1.parents, s2.parents, roots)
    requires forall k :: k in roots ==> k < |s1.parents| && s1.parents[k].None?
    requires s1.parents[h].None? && h !in roots && Attached(s1, h)
    ensures s2.parents[h].None? && Attached(s2, h)
  {
    var ps1, ps2 := s1.parents, s2.parents;
    if ps2[h] != ps1[h] {
      var k :| k in roots && Under(ps1, h, k);
      UnderParentless(ps1, h, k);
    }
    forall x | 0 <= x < |ps1| && x != h && Under(ps1, x, h)
      ensures x < |ps2| && ps2[x] == ps1[x]
    {
      if ps2[x] != ps1[x] {
        var k :| k in roots && Under(ps1, x, k);
        UnderOneRoot(ps1, x, h, k);
      }
    }
    AttachedFrame(s1, s2, h, h);
  }

  /** Distinct tokens among `its`, each without a parent and with an Attached tree. */
  ghost predicate RootList(s: State, its: seq<Item>)
    requires Wellformed(s)
  {
    RootItems(s, its) &&
    forall i, j :: 0 <= i < j < |its| && its[i].Sub? && its[j].Sub? ==> its[i].handle != its[j].handle
  }

  lemma RootsSubs(s: State, lst: seq<Handle>)
    requires Wellformed(s) && Roots(s, lst)
    ensures RootList(s, Subs(lst)) && Handles(Subs(lst)) == Elems(lst)
  {
    var its := Subs(lst);
    forall h | h in Elems(lst) ensures h in Handles(its) {
      var i :| 0 <= i < |lst| && lst[i] == h;
      assert its[i].handle == h;
    }
  }

  lemma RootsSlice(s: State, lst: seq<Handle>, i: nat, j: nat)
    requires Wellformed(s) && Roots(s, lst) && i <= j <= |lst|
    ensures Roots(s, lst[i..j]) && Elems(lst[i..j]) <= Elems(lst)
  {
    forall k | 0 <= k < j - i ensures lst[i..j][k] == lst[i + k] {
    }
  }

  /** The tokens of a list outside a slice of it are not in the slice. */
  lemma RootsApart(s: State, lst: seq<Handle>, i: nat, j: nat)
    requires Wellformed(s) && Roots(s, lst) && i <= j <= |lst|
    ensures forall k :: 0 <= k < i ==> lst[k] !in Elems(lst[i..j])
    ensures forall k :: j <= k < |lst| ==> lst[k] !in Elems(lst[i..j])
  {
    var e := Elems(lst[i..j]);
    forall k | 0 <= k < |lst| && (k < i || j <= k) ensures lst[k] !in e {
      forall m | 0 <= m < j - i ensures lst[i..j][m] != lst[k] {
        assert lst[i..j][m] == lst[i + m];
      }
    }
  }

  /** Two lists of distinct parentless Attached tokens, apart from each other and from `g`, joined around `g`. */
  lemma RootsJoin(s: State, xs: seq<Handle>, g: Handle, ys: seq<Handle>)
    requires Wellformed(s) && Roots(s, xs) && Roots(s, ys) && Elems(xs) !! Elems(ys)
    requires g < |s.nodes| && s.parents[g].None? && Attached(s, g) && g !in Elems(xs) && g !in Elems(ys)
    ensures Roots(s, xs + [g] + ys)
  {
    var l := xs + [g] + ys;
    assert forall k :: 0 <= k < |xs| ==> l[k] == xs[k];
    assert forall k :: 0 <= k < |ys| ==> l[|xs| + 1 + k] == ys[k];
    forall i, j | 0 <= i < j < |l| ensures l[i] != l[j] {
      if j < |xs| {
      } else if i < |xs| && j == |xs| {
        assert l[i] in Elems(xs);
      } else if i < |xs| {
        assert l[i] in Elems(xs) && l[j] == ys[j - |xs| - 1];
      } else if i == |xs| {
        assert l[j] == ys[j - |xs| - 1];
      } else {
        assert l[i] == ys[i - |xs| - 1] && l[j] == ys[j - |xs| - 1];
      }
    }
  }
}

=== FILE: token_build.dfy ===
/**
 * The tree builder: token_list_create, token_tree_build and
 * token_tree_split_paren, plus token_tree_simplify and get_single_token.
 *
 * The builder receives a list whose elements are tokens, leaf values or
 * None. Every element is first made a token; the list is then balanced into
 * one tree, recursively, around its outermost bracket or paren group or its
 * operator of highest precedence. What is proved throughout is that the
 * tree flattens to the leaves of the input list, in input order.
 */
module GlslBuild {
  import opened GlslLeaf
  import opened GlslTree
  import opened GlslRewrite
  import opened GlslArena
  import opened GlslScan
  import opened GlslAttach
  import opened GlslTrace

  /** What one list element flattens to once made a token: None gives an empty token. */
  ghost function ElementLeaves(ns: seq<Node>, it: Item): Option<seq<Leaf>>
    requires Ordered(ns) && ItemCeiling(it) <= |ns|
  {
    match it
    case Atom(l) => Some([l])
    case Sub(h) => Leaves(ns, h)
    case Nil => Some([])
  }

  /** What the whole input list flattens to, element after element. */
  ghost function ListLeaves(ns: seq<Node>, items: seq<Item>): Option<seq<Leaf>>
    requires Ordered(ns) && ItemsCeiling(items) <= |ns|
    decreases |items|
  {
    if items == [] then Some([])
    else Join(ListLeaves(ns, items[..|items| - 1]), ElementLeaves(ns, items[|items| - 1]))
  }

  /** A list of tokens flattens exactly as the tokens placed side by side. */
  lemma {:induction false} ListLeavesSubs(ns: seq<Node>, hs: seq<Handle>)
    requires Ordered(ns) && Ceiling(hs) <= |ns|
    ensures ItemsCeiling(Subs(hs)) == Ceiling(hs)
    ensures ListLeaves(ns, Subs(hs)) == HandlesLeaves(ns, hs)
    decreases |hs|
  {
    SubsLeaves(ns, hs);
    if hs != [] {
      var init := hs[..|hs| - 1];
      assert Subs(hs)[..|hs| - 1] == Subs(init);
      CeilingPrefix(hs, |hs| - 1);
      ListLeavesSubs(ns, init);
    }
  }

  /** A token with three empty slots flattens to nothing. */
  lemma {:induction false} EmptyTokenLeaves(ns: seq<Node>, h: Handle)
    requires Ordered(ns) && h < |ns| && ns[h] == Node([], [], [])
    ensures Leaves(ns, h) == Some([])
  {
    assert Leaves(ns, h) == Join(Join(HandlesLeaves(ns, []), ItemsLeaves(ns, [])), HandlesLeaves(ns, []));
    JoinUnit(Some([]));
  }

  /** One element of token_list_create: a token is kept, anything else becomes `GlslToken(element)`. */
  method ElementToken(a: Arena, it: Item) returns (t: Handle)
    requires a.Valid() && ItemCeiling(it) <= |a.nodes|
    modifies a
    ensures a.Valid() && Extends(old(a.nodes), a.nodes) && t < |a.nodes|
    ensures it.Sub? ==> t == it.handle && a.nodes == old(a.nodes) && a.parents == old(a.parents)
    ensures !it.Sub? ==> t == |old(a.nodes)|
    ensures Leaves(a.nodes, t) == ElementLeaves(old(a.nodes), it)
    ensures a.parents[..|old(a.parents)|] == old(a.parents)
    ensures !it.Sub? ==> a.parents[t].None? && Attached(a.St(), t)
  {
    if it.Sub? {
      t := it.handle;
      assert a.nodes[..|a.nodes|] == a.nodes;
      assert a.parents[..|a.parents|] == a.parents;
    } else {
      ghost var ps := a.parents;
      var made := a.NewToken(One(it));
      t := made.value;
      if it.Nil? {
        EmptyTokenLeaves(a.nodes, t);
      }
      assert Handles([it]) == {};
      RewiredNone(ps, a.parents);
    }
  }

  /** An element flattens the same in any arena that extends the one it was made in. */
  lemma {:induction false} LeavesOfElement(ns: seq<Node>, ms: seq<Node>, it: Item)
    requires Ordered(ns) && Ordered(ms) && Extends(ns, ms) && ItemCeiling(it) <= |ns|
    ensures ElementLeaves(ms, it) == ElementLeaves(ns, it)
  {
    if it.Sub? {
      assert ns[..|ns|] == ns;
      LeavesFrame(ns, ms, |ns|, it.handle);
    }
  }

  /** One more element made a token: the list so far still flattens as the elements so far. */
  lemma {:induction false} ListCreateStep(ns0: seq<Node>, ns: seq<Node>, ms: seq<Node>,
                                          items: seq<Item>, i: nat, lst: seq<Handle>, t: Handle)
    requires Ordered(ns0) && Ordered(ns) && Ordered(ms) && Extends(ns0, ns) && Extends(ns, ms)
    requires i < |items| && ItemsCeiling(items[..i + 1]) <= |ns0| && ItemsCeiling(items[..i]) <= |ns0|
    requires Ceiling(lst) <= |ns| && t < |ms|
    requires HandlesLeaves(ns, lst) == ListLeaves(ns0, items[..i])
    requires Leaves(ms, t) == ElementLeaves(ns0, items[i])
    ensures Extends(ns0, ms) && Ceiling(lst + [t]) <= |ms|
    ensures HandlesLeaves(ms, lst + [t]) == ListLeaves(ns0, items[..i + 1])
  {
    ExtendsTrans(ns0, ns, ms);
    assert ns[..|ns|] == ns;
    HandlesFrame(ns, ms, |ns|, lst);
    CeilingSnoc(lst, t);
    assert (lst + [t])[..|lst|] == lst;
    assert items[..i + 1][..i] == items[..i];
  }

  /**
   * Each handle of `lst` is the token of the element of `items` at the same
   * place: the element itself when it is a token, otherwise a token made at
   * or above `bound`.
   */
  ghost predicate MadeFrom(items: seq<Item>, lst: seq<Handle>, bound: nat)
    decreases |lst|
  {
    |lst| <= |items| &&
    (lst == [] ||
     (MadeFrom(items, lst[..|lst| - 1], bound) &&
      var j := |lst| - 1;
      if items[j].Sub? then lst[j] == items[j].handle else bound <= lst[j]))
  }

  lemma {:induction false} MadeFromAll(items: seq<Item>, lst: seq<Handle>, bound: nat)
    requires MadeFrom(items, lst, bound)
    ensures forall j :: 0 <= j < |lst| ==>
      if items[j].Sub? then lst[j] == items[j].handle else bound <= lst[j]
    decreases |lst|
  {
    if lst != [] {
      var init := lst[..|lst| - 1];
      MadeFromAll(items, init, bound);
      assert forall j :: 0 <= j < |init| ==> lst[j] == init[j];
    }
  }

  /** The token for element `i` of token_list_create, keeping the list made so far in step with the elements. */
  method AppendElement(a: Arena, ghost n0: seq<Node>, ghost p0: seq<Option<Handle>>,
                       items: seq<Item>, i: nat, lst: seq<Handle>) returns (t: Handle)
    requires a.Valid() && Ordered(n0) && Extends(n0, a.nodes) && a.parents[..|n0|] == p0
    requires i < |items| && ItemsCeiling(items) <= |n0| && ItemsCeiling(items[..i]) <= |n0|
    requires |lst| == i && Ceiling(lst) <= |a.nodes| && HandlesLeaves(a.nodes, lst) == ListLeaves(n0, items[..i])
    requires FreshRoots(a.St(), items, lst)
    modifies a
    ensures a.Valid() && Extends(n0, a.nodes) && a.parents[..|n0|] == p0
    ensures items[i].Sub? ==> t == items[i].handle
    ensures !items[i].Sub? ==> |n0| <= t
    ensures ItemsCeiling(items[..i + 1]) <= |n0| && Ceiling(lst + [t]) <= |a.nodes|
    ensures HandlesLeaves(a.nodes, lst + [t]) == ListLeaves(n0, items[..i + 1])
    ensures FreshRoots(a.St(), items, lst + [t])
  {
    var it := items[i];
    ItemsCeilingBound(items, i);
    ItemsCeilingPrefix(items, i + 1);
    ghost var ns := a.nodes;
    ghost var s := a.St();
    LeavesOfElement(n0, ns, it);
    assert ns[..|n0|] == n0;
    t := ElementToken(a, it);
    ListCreateStep(n0, ns, a.nodes, items, i, lst, t);
    FreshRootsStep(s, a.St(), items, lst, t);
    assert a.parents[..|n0|] == a.parents[..|s.parents|][..|n0|];
  }

  /**
   * token_list_create: every element that is not a token becomes a fresh
   * token of its own (None an empty one); tokens are kept as they are.
   */
  method ListCreate(a: Arena, items: seq<Item>) returns (lst: seq<Handle>)
    requires a.Valid() && ItemsCeiling(items) <= |a.nodes|
    modifies a
    ensures a.Valid() && Extends(old(a.nodes), a.nodes)
    ensures |lst| == |items| && Ceiling(lst) <= |a.nodes|
    ensures forall i :: 0 <= i < |items| ==>
      if items[i].Sub? then lst[i] == items[i].handle else |old(a.nodes)| <= lst[i]
    ensures HandlesLeaves(a.nodes, lst) == ListLeaves(old(a.nodes), items)
    ensures a.parents[..|old(a.parents)|] == old(a.parents)
    ensures RootList(old(a.St()), items) ==> Roots(a.St(), lst)
  {
    lst := [];
    ghost var s0 := a.St();
    ghost var n0 := a.nodes;
    ItemsCeilingPrefix(items, 0);
    for i := 0 to |items|
      invariant a.Valid() && Extends(n0, a.nodes)
      invariant ItemsCeiling(items[..i]) <= |n0|
      invariant |lst| == i && Ceiling(lst) <= |a.nodes|
      invariant MadeFrom(items, lst, |n0|)
      invariant HandlesLeaves(a.nodes, lst) == ListLeaves(n0, items[..i])
      invariant a.parents[..|n0|] == s0.parents && FreshRoots(a.St(), items, lst)
    {
      var t := AppendElement(a, n0, s0.parents, items, i, lst);
      assert (lst + [t])[..i] == lst;
      lst := lst + [t];
    }
    MadeFromAll(items, lst, |n0|);
    assert items[..|items|] == items;
    if RootList(s0, items) {
      ListRoots(s0, a.St(), items, lst);
    }
  }

  /**
   * The tokens token_list_create made so far for non-token elements: each
   * is parentless and Attached, and each was made after the one before.
   */
  ghost predicate FreshRoots(s: State, items: seq<Item>, lst: seq<Handle>)
    requires Wellformed(s)
  {
    |lst| <= |items| &&
    (forall j :: 0 <= j < |lst| && !items[j].Sub? ==>
       lst[j] < |s.nodes| && s.parents[lst[j]].None? && Attached(s, lst[j])) &&
    (forall j, k :: 0 <= j < k < |lst| && !items[j].Sub? && !items[k].Sub? ==> lst[j] < lst[k])
  }

  lemma {:induction false} FreshRootsStep(s: State, s1: State, items: seq<Item>, lst: seq<Handle>, t: Handle)
    requires Wellformed(s) && Wellformed(s1) && Grown(s, s1) && s1.parents[..|s.parents|] == s.parents
    requires FreshRoots(s, items, lst) && |lst| < |items| && Ceiling(lst) <= |s.nodes|
    requires !items[|lst|].Sub? ==> t == |s.nodes| && t < |s1.nodes| && s1.parents[t].None? && Attached(s1, t)
    ensures FreshRoots(s1, items, lst + [t])
  {
    var l := lst + [t];
    RewiredSame(s.parents, s1.parents, {});
    forall j | 0 <= j < |lst| && !items[j].Sub?
      ensures s1.parents[lst[j]].None? && Attached(s1, lst[j])
    {
      GrownKept(s, s1, lst[j] + 1);
      AttachedKept(s, s1, lst[j], {});
    }
    forall j | 0 <= j < |lst| ensures lst[j] < |s.nodes| {
      CeilingBound(lst, j);
    }
    assert forall j :: 0 <= j < |lst| ==> l[j] == lst[j];
  }

  /** The tokens of token_list_create on distinct parentless Attached tokens are such tokens too. */
  lemma {:induction false} ListRoots(s0: State, s: State, items: seq<Item>, lst: seq<Handle>)
    requires Wellformed(s0) && Wellformed(s) && Grown(s0, s) && s.parents[..|s0.parents|] == s0.parents
    requires RootList(s0, items) && |lst| == |items| && FreshRoots(s, items, lst)
    requires forall i :: 0 <= i < |items| ==>
      if items[i].Sub? then lst[i] == items[i].handle else |s0.nodes| <= lst[i]
    ensures Roots(s, lst)
  {
    RewiredSame(s0.parents, s.parents, {});
    forall i | 0 <= i < |lst| && items[i].Sub?
      ensures lst[i] < |s.nodes| && s.parents[lst[i]].None? && Attached(s, lst[i])
    {
      GrownKept(s0, s, lst[i] + 1);
      AttachedKept(s0, s, lst[i], {});
    }
  }

  /** The list token_list_create made from `items`: one token per element, flattening as the elements. */
  ghost predicate Listed(ns0: seq<Node>, ns: seq<Node>, items: seq<Item>, lst: seq<Handle>)
    requires Ordered(ns0) && Ordered(ns) && ItemsCeiling(items) <= |ns0|
  {
    |lst| == |items| && Ceiling(lst) <= |ns| &&
    (forall i :: 0 <= i < |items| ==>
       if items[i].Sub? then lst[i] == items[i].handle else |ns0| <= lst[i]) &&
    HandlesLeaves(ns, lst) == ListLeaves(ns0, items)
  }

  /**
   * token_tree_build: make every element a token, scan the list, and build
   * around the group or the operator the scan decides on; a list with
   * neither is wrapped whole. The tree flattens to the leaves of the list.
   */
  method Build(a: Arena, items: seq<Item>) returns (r: Result<Option<Handle>>, ghost lst: seq<Handle>, ghost c: Call)
    requires a.Valid() && ItemsCeiling(items) <= |a.nodes|
    modifies a
    ensures a.Valid() && Extends(old(a.nodes), a.nodes)
    ensures items == [] ==> r == Ok(None)
    ensures items != [] && r.Ok? ==> r.value.Some?
    ensures r.Ok? && r.value.Some? ==>
      |old(a.nodes)| <= r.value.value < |a.nodes| && a.parents[r.value.value] == None &&
      Leaves(a.nodes, r.value.value) == ListLeaves(old(a.nodes), items)
    ensures items != [] ==>
      Called(c) && Extends(old(a.nodes), c.from.nodes) && c.to == a.nodes &&
      Listed(old(a.nodes), c.from.nodes, items, lst) &&
      BuiltAs(c.from, c.to, lst, c.res, c.how) &&
      (r.Fail? <==> c.res.Fail?) && (r.Fail? ==> r.error == c.res.error) && (r.Ok? ==> r.value == Some(c.res.value))
    ensures items != [] && RootList(old(a.St()), items) ==> Roots(c.from, lst)
    ensures r.Ok? && RootList(old(a.St()), items) ==>
      Rewired(old(a.parents), a.parents, Handles(items)) && (r.value.Some? ==> Attached(a.St(), r.value.value))
    decreases |items|, 4
  {
    ghost var s0 := a.St();
    var made := ListCreate(a, items);
    lst := made;
    ghost var sm := a.St();
    if made == [] {
      RewiredSame(s0.parents, a.parents, Handles(items));
      return Ok(None), lst, Call(sm, a.nodes, Fail(EmptyElement), Direct);
    }
    var built, tr := BuildList(a, made);
    c := Call(sm, a.nodes, built, tr);
    assert a.nodes[..|a.nodes|] == a.nodes;
    ExtendsTrans(old(a.nodes), sm.nodes, a.nodes);
    if built.Fail? {
      return Fail(built.error), lst, c;
    }
    r := Ok(Some(built.value));
    if RootList(s0, items) {
      BuildOutcome(s0, sm, a.St(), items, lst, built.value);
    }
  }

  /** The tree built over distinct parentless Attached elements is Attached, and only parents under them changed. */
  lemma {:induction false} BuildOutcome(s0: State, sm: State, s: State, items: seq<Item>, lst: seq<Handle>, t: Handle)
    requires Wellformed(s0) && Wellformed(sm) && Wellformed(s) && t < |s.nodes|
    requires |s0.parents| <= |sm.parents| && sm.parents[..|s0.parents|] == s0.parents
    requires |lst| == |items| && forall i :: 0 <= i < |items| ==>
      if items[i].Sub? then lst[i] == items[i].handle else |s0.nodes| <= lst[i]
    requires RootList(s0, items) && Roots(sm, lst)
    requires Roots(sm, lst) ==> Rewired(sm.parents, s.parents, Elems(lst)) && Attached(s, t)
    ensures Rewired(s0.parents, s.parents, Handles(items)) && Attached(s, t)
  {
    RewiredSame(s0.parents, sm.parents, Handles(items));
    forall h | h in Elems(lst) && h < |s0.parents| ensures h in Handles(items) {
      var i :| 0 <= i < |lst| && lst[i] == h;
      assert items[i] in items;
    }
    RewiredTrans(s0, sm.parents, s.parents, Handles(items), Elems(lst), Handles(items));
  }

  /** token_tree_build once every element is a token: scan the list and build as the scan decides. */
  method BuildList(a: Arena, lst: seq<Handle>) returns (r: Result<Handle>, ghost tr: Trace)
    requires a.Valid() && Ceiling(lst) <= |a.nodes| && lst != []
    modifies a
    ensures a.Valid() && Extends(old(a.nodes), a.nodes)
    ensures r.Ok? ==>
      |old(a.nodes)| <= r.value < |a.nodes| && a.parents[r.value] == None &&
      Leaves(a.nodes, r.value) == HandlesLeaves(old(a.nodes), lst)
    ensures BuiltAs(old(a.St()), a.nodes, lst, r, tr)
    ensures r.Ok? && Roots(old(a.St()), lst) ==>
      Rewired(old(a.parents), a.parents, Elems(lst)) && Attached(a.St(), r.value)
    decreases |lst|, 3
  {
    InArenaOf(a.nodes, lst);
    var d := Scan(a.nodes, lst);
    if d.Fail? {
      assert a.nodes[..|a.nodes|] == a.nodes;
      return Fail(d.error), Direct;
    }
    match d.value {
      case Group(first, last) =>
        r, tr := SplitParen(a, lst, first, last);
      case SplitAt(k) =>
        r, tr := BuildAtOperator(a, lst, k);
      case Whole =>
        tr := Direct;
        r := WholeToken(a, lst);
    }
  }

  /**
   * token_tree_build called on a list that is already all tokens: a side of
   * an operator, the inside of a group, or the list around a group token.
   */
  method BuildSide(a: Arena, xs: seq<Handle>) returns (r: Result<Option<Handle>>, ghost c: Option<Call>)
    requires a.Valid() && Ceiling(xs) <= |a.nodes|
    modifies a
    ensures a.Valid() && SideCall(old(a.St()), a.St(), xs, r, c)
    decreases |xs|, 5
  {
    ghost var s0 := a.St();
    ListLeavesSubs(a.nodes, xs);
    if Roots(s0, xs) {
      RootsSubs(s0, xs);
    }
    var built, lst, call := Build(a, Subs(xs));
    r := built;
    if xs == [] {
      c := None;
    } else {
      ListedSubs(s0.nodes, call.from.nodes, xs, lst);
      c := Some(call);
      assert SideMade(s0, a.St(), xs, r, call);
    }
  }
  /** The list token_list_create makes of a list of tokens is that list. */
  lemma {:induction false} ListedSubs(ns0: seq<Node>, ns: seq<Node>, hs: seq<Handle>, lst: seq<Handle>)
    requires Ordered(ns0) && Ordered(ns) && ItemsCeiling(Subs(hs)) <= |ns0|
    requires Listed(ns0, ns, Subs(hs), lst)
    ensures lst == hs
  {
    forall i | 0 <= i < |hs| ensures lst[i] == hs[i] {
      assert Subs(hs)[i] == Sub(hs[i]);
    }
  }

  /** The list wrapped whole in one fresh token, as the constructor descends it. */
  method WholeToken(a: Arena, lst: seq<Handle>) returns (r: Result<Handle>)
    requires a.Valid() && Ceiling(lst) <= |a.nodes| && lst != []
    modifies a
    ensures a.Valid() && Extends(old(a.nodes), a.nodes) && ItemsCeiling(Subs(lst)) == Ceiling(lst)
    ensures r.Fail? <==> Descended(old(a.nodes), Many(Subs(lst))).Fail?
    ensures r.Fail? ==> r.error == Descended(old(a.nodes), Many(Subs(lst))).error
    ensures r.Ok? ==> r.value == |old(a.nodes)| && r.value < |a.nodes| && a.parents[r.value] == None
    ensures r.Ok? ==> a.nodes[r.value] == Node([], PayloadItems(Descended(old(a.nodes), Many(Subs(lst))).value), [])
    ensures r.Ok? ==> Leaves(a.nodes, r.value) == HandlesLeaves(old(a.nodes), lst)
    ensures r.Ok? && Roots(old(a.St()), lst) ==>
      Rewired(old(a.parents), a.parents, Elems(lst)) && Attached(a.St(), r.value)
  {
    SubsLeaves(a.nodes, lst);
    assert Subs(lst) != [] by {
      assert Subs(lst)[0] == Sub(lst[0]);
    }
    if Roots(a.St(), lst) {
      RootsSubs(a.St(), lst);
    }
    r := a.NewToken(Many(Subs(lst)));
  }

  /**
   * The operator branch of token_tree_build: the sides left and right of
   * the operator are built on their own and become the flanks of a fresh
   * token holding the operator.
   */
  method BuildAtOperator(a: Arena, lst: seq<Handle>, k: nat) returns (r: Result<Handle>, ghost tr: Trace)
    requires a.Valid() && Ceiling(lst) <= |a.nodes| && InArena(a.nodes, lst)
    requires k < |lst| && Candidate(a.nodes, lst, k)
    modifies a
    ensures a.Valid() && Extends(old(a.nodes), a.nodes)
    ensures r.Ok? ==>
      |old(a.nodes)| <= r.value < |a.nodes| && a.parents[r.value] == None &&
      Leaves(a.nodes, r.value) == HandlesLeaves(old(a.nodes), lst)
    ensures tr.Split? && SplitBuilt(old(a.St()), a.nodes, lst, k, OperatorAt(old(a.nodes), lst, k), r, tr)
    ensures r.Ok? && Roots(old(a.St()), lst) ==>
      Rewired(old(a.parents), a.parents, Elems(lst)) && Attached(a.St(), r.value)
    decreases |lst|, 1
  {
    ghost var s0 := a.St();
    var op := OperatorAt(a.nodes, lst, k);
    SplitLeaves(a.nodes, lst, k);
    LeafTokenLeaves(a.nodes, lst[k], op);
    var left, L := BuildSide(a, lst[..k]);
    if left.Fail? {
      SplitLeftFailed(s0, a.St(), lst, k, op, left, L);
      return Fail(left.error), Split(L, None);
    }
    r, tr := BuildRightOfOperator(a, s0, lst, k, op, left, L);
  }

  /**
   * The operator branch once its left side is built, from the arena `s0`
   * it started on: the right side is built, then the operator token.
   */
  method BuildRightOfOperator(a: Arena, ghost s0: State, lst: seq<Handle>, k: nat, op: Leaf,
                              left: Result<Option<Handle>>, ghost L: Option<Call>)
    returns (r: Result<Handle>, ghost tr: Trace)
    requires a.Valid() && Wellformed(s0) && Ceiling(lst) <= |s0.nodes| && k < |lst|
    requires lst[k] < |s0.nodes| && Leaves(s0.nodes, lst[k]) == Some([op])
    requires Ceiling(lst[..k]) <= |s0.nodes| && Ceiling(lst[k + 1..]) <= |a.nodes|
    requires SideCall(s0, a.St(), lst[..k], left, L) && left.Ok?
    modifies a
    ensures a.Valid() && Extends(s0.nodes, a.nodes)
    ensures r.Ok? ==>
      |s0.nodes| <= r.value < |a.nodes| && a.parents[r.value] == None &&
      Leaves(a.nodes, r.value) == HandlesLeaves(s0.nodes, lst)
    ensures tr.Split? && SplitBuilt(s0, a.nodes, lst, k, op, r, tr)
    ensures r.Ok? && Roots(s0, lst) ==>
      Rewired(s0.parents, a.parents, Elems(lst)) && Attached(a.St(), r.value)
    decreases |lst|, 0
  {
    ghost var s1 := a.St();
    SideTree(s0, s1, lst[..k], left.value, L);
    var right, R := BuildSide(a, lst[k + 1..]);
    ghost var s2 := a.St();
    tr := Split(L, R);
    if right.Fail? {
      SplitRightFailed(s0, s1, s2, lst, k, op, left, L, right, R);
      return Fail(right.error), tr;
    }
    r := OperatorOfSides(a, s0, s1, lst, k, op, left, L, right, R);
  }

  /** Both sides of the operator are built: the operator token is made of their trees. */
  method OperatorOfSides(a: Arena, ghost s0: State, ghost s1: State, lst: seq<Handle>, k: nat, op: Leaf,
                         left: Result<Option<Handle>>, ghost L: Option<Call>, right: Result<Option<Handle>>, ghost R: Option<Call>)
    returns (r: Result<Handle>)
    requires a.Valid() && Wellformed(s0) && Wellformed(s1) && Ceiling(lst) <= |s0.nodes| && k < |lst|
    requires lst[k] < |s0.nodes| && Leaves(s0.nodes, lst[k]) == Some([op])
    requires Ceiling(lst[..k]) <= |s0.nodes| && Ceiling(lst[k + 1..]) <= |s1.nodes|
    requires SideCall(s0, s1, lst[..k], left, L) && left.Ok? && (left.value.Some? ==> left.value.value < |s1.nodes|)
    requires SideCall(s1, a.St(), lst[k + 1..], right, R) && right.Ok?
    modifies a
    ensures a.Valid() && Extends(s0.nodes, a.nodes)
    ensures r.Ok? ==>
      |s0.nodes| <= r.value < |a.nodes| && a.parents[r.value] == None &&
      Leaves(a.nodes, r.value) == HandlesLeaves(s0.nodes, lst)
    ensures SplitBuilt(s0, a.nodes, lst, k, op, r, Split(L, R))
    ensures r.Ok? && Roots(s0, lst) ==>
      Rewired(s0.parents, a.parents, Elems(lst)) && Attached(a.St(), r.value)
  {
    ghost var s2 := a.St();
    r := OperatorToken(a, left.value, op, right.value);
    SplitDone(s0, s1, s2, a.St(), lst, k, op, left, L, right, R, r);
  }

  /** The left side failed: so does the operator branch, with its error. */
  lemma {:induction false} SplitLeftFailed(s0: State, s1: State, lst: seq<Handle>, k: nat, op: Leaf, left: Result<Option<Handle>>, L: Option<Call>)
    requires Wellformed(s0) && Wellformed(s1) && Ceiling(lst) <= |s0.nodes|
    requires k < |lst| && Ceiling(lst[..k]) <= |s0.nodes|
    requires SideCall(s0, s1, lst[..k], left, L) && left.Fail?
    ensures SplitBuilt(s0, s1.nodes, lst, k, op, Fail(left.error), Split(L, None))
  {
    if Roots(s0, lst) {
      RootsSlice(s0, lst, 0, k);
      assert lst[0..k] == lst[..k];
    }
  }

  /** The right side failed: so does the operator branch, with its error. */
  lemma {:induction false} SplitRightFailed(s0: State, s1: State, s2: State, lst: seq<Handle>, k: nat, op: Leaf,
                         left: Result<Option<Handle>>, L: Option<Call>, right: Result<Option<Handle>>, R: Option<Call>)
    requires Wellformed(s0) && Wellformed(s1) && Wellformed(s2) && Ceiling(lst) <= |s0.nodes| && k < |lst|
    requires Ceiling(lst[..k]) <= |s0.nodes| && Ceiling(lst[k + 1..]) <= |s1.nodes|
    requires SideCall(s0, s1, lst[..k], left, L) && left.Ok?
    requires SideCall(s1, s2, lst[k + 1..], right, R) && right.Fail?
    ensures SplitBuilt(s0, s2.nodes, lst, k, op, Fail(right.error), Split(L, R))
  {
    SplitSides(s0, s1, s2, lst, k, left, L, R);
  }

  /** Where both sides were built: their calls, seen from the whole branch. */
  lemma {:induction false} SplitSides(s0: State, s1: State, s2: State, lst: seq<Handle>, k: nat,
                   left: Result<Option<Handle>>, L: Option<Call>, R: Option<Call>)
    requires Wellformed(s0) && Wellformed(s1) && Wellformed(s2) && Ceiling(lst) <= |s0.nodes| && k < |lst|
    requires Ceiling(lst[..k]) <= |s0.nodes| && Ceiling(lst[k + 1..]) <= |s1.nodes|
    requires SideCall(s0, s1, lst[..k], left, L) && left.Ok?
    requires Extends(s1.nodes, s2.nodes) && Within(s1.nodes, R, s2.nodes)
    ensures Extends(s0.nodes, s2.nodes)
    ensures Within(s0.nodes, L, s2.nodes) && Within(s0.nodes, R, s2.nodes)
    ensures Roots(s0, lst) ==>
      Roots(s1, lst[k + 1..]) && (L.Some? ==> Roots(L.value.from, lst[..k])) &&
      Rewired(s0.parents, s1.parents, Elems(lst[..k])) && Grown(s0, s1)
  {
    ExtendsTrans(s0.nodes, s1.nodes, s2.nodes);
    WithinWider(s0.nodes, s0.nodes, L, s1.nodes, s2.nodes);
    WithinWider(s0.nodes, s1.nodes, R, s2.nodes, s2.nodes);
    if Roots(s0, lst) {
      RootsSlice(s0, lst, 0, k);
      assert lst[0..k] == lst[..k];
      SideRoots(s0, s1, lst, k);
    }
  }

  /** Both sides were built: the operator token is the branch's result. */
  lemma {:induction false} SplitDone(s0: State, s1: State, s2: State, s3: State, lst: seq<Handle>, k: nat, op: Leaf,
                  left: Result<Option<Handle>>, L: Option<Call>, right: Result<Option<Handle>>, R: Option<Call>,
                  r: Result<Handle>)
    requires Wellformed(s0) && Wellformed(s1) && Wellformed(s2) && Wellformed(s3)
    requires Ceiling(lst) <= |s0.nodes| && k < |lst| && lst[k] < |s0.nodes| && Leaves(s0.nodes, lst[k]) == Some([op])
    requires Ceiling(lst[..k]) <= |s0.nodes| && Ceiling(lst[k + 1..]) <= |s1.nodes|
    requires SideCall(s0, s1, lst[..k], left, L) && left.Ok?
    requires SideCall(s1, s2, lst[k + 1..], right, R) && right.Ok?
    requires left.value.Some? ==> left.value.value < |s2.nodes|
    requires right.value.Some? ==> right.value.value < |s2.nodes|
    requires OperatorCall(s2, s3, left.value, op, right.value, r)
    ensures r.Ok? ==>
      |s0.nodes| <= r.value < |s3.nodes| && s3.parents[r.value] == None &&
      Leaves(s3.nodes, r.value) == HandlesLeaves(s0.nodes, lst)
    ensures SplitSteps(s0, s3.nodes, lst, k, op, r, Split(L, R))
    ensures r.Ok? ==> SplitToken(s0.nodes, s3.nodes, lst, k, op, r.value, Split(L, R))
    ensures r.Ok? && Roots(s0, lst) ==> Rewired(s0.parents, s3.parents, Elems(lst)) && Attached(s3, r.value)
  {
    SplitDoneSteps(s0, s1, s2, s3, lst, k, op, left, L, right, R, r);
    if r.Ok? {
      SplitDoneTree(s0, s1, s2, s3, lst, k, op, left, L, right, R, r);
    }
  }

  /** Both sides were built: the calls of the branch, and what they decide. */
  lemma {:induction false} SplitDoneSteps(s0: State, s1: State, s2: State, s3: State, lst: seq<Handle>, k: nat, op: Leaf,
                  left: Result<Option<Handle>>, L: Option<Call>, right: Result<Option<Handle>>, R: Option<Call>,
                  r: Result<Handle>)
    requires Wellformed(s0) && Wellformed(s1) && Wellformed(s2) && Wellformed(s3)
    requires Ceiling(lst) <= |s0.nodes| && k < |lst|
    requires Ceiling(lst[..k]) <= |s0.nodes| && Ceiling(lst[k + 1..]) <= |s1.nodes|
    requires SideCall(s0, s1, lst[..k], left, L) && left.Ok?
    requires SideCall(s1, s2, lst[k + 1..], right, R) && right.Ok?
    requires left.value.Some? ==> left.value.value < |s2.nodes|
    requires right.value.Some? ==> right.value.value < |s2.nodes|
    requires OperatorCall(s2, s3, left.value, op, right.value, r)
    ensures SplitSteps(s0, s3.nodes, lst, k, op, r, Split(L, R))
    ensures r.Ok? && Roots(s0, lst) ==> Rewired(s0.parents, s3.parents, Elems(lst)) && Attached(s3, r.value)
  {
    var ns0, ns2, ns3 := s0.nodes, s2.nodes, s3.nodes;
    SideTree(s0, s1, lst[..k], left.value, L);
    SideTree(s1, s2, lst[k + 1..], right.value, R);
    SplitSides(s0, s1, s2, lst, k, left, L, R);
    ExtendsTrans(ns0, ns2, ns3);
    WithinWider(ns0, ns0, L, ns2, ns3);
    WithinWider(ns0, ns0, R, ns2, ns3);
    if Roots(s0, lst) {
      SplitDoneRoots(s0, s1, s2, s3, lst, k, op, left, L, right, R, r);
    }
  }

  /** The operator token of the branch: its flanks are the side trees, and it flattens as the list. */
  lemma {:induction false} SplitDoneTree(s0: State, s1: State, s2: State, s3: State, lst: seq<Handle>, k: nat, op: Leaf,
                      left: Result<Option<Handle>>, L: Option<Call>, right: Result<Option<Handle>>, R: Option<Call>,
                      r: Result<Handle>)
    requires Wellformed(s0) && Wellformed(s1) && Wellformed(s2) && Wellformed(s3)
    requires Ceiling(lst) <= |s0.nodes| && k < |lst| && lst[k] < |s0.nodes| && Leaves(s0.nodes, lst[k]) == Some([op])
    requires Ceiling(lst[..k]) <= |s0.nodes| && Ceiling(lst[k + 1..]) <= |s1.nodes|
    requires SideCall(s0, s1, lst[..k], left, L) && left.Ok?
    requires SideCall(s1, s2, lst[k + 1..], right, R) && right.Ok?
    requires left.value.Some? ==> left.value.value < |s2.nodes|
    requires right.value.Some? ==> right.value.value < |s2.nodes|
    requires OperatorCall(s2, s3, left.value, op, right.value, r) && r.Ok?
    ensures |s0.nodes| <= r.value < |s3.nodes| && s3.parents[r.value] == None
    ensures Leaves(s3.nodes, r.value) == HandlesLeaves(s0.nodes, lst)
    ensures s3.nodes[r.value] == Node(Tree(L), [Atom(op)], Tree(R))
    ensures OperatorShape(s0.nodes, s3.nodes, lst, k, op, r.value)
  {
    var ns0, ns1, ns2, ns3 := s0.nodes, s1.nodes, s2.nodes, s3.nodes;
    ExtendsTrans(ns0, ns1, ns2);
    SplitLeaves(ns0, lst, k);
    OperatorTokenLeaves(ns0, ns1, ns2, lst, k, op, left.value, right.value);
    OperatorTokenShape(ns0, ns1, ns2, ns3, lst, k, op, left.value, right.value, r.value);
  }

  /** Over distinct parentless Attached tokens, each side is built over such tokens, and only a missing operand fails the token. */
  lemma {:induction false} SplitDoneRoots(s0: State, s1: State, s2: State, s3: State, lst: seq<Handle>, k: nat, op: Leaf,
                       left: Result<Option<Handle>>, L: Option<Call>, right: Result<Option<Handle>>, R: Option<Call>,
                       r: Result<Handle>)
    requires Wellformed(s0) && Wellformed(s1) && Wellformed(s2) && Wellformed(s3)
    requires Ceiling(lst) <= |s0.nodes| && k < |lst| && Roots(s0, lst)
    requires Ceiling(lst[..k]) <= |s0.nodes| && Ceiling(lst[k + 1..]) <= |s1.nodes|
    requires SideCall(s0, s1, lst[..k], left, L) && left.Ok?
    requires SideCall(s1, s2, lst[k + 1..], right, R) && right.Ok?
    requires left.value.Some? ==> left.value.value < |s2.nodes|
    requires right.value.Some? ==> right.value.value < |s2.nodes|
    requires OperatorCall(s2, s3, left.value, op, right.value, r)
    ensures (k > 0 || IsPrefixOperator(op)) ==> r.Ok?
    ensures r.Ok? ==> Rewired(s0.parents, s3.parents, Elems(lst)) && Attached(s3, r.value)
  {
    SideTree(s0, s1, lst[..k], left.value, L);
    SideTree(s1, s2, lst[k + 1..], right.value, R);
    RootsSlice(s0, lst, 0, k);
    assert lst[0..k] == lst[..k];
    SideRoots(s0, s1, lst, k);
    SidesBuilt(s0, s1, s2, lst, k, left.value, right.value);
    RewiredTrans(s0, s2.parents, s3.parents, Elems(lst), Elems(Flank(left.value) + Flank(right.value)), Elems(lst));
  }

  /** A call made within one pair of arenas is made within any wider pair. */
  lemma {:induction false} WithinWider(ms0: seq<Node>, ns0: seq<Node>, c: Option<Call>, ns: seq<Node>, ms: seq<Node>)
    requires Extends(ms0, ns0) && Extends(ns, ms) && Within(ns0, c, ns)
    ensures Within(ms0, c, ms)
  {
    if c.Some? {
      ExtendsTrans(ms0, ns0, c.value.from.nodes);
      ExtendsTrans(c.value.to, ns, ms);
    }
  }

  /** Both sides built from distinct parentless Attached tokens: their trees are such tokens, and only parents under the list changed. */
  lemma {:induction false} SidesBuilt(s0: State, s1: State, s2: State, lst: seq<Handle>, k: nat, left: Option<Handle>, right: Option<Handle>)
    requires Wellformed(s0) && Wellformed(s1) && Wellformed(s2) && Grown(s0, s1) && Grown(s1, s2)
    requires k < |lst| && Roots(s0, lst)
    requires left.Some? ==>
      |s0.nodes| <= left.value < |s1.nodes| && s1.parents[left.value].None? && Attached(s1, left.value)
    requires Rewired(s0.parents, s1.parents, Elems(lst[..k]))
    requires right.Some? ==>
      |s1.nodes| <= right.value < |s2.nodes| && s2.parents[right.value].None? && Attached(s2, right.value)
    requires Rewired(s1.parents, s2.parents, Elems(lst[k + 1..]))
    ensures Rewired(s0.parents, s2.parents, Elems(lst)) && Roots(s2, Flank(left) + Flank(right))
    ensures forall h :: h in Elems(Flank(left) + Flank(right)) ==> |s0.parents| <= h
  {
    SideRoots(s0, s1, lst, k);
    SidesRoots(s1, s2, Elems(lst[k + 1..]), left, right);
    RewiredTrans(s0, s1.parents, s2.parents, Elems(lst[..k]), Elems(lst[k + 1..]), Elems(lst));
  }

  /** After the left side is built, the tokens right of the operator are still parentless and Attached. */
  lemma {:induction false} SideRoots(s0: State, s1: State, lst: seq<Handle>, k: nat)
    requires Wellformed(s0) && Wellformed(s1) && Grown(s0, s1) && k < |lst| && Roots(s0, lst)
    requires Rewired(s0.parents, s1.parents, Elems(lst[..k]))
    ensures Roots(s1, lst[k + 1..]) && Elems(lst[..k]) <= Elems(lst) && Elems(lst[k + 1..]) <= Elems(lst)
    ensures forall h :: h in Elems(lst[k + 1..]) ==> h < |s0.nodes| && s1.parents[h].None?
  {
    var xs, ys := lst[..k], lst[k + 1..];
    var e := Elems(xs);
    RootsSlice(s0, lst, 0, k);
    RootsSlice(s0, lst, k + 1, |lst|);
    assert lst[0..k] == xs && lst[k + 1..|lst|] == ys;
    RootsApart(s0, lst, 0, k);
    forall h | h in e ensures h < |s0.parents| && s0.parents[h].None? {
      var i :| 0 <= i < |xs| && xs[i] == h;
    }
    forall i | 0 <= i < |ys| ensures ys[i] !in e {
      assert ys[i] == lst[k + 1 + i];
    }
    RootsKept(s0, s1, ys, e);
    forall h | h in Elems(ys) ensures h < |s0.nodes| && s1.parents[h].None? {
      var i :| 0 <= i < |ys| && ys[i] == h;
    }
  }

  /** Once both sides are built, their trees are distinct parentless Attached tokens. */
  lemma {:induction false} SidesRoots(s1: State, s2: State, e: set<Handle>, left: Option<Handle>, right: Option<Handle>)
    requires Wellformed(s1) && Wellformed(s2) && Grown(s1, s2) && Rewired(s1.parents, s2.parents, e)
    requires forall h :: h in e ==> h < |s1.parents| && s1.parents[h].None? && h !in Flank(left)
    requires left.Some? ==> left.value < |s1.nodes| && s1.parents[left.value].None? && Attached(s1, left.value)
    requires right.Some? ==>
      |s1.nodes| <= right.value < |s2.nodes| && s2.parents[right.value].None? && Attached(s2, right.value)
    ensures Roots(s2, Flank(left) + Flank(right))
  {
    if left.Some? {
      GrownKept(s1, s2, left.value + 1);
      AttachedKept(s1, s2, left.value, e);
    }
  }
  /** The operator token has the shape of the operator branch. */
  lemma {:induction false} OperatorTokenShape(ns0: seq<Node>, ns1: seq<Node>, ns2: seq<Node>, ns3: seq<Node>,
                                              lst: seq<Handle>, k: nat, op: Leaf,
                                              left: Option<Handle>, right: Option<Handle>, t: Handle)
    requires Ordered(ns0) && Ordered(ns1) && Ordered(ns2) && Ordered(ns3)
    requires Extends(ns0, ns1) && Extends(ns1, ns2) && Extends(ns2, ns3)
    requires Ceiling(lst) <= |ns0| && k < |lst|
    requires Ceiling(lst[..k]) <= |ns0| && Ceiling(lst[k + 1..]) <= |ns0|
    requires left.None? <==> k == 0
    requires left.Some? ==> left.value < |ns1| && Leaves(ns1, left.value) == HandlesLeaves(ns0, lst[..k])
    requires right.None? <==> k + 1 == |lst|
    requires right.Some? ==> right.value < |ns2| && Leaves(ns2, right.value) == HandlesLeaves(ns1, lst[k + 1..])
    requires t < |ns3| && ns3[t] == Node(Flank(left), [Atom(op)], Flank(right))
    ensures OperatorShape(ns0, ns3, lst, k, op, t)
  {
    ExtendsTrans(ns1, ns2, ns3);
    assert ns0[..|ns0|] == ns0 && ns1[..|ns1|] == ns1 && ns2[..|ns2|] == ns2;
    if left.Some? {
      LeavesFrame(ns1, ns3, |ns1|, left.value);
    }
    if right.Some? {
      HandlesFrame(ns0, ns1, |ns0|, lst[k + 1..]);
      LeavesFrame(ns2, ns3, |ns2|, right.value);
    }
  }
  /**
   * The token the operator branch returns: the operator in its middle, the
   * left side added on the left and the right side on the right. A missing
   * left side is an error unless the operator can be a prefix.
   */
  method OperatorToken(a: Arena, left: Option<Handle>, op: Leaf, right: Option<Handle>) returns (r: Result<Handle>)
    requires a.Valid() && (left.Some? ==> left.value < |a.nodes|) && (right.Some? ==> right.value < |a.nodes|)
    modifies a
    ensures a.Valid() && OperatorCall(old(a.St()), a.St(), left, op, right, r)
  {
    ghost var s0 := a.St();
    if Roots(s0, Flank(left) + Flank(right)) {
      FlanksParentless(s0, left, right);
    }
    var t := AtomToken(a, op);
    if left.None? && !IsPrefixOperator(op) {
      r := Fail(MissingOperand);
    } else {
      var added := AddFlanks(a, t, left, right);
      r := if added.Fail? then Fail(added.error) else Ok(t);
    }
    OperatorOutcome(s0, a.St(), t, op, left, right, r.Ok?);
  }
  /** What the operator branch leaves behind, from the arena it started with. */
  lemma {:induction false} OperatorOutcome(s0: State, s: State, t: Handle, op: Leaf, left: Option<Handle>, right: Option<Handle>, ok: bool)
    requires Wellformed(s0) && Wellformed(s) && t == |s0.nodes|
    requires (left.Some? ==> left.value < t) && (right.Some? ==> right.value < t)
    requires |s.nodes| == t + 1 && s.nodes[..t] == s0.nodes
    requires ok ==> s.nodes[t] == Node(Flank(left), [Atom(op)], Flank(right))
    requires ok ==> s.parents == SetFlanks(s0.parents + [None], t, left, right)
    requires !ok ==>
      s.parents == SetFlanks(s0.parents + [None], t, None, None) ||
      s.parents == SetFlanks(s0.parents + [None], t, left, None)
    ensures Extends(s0.nodes, s.nodes)
    ensures Rewired(s0.parents, s.parents, Elems(Flank(left) + Flank(right)))
    ensures ok ==> s.parents[t] == None
    ensures ok ==>
      Leaves(s.nodes, t) == Join(Join(FlankLeaves(s0.nodes, left), Some([op])), FlankLeaves(s0.nodes, right))
    ensures ok && Roots(s0, Flank(left) + Flank(right)) ==> Attached(s, t)
  {
    var fl := Elems(Flank(left) + Flank(right));
    if ok {
      OperatorRewired(s0.parents, s.parents, t, left, right, fl);
      FlankedTokenLeaves(s0.nodes, s.nodes, left, right);
      ItemsLeavesSingleton(s.nodes, Atom(op));
      if Roots(s0, Flank(left) + Flank(right)) {
        assert s.nodes == s.nodes[..t] + [s.nodes[t]];
        OperatorAttached(s0, s, t, op, left, right);
      }
    } else if s.parents == SetFlanks(s0.parents + [None], t, None, None) {
      OperatorRewired(s0.parents, s.parents, t, None, None, fl);
    } else {
      assert Flank(left) + Flank(None) == Flank(left);
      OperatorRewired(s0.parents, s.parents, t, left, None, fl);
    }
  }

  /** `GlslToken(operator)`: a fresh parentless token holding the operator in its middle. */
  method AtomToken(a: Arena, op: Leaf) returns (t: Handle)
    requires a.Valid()
    modifies a
    ensures a.Valid() && t == |old(a.nodes)|
    ensures a.nodes == old(a.nodes) + [Node([], [Atom(op)], [])] && a.parents == old(a.parents) + [None]
  {
    var made := a.NewToken(One(Atom(op)));
    t := made.value;
    assert a.parents[..t] == old(a.parents);
    assert a.parents == a.parents[..t] + [a.parents[t]];
    assert a.nodes == a.nodes[..t] + [a.nodes[t]];
  }

  /** Distinct parentless flanks: neither has a parent. */
  lemma {:induction false} FlanksParentless(s: State, left: Option<Handle>, right: Option<Handle>)
    requires Wellformed(s) && Roots(s, Flank(left) + Flank(right))
    ensures left.Some? ==> left.value < |s.parents| && s.parents[left.value].None?
    ensures right.Some? ==> right.value < |s.parents| && s.parents[right.value].None?
  {
    var fl := Flank(left) + Flank(right);
    if left.Some? {
      assert fl[0] == left.value;
    }
    if right.Some? {
      assert fl[|fl| - 1] == right.value;
    }
  }

  /** The operator token rewires no parent but those of its flanks. */
  lemma {:induction false} OperatorRewired(ps0: seq<Option<Handle>>, ps: seq<Option<Handle>>, t: Handle,
                        left: Option<Handle>, right: Option<Handle>, roots: set<Handle>)
    requires t == |ps0| && (left.Some? ==> left.value < t) && (right.Some? ==> right.value < t)
    requires ps == SetFlanks(ps0 + [None], t, left, right) && Elems(Flank(left) + Flank(right)) <= roots
    ensures Rewired(ps0, ps, roots)
  {
    RewiredSame(ps0, ps0 + [None], roots);
    RewiredFlanks(ps0, ps0 + [None], ps, roots, t, Elems(Flank(left) + Flank(right)));
  }

  /** The operator token made over parentless Attached flanks is Attached. */
  lemma {:induction false} OperatorAttached(s0: State, s3: State, t: Handle, op: Leaf, left: Option<Handle>, right: Option<Handle>)
    requires Wellformed(s0) && Wellformed(s3) && t == |s0.nodes|
    requires (left.Some? ==> left.value < t) && (right.Some? ==> right.value < t)
    requires Roots(s0, Flank(left) + Flank(right))
    requires s3.nodes == s0.nodes + [Node(Flank(left), [Atom(op)], Flank(right))]
    requires s3.parents == SetFlanks(s0.parents + [None], t, left, right)
    ensures Attached(s3, t)
  {
    var sN := State(s0.nodes + [Node([], [Atom(op)], [])], s0.parents + [None]);
    assert Below(sN.nodes[t], t);
    assert forall h :: 0 <= h < t ==> sN.nodes[h] == s0.nodes[h];
    assert Wellformed(sN);
    assert [Atom(op)][..0] == [];
    assert HandlesAttached(sN, [], t) && ItemsAttached(sN, [], t);
    assert ItemsAttached(sN, [Atom(op)], t);
    assert Attached(sN, t);
    assert sN.nodes[..|s0.nodes|] == s0.nodes && sN.parents[..|s0.parents|] == s0.parents;
    FlanksFresh(s0, sN, left, right);
    assert s3.nodes == sN.nodes[t := Node(Flank(left), sN.nodes[t].middle, Flank(right))];
    FlanksAttached(sN, s3, t, left, right);
  }

  /** The parents after the left flank, then the right flank, were given the parent `t`. */
  function SetFlanks(ps: seq<Option<Handle>>, t: Handle, left: Option<Handle>, right: Option<Handle>): (r: seq<Option<Handle>>)
    requires (left.Some? ==> left.value < |ps|) && (right.Some? ==> right.value < |ps|)
    ensures FlankParents(ps, r, t, Elems(Flank(left) + Flank(right)))
    ensures (left.Some? ==> r[left.value] == Some(t)) && (right.Some? ==> r[right.value] == Some(t))
  {
    var fl := Flank(left) + Flank(right);
    assert left.Some? ==> fl[0] == left.value;
    assert right.Some? ==> fl[|fl| - 1] == right.value;
    var ps1 := if left.Some? then ps[left.value := Some(t)] else ps;
    if right.Some? then ps1[right.value := Some(t)] else ps1
  }

  /**
   * addLeft of the left flank, when there is one, then addRight of the
   * right flank, when there is one; a flank that already has another
   * parent stops it.
   */
  method AddFlanks(a: Arena, t: Handle, left: Option<Handle>, right: Option<Handle>) returns (r: Result<()>)
    requires a.Valid() && t < |a.nodes|
    requires (left.Some? ==> left.value < t) && (right.Some? ==> right.value < t)
    modifies a
    ensures a.Valid() && |a.nodes| == |old(a.nodes)| && a.nodes == old(a.nodes)[t := a.nodes[t]]
    ensures r.Ok? ==>
      a.nodes[t] == Node(old(a.nodes)[t].left + Flank(left), old(a.nodes)[t].middle, old(a.nodes)[t].right + Flank(right))
    ensures r.Ok? ==> a.parents == SetFlanks(old(a.parents), t, left, right)
    ensures r.Fail? ==> a.parents == SetFlanks(old(a.parents), t, left, None) || a.parents == old(a.parents)
    ensures (left.Some? ==> old(a.parents)[left.value].None?) && (right.Some? ==> old(a.parents)[right.value].None?) ==>
      r.Ok?
  {
    if left.Some? {
      var x := a.AddLeft(t, Sub(left.value));
      if x.Fail? {
        return Fail(x.error);
      }
    }
    if right.Some? {
      var y := a.AddRight(t, Sub(right.value));
      if y.Fail? {
        return Fail(y.error);
      }
    }
    r := Ok(());
  }

  /** Parentless Attached flanks added to a fresh Attached token leave it Attached. */
  lemma {:induction false} FlanksAttached(sN: State, s3: State, t: Handle, left: Option<Handle>, right: Option<Handle>)
    requires Wellformed(sN) && Wellformed(s3) && t < |sN.nodes|
    requires (left.Some? ==> left.value < t) && (right.Some? ==> right.value < t)
    requires Roots(sN, Flank(left) + Flank(right)) && Attached(sN, t)
    requires sN.nodes[t].left == [] && sN.nodes[t].right == []
    requires s3.nodes == sN.nodes[t := Node(Flank(left), sN.nodes[t].middle, Flank(right))]
    requires FlankParents(sN.parents, s3.parents, t, Elems(Flank(left) + Flank(right)))
    requires left.Some? ==> s3.parents[left.value] == Some(t)
    requires right.Some? ==> s3.parents[right.value] == Some(t)
    ensures Attached(s3, t)
  {
    var psN, ps3 := sN.parents, s3.parents;
    var fl := Flank(left) + Flank(right);
    var m := sN.nodes[t].middle;
    assert Below(sN.nodes[t], t) && Below(s3.nodes[t], t);
    assert s3.nodes[..t] == sN.nodes[..t];
    assert Kept(sN, s3, t);
    forall y | y in Elems(fl) ensures y < |psN| && psN[y].None? {
      var i :| 0 <= i < |fl| && fl[i] == y;
    }
    forall y | 0 <= y < |psN| && y != t && Under(psN, y, t) ensures y < |ps3| && ps3[y] == psN[y] {
      if ps3[y] != psN[y] {
        UnderParentless(psN, y, t);
      }
    }
    KeptFewer(sN, s3, t, ItemsCeiling(m));
    ItemsAttachedFrame(sN, s3, m, t, t);
    forall i | 0 <= i < |fl| ensures Attached(s3, fl[i]) {
      var f := fl[i];
      forall y | 0 <= y < |psN| && y != f && Under(psN, y, f) ensures y < |ps3| && ps3[y] == psN[y] {
        if ps3[y] != psN[y] {
          UnderParentless(psN, y, f);
        }
      }
      KeptFewer(sN, s3, t, f + 1);
      AttachedFrame(sN, s3, f, f);
    }
    if left.Some? {
      assert fl[0] == left.value;
    }
    if right.Some? {
      assert fl[|fl| - 1] == right.value;
    }
    assert HandlesAttached(s3, Flank(left), t);
    assert HandlesAttached(s3, Flank(right), t);
  }

  /** The flanks given to a fresh token are still parentless and Attached after it was made. */
  lemma {:induction false} FlanksFresh(s0: State, sN: State, left: Option<Handle>, right: Option<Handle>)
    requires Wellformed(s0) && Wellformed(sN) && Grown(s0, sN) && sN.parents[..|s0.parents|] == s0.parents
    requires Roots(s0, Flank(left) + Flank(right))
    ensures Roots(sN, Flank(left) + Flank(right))
  {
    RootsKept(s0, sN, Flank(left) + Flank(right), {});
  }

  /** A fresh token flattens as its left flank, its middle and its right flank. */
  lemma {:induction false} FlankedTokenLeaves(ns: seq<Node>, fs: seq<Node>, left: Option<Handle>, right: Option<Handle>)
    requires Ordered(ns) && Ordered(fs) && |ns| < |fs| && fs[..|ns|] == ns
    requires (left.Some? ==> left.value < |ns|) && (right.Some? ==> right.value < |ns|)
    requires fs[|ns|].left == Flank(left) && fs[|ns|].right == Flank(right)
    ensures ItemsCeiling(fs[|ns|].middle) <= |ns|
    ensures Leaves(fs, |ns|) ==
      Join(Join(FlankLeaves(ns, left), ItemsLeaves(fs, fs[|ns|].middle)), FlankLeaves(ns, right))
  {
    var t := |ns|;
    assert Below(fs[t], t);
    assert ns[..t] == ns;
    if left.Some? {
      HandlesLeavesSingleton(fs, left.value);
      LeavesFrame(ns, fs, t, left.value);
    }
    if right.Some? {
      HandlesLeavesSingleton(fs, right.value);
      LeavesFrame(ns, fs, t, right.value);
    }
    assert Leaves(fs, t) ==
      Join(Join(HandlesLeaves(fs, Flank(left)), ItemsLeaves(fs, fs[t].middle)), HandlesLeaves(fs, Flank(right)));
  }

  /** The operator token flattens as the list it was built from. */
  lemma {:induction false} OperatorTokenLeaves(ns0: seq<Node>, ns1: seq<Node>, ns2: seq<Node>,
                                              lst: seq<Handle>, k: nat, op: Leaf, left: Option<Handle>, right: Option<Handle>)
    requires Ordered(ns0) && Ordered(ns1) && Ordered(ns2) && Extends(ns0, ns1) && Extends(ns1, ns2)
    requires Ceiling(lst) <= |ns0| && k < |lst| && lst[k] < |ns0| && Leaves(ns0, lst[k]) == Some([op])
    requires Ceiling(lst[..k]) <= |ns0| && Ceiling(lst[k + 1..]) <= |ns0|
    requires left.None? ==> lst[..k] == []
    requires left.Some? ==> left.value < |ns1| && Leaves(ns1, left.value) == HandlesLeaves(ns0, lst[..k])
    requires right.None? ==> lst[k + 1..] == []
    requires right.Some? ==> right.value < |ns2| && Leaves(ns2, right.value) == HandlesLeaves(ns1, lst[k + 1..])
    ensures HandlesLeaves(ns0, lst) ==
      Join(Join(FlankLeaves(ns2, left), Some([op])), FlankLeaves(ns2, right))
  {
    SplitLeaves(ns0, lst, k);
    assert ns1[..|ns1|] == ns1 && ns0[..|ns0|] == ns0;
    HandlesFrame(ns0, ns1, |ns0|, lst[k + 1..]);
    if left.Some? {
      LeavesFrame(ns1, ns2, |ns1|, left.value);
    }
  }

  /**
   * token_tree_split_paren: the group from the absorbed run through the
   * closer becomes one token, and the list with the group replaced by it is
   * built again.
   */
  method SplitParen(a: Arena, lst: seq<Handle>, first: nat, last: nat) returns (r: Result<Handle>, ghost tr: Trace)
    requires a.Valid() && Ceiling(lst) <= |a.nodes| && InArena(a.nodes, lst)
    requires Decide(a.nodes, lst) == Ok(Group(first, last))
    modifies a
    ensures a.Valid() && Extends(old(a.nodes), a.nodes)
    ensures r.Ok? ==>
      |old(a.nodes)| <= r.value < |a.nodes| && a.parents[r.value] == None &&
      Leaves(a.nodes, r.value) == HandlesLeaves(old(a.nodes), lst)
    ensures tr.Grouped? && GroupBuilt(old(a.St()), a.nodes, lst, first, last, r, tr)
    ensures r.Ok? && Roots(old(a.St()), lst) ==>
      Rewired(old(a.parents), a.parents, Elems(lst)) && Attached(a.St(), r.value)
    decreases |lst|, 2
  {
    ghost var s0 := a.St();
    GroupViews(a.nodes, lst, first, last);
    var s := AbsorbStart(a.nodes, lst, first);
    var st := s.value;
    if Roots(s0, lst) {
      RootsSlice(s0, lst, st, last + 1);
    }
    r, tr := BuildGroup(a, lst, st, first, last);
  }

  /** The group branch once the run left of the opener is known: the group token is made, then the list around it is built. */
  method BuildGroup(a: Arena, lst: seq<Handle>, st: nat, first: nat, last: nat) returns (r: Result<Handle>, ghost tr: Trace)
    requires a.Valid() && Ceiling(lst) <= |a.nodes| && InArena(a.nodes, lst)
    requires st <= first < last < |lst| && AbsorbedRun(a.nodes, lst, st, first)
    requires Roots(a.St(), lst) ==> Roots(a.St(), lst[st..last + 1])
    modifies a
    ensures a.Valid() && Extends(old(a.nodes), a.nodes)
    ensures r.Ok? ==>
      |old(a.nodes)| <= r.value < |a.nodes| && a.parents[r.value] == None &&
      Leaves(a.nodes, r.value) == HandlesLeaves(old(a.nodes), lst)
    ensures tr.Grouped? && GroupBuilt(old(a.St()), a.nodes, lst, first, last, r, tr)
    ensures r.Ok? && Roots(old(a.St()), lst) ==>
      Rewired(old(a.parents), a.parents, Elems(lst)) && Attached(a.St(), r.value)
    decreases |lst|, 1
  {
    ghost var s0 := a.St();
    var made, I := MakeGroup(a, lst, st, first, last);
    if made.Fail? {
      GroupFailed(s0, a.St(), lst, st, first, last, made, I);
      return made, Grouped(st, 0, I, None);
    }
    r, tr := BuildAroundGroup(a, s0, lst, st, first, last, made, I);
  }

  /** Making the group token failed: so does the group branch, with its error. */
  lemma {:induction false} GroupFailed(s0: State, s1: State, lst: seq<Handle>, st: nat, first: nat, last: nat,
                                       made: Result<Handle>, I: Option<Call>)
    requires Wellformed(s0) && Wellformed(s1) && Ceiling(lst) <= |s0.nodes| && InArena(s0.nodes, lst)
    requires st <= first < last < |lst| && AbsorbedRun(s0.nodes, lst, st, first)
    requires GroupCall(s0, s1, lst, st, first, last, made, I) && made.Fail?
    ensures GroupBuilt(s0, s1.nodes, lst, first, last, made, Grouped(st, 0, I, None))
  {
    if Roots(s0, lst) {
      RootsSlice(s0, lst, st, last + 1);
      assert !Made(I);
    }
  }

  /**
   * The group branch once the group token `g` is made, from the arena `s0`
   * it started on: the list with `g` in place of the absorbed run, the
   * group and the closer is built, and its result is the result.
   */
  method BuildAroundGroup(a: Arena, ghost s0: State, lst: seq<Handle>, st: nat, first: nat, last: nat,
                          made: Result<Handle>, ghost I: Option<Call>)
    returns (r: Result<Handle>, ghost tr: Trace)
    requires a.Valid() && Wellformed(s0) && Ceiling(lst) <= |s0.nodes| && InArena(s0.nodes, lst)
    requires st <= first < last < |lst| && AbsorbedRun(s0.nodes, lst, st, first)
    requires Roots(s0, lst) ==> Roots(s0, lst[st..last + 1])
    requires GroupCall(s0, a.St(), lst, st, first, last, made, I) && made.Ok?
    modifies a
    ensures a.Valid() && Extends(s0.nodes, a.nodes)
    ensures r.Ok? ==>
      |s0.nodes| <= r.value < |a.nodes| && a.parents[r.value] == None &&
      Leaves(a.nodes, r.value) == HandlesLeaves(s0.nodes, lst)
    ensures tr.Grouped? && GroupBuilt(s0, a.nodes, lst, first, last, r, tr)
    ensures r.Ok? && Roots(s0, lst) ==>
      Rewired(s0.parents, a.parents, Elems(lst)) && Attached(a.St(), r.value)
    decreases |lst|, 0
  {
    var g := made.value;
    ghost var s1 := a.St();
    MidLeaves(s0.nodes, lst, st, first, last);
    RegroupedLeaves(s0.nodes, s1.nodes, lst, st, first, last, g);
    var rest := lst[..st] + [g] + lst[last + 1..];
    var res, R := BuildSide(a, rest);
    tr := Grouped(st, g, I, R);
    r := if res.Fail? then Fail(res.error) else Ok(res.value.value);
    GroupDone(s0, s1, a.St(), lst, st, first, last, g, I, res, R, r);
  }

  /** The list around the group token was built: its result is the group branch's result. */
  lemma {:induction false} GroupDone(s0: State, s1: State, s2: State, lst: seq<Handle>, st: nat, first: nat, last: nat,
                                     g: Handle, I: Option<Call>, res: Result<Option<Handle>>, R: Option<Call>,
                                     r: Result<Handle>)
    requires Wellformed(s0) && Wellformed(s1) && Wellformed(s2) && Ceiling(lst) <= |s0.nodes| && InArena(s0.nodes, lst)
    requires st <= first < last < |lst| && AbsorbedRun(s0.nodes, lst, st, first)
    requires Roots(s0, lst) ==> Roots(s0, lst[st..last + 1])
    requires GroupCall(s0, s1, lst, st, first, last, Ok(g), I)
    requires Ceiling(lst[..st] + [g] + lst[last + 1..]) <= |s1.nodes|
    requires HandlesLeaves(s1.nodes, lst[..st] + [g] + lst[last + 1..]) == HandlesLeaves(s0.nodes, lst)
    requires SideCall(s1, s2, lst[..st] + [g] + lst[last + 1..], res, R)
    requires res.Fail? ==> r == Fail(res.error)
    requires res.Ok? ==> r.Ok? && res.value == Some(r.value)
    ensures Extends(s0.nodes, s2.nodes)
    ensures r.Ok? ==>
      |s0.nodes| <= r.value < |s2.nodes| && s2.parents[r.value] == None &&
      Leaves(s2.nodes, r.value) == HandlesLeaves(s0.nodes, lst)
    ensures GroupSteps(s0, s2.nodes, lst, first, last, r, Grouped(st, g, I, R))
    ensures r.Ok? ==> GroupShape(s0.nodes, s2.nodes, lst, st, first, last, g, I)
    ensures r.Ok? && Roots(s0, lst) ==> Rewired(s0.parents, s2.parents, Elems(lst)) && Attached(s2, r.value)
  {
    assert InsideBuilt(s0, s1, lst, st, first, last, I) && GroupMade(s0, s1, lst, st, first, last, g, I);
    var ns0, ns1, ns2 := s0.nodes, s1.nodes, s2.nodes;
    ExtendsTrans(ns0, ns1, ns2);
    WithinWider(ns0, ns0, I, ns1, ns2);
    WithinWider(ns0, ns1, R, ns2, ns2);
    if r.Ok? {
      GroupShapeStable(ns0, ns1, ns2, lst, st, first, last, g, I);
    }
    if Roots(s0, lst) {
      RestRoots(s0, s1, lst, st, last, g);
      if r.Ok? {
        SplitOutcome(s0, s1, s2, lst, st, last, g, r.value);
      }
    }
  }

  /** The list with the group token in place of the group flattens as the list did. */
  lemma {:induction false} RegroupedLeaves(ns0: seq<Node>, ns1: seq<Node>, lst: seq<Handle>, st: nat, first: nat, last: nat, g: Handle)
    requires Ordered(ns0) && Ordered(ns1) && Extends(ns0, ns1)
    requires Ceiling(lst) <= |ns0| && st <= first < last < |lst| && g < |ns1|
    requires Ceiling(lst[st..first + 1]) <= |ns0| && Ceiling(lst[first + 1..last]) <= |ns0| && lst[last] < |ns0|
    requires Leaves(ns1, g) ==
      Join(Join(HandlesLeaves(ns0, lst[st..first + 1]), HandlesLeaves(ns0, lst[first + 1..last])),
           Leaves(ns0, lst[last]))
    ensures Ceiling(lst[..st] + [g] + lst[last + 1..]) <= |ns1|
    ensures HandlesLeaves(ns1, lst[..st] + [g] + lst[last + 1..]) == HandlesLeaves(ns0, lst)
  {
    RegroupLeaves(ns0, lst, st, first, last);
    RestLeaves(ns0, ns1, lst[..st], g, lst[last + 1..]);
  }

  lemma {:induction false} RestLeaves(ns0: seq<Node>, ns1: seq<Node>, xs: seq<Handle>, g: Handle, ys: seq<Handle>)
    requires Ordered(ns0) && Ordered(ns1) && Extends(ns0, ns1)
    requires Ceiling(xs) <= |ns0| && Ceiling(ys) <= |ns0| && g < |ns1|
    ensures Ceiling(xs + [g] + ys) <= |ns1|
    ensures HandlesLeaves(ns1, xs + [g] + ys) ==
      Join(Join(HandlesLeaves(ns0, xs), Leaves(ns1, g)), HandlesLeaves(ns0, ys))
  {
    HandlesLeavesSingleton(ns1, g);
    CeilingSnoc(xs, g);
    HandlesLeaves3(ns1, xs, [g], ys);
    assert ns0[..|ns0|] == ns0;
    HandlesFrame(ns0, ns1, |ns0|, xs);
    HandlesFrame(ns0, ns1, |ns0|, ys);
  }

  /** The list built again around the group token of distinct parentless Attached tokens is Attached, and only parents under those tokens changed. */
  lemma {:induction false} SplitOutcome(s0: State, s1: State, s2: State, lst: seq<Handle>, st: nat, last: nat, g: Handle, t: Handle)
    requires Wellformed(s0) && Wellformed(s1) && Wellformed(s2) && Grown(s0, s1)
    requires st <= last < |lst| && Roots(s0, lst)
    requires |s0.nodes| <= g < |s1.nodes| && s1.parents[g].None? && t < |s2.nodes|
    requires Roots(s0, lst[st..last + 1]) ==> Rewired(s0.parents, s1.parents, Elems(lst[st..last + 1])) && Attached(s1, g)
    requires Roots(s1, lst[..st] + [g] + lst[last + 1..]) ==>
      Rewired(s1.parents, s2.parents, Elems(lst[..st] + [g] + lst[last + 1..])) && Attached(s2, t)
    ensures Rewired(s0.parents, s2.parents, Elems(lst)) && Attached(s2, t)
  {
    var rest := lst[..st] + [g] + lst[last + 1..];
    RootsSlice(s0, lst, st, last + 1);
    RestRoots(s0, s1, lst, st, last, g);
    RewiredTrans(s0, s1.parents, s2.parents, Elems(lst[st..last + 1]), Elems(rest), Elems(lst));
  }

  /** The list around the group token: distinct parentless Attached tokens, the old ones from the list. */
  lemma {:induction false} RestRoots(s0: State, s1: State, lst: seq<Handle>, st: nat, last: nat, g: Handle)
    requires Wellformed(s0) && Wellformed(s1) && Grown(s0, s1)
    requires st <= last < |lst| && Roots(s0, lst)
    requires |s0.nodes| <= g < |s1.nodes| && s1.parents[g].None? && Attached(s1, g)
    requires Rewired(s0.parents, s1.parents, Elems(lst[st..last + 1]))
    ensures Roots(s1, lst[..st] + [g] + lst[last + 1..])
    ensures forall h :: h in Elems(lst[..st] + [g] + lst[last + 1..]) && h < |s0.parents| ==> h in Elems(lst)
  {
    var sub, xs, ys := lst[st..last + 1], lst[..st], lst[last + 1..];
    var e := Elems(sub);
    RootsSlice(s0, lst, st, last + 1);
    RootsSlice(s0, lst, 0, st);
    RootsSlice(s0, lst, last + 1, |lst|);
    assert lst[0..st] == xs && lst[last + 1..|lst|] == ys;
    RootsApart(s0, lst, st, last + 1);
    RootsApart(s0, lst, last + 1, |lst|);
    forall h | h in e ensures h < |s0.parents| && s0.parents[h].None? {
      var i :| 0 <= i < |sub| && sub[i] == h;
    }
    forall i | 0 <= i < |xs| ensures xs[i] !in e {
      assert xs[i] == lst[i];
    }
    forall i | 0 <= i < |ys| ensures ys[i] !in e {
      assert ys[i] == lst[last + 1 + i];
    }
    RootsKept(s0, s1, xs, e);
    RootsKept(s0, s1, ys, e);
    forall h | h in Elems(xs) ensures h !in Elems(ys) && h < |s0.nodes| {
      var i :| 0 <= i < |xs| && xs[i] == h;
      assert lst[i] == h;
    }
    forall h | h in Elems(ys) ensures h < |s0.nodes| {
      var i :| 0 <= i < |ys| && ys[i] == h;
    }
    RootsJoin(s1, xs, g, ys);
  }

  /**
   * The group token of token_tree_split_paren: the absorbed run on its
   * left, what lies between the delimiters in its middle (nothing for an
   * empty pair), the closer on its right. It fails when building the inside
   * fails or when the inside's tree does not descend; over distinct
   * parentless Attached tokens nothing else stops it.
   */
  method MakeGroup(a: Arena, lst: seq<Handle>, start: nat, first: nat, last: nat)
    returns (r: Result<Handle>, ghost I: Option<Call>)
    requires a.Valid() && Ceiling(lst) <= |a.nodes| && start <= first < last < |lst|
    modifies a
    ensures a.Valid() && GroupCall(old(a.St()), a.St(), lst, start, first, last, r, I)
    decreases |lst|, 0
  {
    ghost var s0 := a.St();
    SliceCeiling(lst, start, first + 1);
    SliceCeiling(lst, first + 1, last);
    var run := AbsorbedToken(a, lst[start..first + 1]);
    ghost var s1 := a.St();
    var inner;
    inner, I := BuildSide(a, lst[first + 1..last]);
    if inner.Fail? {
      InsideFailed(s0, s1, a.St(), lst, start, first, last, run, inner, I);
      return Fail(inner.error), I;
    }
    r := GroupOfParts(a, s0, s1, lst, start, first, last, run, inner.value, I);
  }

  /** A side build that succeeded returned nothing for no tokens, and otherwise a fresh parentless token flattening as them. */
  lemma {:induction false} SideTree(s0: State, s1: State, xs: seq<Handle>, t: Option<Handle>, c: Option<Call>)
    requires Wellformed(s0) && Wellformed(s1) && Ceiling(xs) <= |s0.nodes|
    requires SideCall(s0, s1, xs, Ok(t), c)
    ensures Extends(s0.nodes, s1.nodes) && Within(s0.nodes, c, s1.nodes) && Flank(t) == Tree(c)
    ensures (t.None? <==> xs == []) && (c.None? <==> xs == []) && Succeeded(c) && SideBuilt(c, xs)
    ensures t.Some? ==>
      |s0.nodes| <= t.value < |s1.nodes| && s1.parents[t.value] == None &&
      Leaves(s1.nodes, t.value) == HandlesLeaves(s0.nodes, xs)
    ensures Roots(s0, xs) ==> Rewired(s0.parents, s1.parents, Elems(xs)) && (t.Some? ==> Attached(s1, t.value))
  {
  }

  /** Building the inside of the group failed: so does making the group token, with its error. */
  lemma {:induction false} InsideFailed(s0: State, s1: State, s2: State, lst: seq<Handle>, start: nat, first: nat, last: nat,
                                        run: Handle, inner: Result<Option<Handle>>, I: Option<Call>)
    requires Wellformed(s0) && Wellformed(s1) && Wellformed(s2) && Ceiling(lst) <= |s0.nodes| && start <= first < last < |lst|
    requires Ceiling(lst[start..first + 1]) <= |s0.nodes| && Ceiling(lst[first + 1..last]) <= |s0.nodes|
    requires RunMade(s0, s1, lst[start..first + 1], run)
    requires SideCall(s1, s2, lst[first + 1..last], inner, I) && inner.Fail?
    ensures GroupCall(s0, s2, lst, start, first, last, Fail(inner.error), I)
  {
    ExtendsTrans(s0.nodes, s1.nodes, s2.nodes);
    WithinWider(s0.nodes, s1.nodes, I, s2.nodes, s2.nodes);
    if Roots(s0, lst[start..last + 1]) {
      GroupInsideRoots(s0, s1, lst, start, first, last, run);
    }
    assert InsideBuilt(s0, s2, lst, start, first, last, I);
  }

  /**
   * The group token of the absorbed run `run`, made from the arena `s0` to
   * the arena `s1`, and of the inside's tree `inner`, built from `s1` on by
   * the call `I`: the run on the left, the inside's tree in the middle and
   * the closer on the right.
   */
  method GroupOfParts(a: Arena, ghost s0: State, ghost s1: State, lst: seq<Handle>, start: nat, first: nat, last: nat,
                      run: Handle, inner: Option<Handle>, ghost I: Option<Call>)
    returns (r: Result<Handle>)
    requires a.Valid() && Wellformed(s0) && Wellformed(s1) && Ceiling(lst) <= |s0.nodes| && start <= first < last < |lst|
    requires Ceiling(lst[start..first + 1]) <= |s0.nodes| && Ceiling(lst[first + 1..last]) <= |s0.nodes|
    requires RunMade(s0, s1, lst[start..first + 1], run)
    requires SideCall(s1, a.St(), lst[first + 1..last], Ok(inner), I)
    modifies a
    ensures a.Valid() && GroupCall(s0, a.St(), lst, start, first, last, r, I)
  {
    ghost var s2 := a.St();
    ghost var ns0, ns1, ns2 := s0.nodes, s1.nodes, s2.nodes;
    ghost var roots := Roots(s0, lst[start..last + 1]);
    SideTree(s1, s2, lst[first + 1..last], inner, I);
    ExtendsTrans(ns0, ns1, ns2);
    CeilingBound(lst, last);
    if start == first {
      assert lst[start..first + 1][0] == lst[first];
    }
    if roots {
      GroupRunRoots(s0, lst, start, first, last);
      GroupInsideRoots(s0, s1, lst, start, first, last, run);
      GroupPartsRoots(s1, s2, Elems(lst[first + 1..last]), run, inner, lst[last]);
    }
    r := GroupToken(a, run, inner, lst[last]);
    ExtendsTrans(ns0, ns2, a.nodes);
    WithinWider(ns0, ns1, I, ns2, a.nodes);
    assert InsideBuilt(s0, a.St(), lst, start, first, last, I);
    if r.Fail? {
      assert GroupStopped(s0, lst, start, first, last, r.error, I);
    } else {
      GroupTokenLeaves(ns0, ns1, ns2, lst, start, first, last, run, inner);
      assert I.Some? ==> I.value.to == ns2 && inner == Some(I.value.res.value);
      GroupTokenShape(ns0, ns1, ns2, a.nodes, lst, start, first, last, run, inner, r.value, I);
      if roots {
        GroupOutcome(s0, s1, s2, a.St(), lst, start, first, last, run, inner, r.value);
      }
      assert GroupMade(s0, a.St(), lst, start, first, last, r.value, I);
    }
  }


  /** A group over distinct parentless Attached tokens is Attached, and only parents under those tokens changed. */
  lemma {:induction false} GroupOutcome(s0: State, s1: State, s2: State, s3: State, lst: seq<Handle>, start: nat, first: nat, last: nat,
                     run: Handle, inner: Option<Handle>, g: Handle)
    requires Wellformed(s0) && start <= first < last < |lst| && Roots(s0, lst[start..last + 1])
    requires start == first ==> run == lst[first]
    requires start < first ==> run == |s0.nodes|
    requires Rewired(s0.parents, s1.parents, Elems(lst[start..first + 1]))
    requires Rewired(s1.parents, s2.parents, Elems(lst[first + 1..last]))
    requires inner.Some? ==> |s1.parents| <= inner.value
    requires Rewired(s2.parents, s3.parents, Elems([run] + Flank(inner) + [lst[last]]))
    ensures Rewired(s0.parents, s3.parents, Elems(lst[start..last + 1]))
  {
    GroupRunRoots(s0, lst, start, first, last);
    GroupRewired(s0, s1.parents, s2.parents, s3.parents, lst, start, first, last, run, inner);
  }

  /** The parts of a group over distinct parentless Attached tokens are such tokens too, apart from each other. */
  lemma {:induction false} GroupRunRoots(s0: State, lst: seq<Handle>, start: nat, first: nat, last: nat)
    requires Wellformed(s0) && start <= first < last < |lst| && Roots(s0, lst[start..last + 1])
    ensures Roots(s0, lst[start..first + 1]) && Roots(s0, lst[first + 1..last]) && Roots(s0, [lst[last]])
    ensures lst[last] !in Elems(lst[start..first + 1]) && lst[last] !in Elems(lst[first + 1..last])
    ensures lst[first] !in Elems(lst[first + 1..last]) && Elems(lst[start..first + 1]) !! Elems(lst[first + 1..last])
    ensures Elems(lst[start..first + 1]) <= Elems(lst[start..last + 1])
    ensures Elems(lst[first + 1..last]) <= Elems(lst[start..last + 1])
    ensures lst[first] in Elems(lst[start..last + 1]) && lst[last] in Elems(lst[start..last + 1])
  {
    var sub := lst[start..last + 1];
    var p, q := first + 1 - start, last - start;
    SliceOfSlice(lst, start, last + 1, 0, p);
    SliceOfSlice(lst, start, last + 1, p, q);
    SliceOfSlice(lst, start, last + 1, q, |sub|);
    assert sub[p - 1] == lst[first] && sub[q] == lst[last];
    RootsSlice(s0, sub, 0, p);
    RootsSlice(s0, sub, p, q);
    RootsSlice(s0, sub, q, |sub|);
    RootsApart(s0, sub, 0, p);
    RootsApart(s0, sub, p, q);
    ApartSlices(sub, p, q);
  }

  /** Two neighbouring slices of a list of distinct tokens share no token. */
  lemma {:induction false} ApartSlices(xs: seq<Handle>, p: nat, q: nat)
    requires p <= q <= |xs| && forall i, j :: 0 <= i < j < |xs| ==> xs[i] != xs[j]
    ensures Elems(xs[0..p]) !! Elems(xs[p..q])
  {
    var a, b := Elems(xs[0..p]), Elems(xs[p..q]);
    forall h | h in a ensures h !in b {
      var i :| 0 <= i < p && xs[0..p][i] == h;
      assert xs[i] == h;
      forall j | 0 <= j < q - p ensures xs[p..q][j] != h {
        assert xs[p..q][j] == xs[p + j];
      }
    }
  }


  lemma {:induction false} SliceOfSlice<T>(s: seq<T>, i: nat, j: nat, k: nat, l: nat)
    requires i <= j <= |s| && k <= l <= j - i
    ensures s[i..j][k..l] == s[i + k..i + l]
  {
    var u := s[i..j];
    forall m | 0 <= m < l - k ensures u[k..l][m] == s[i + k..i + l][m] {
      assert u[k..l][m] == u[k + m] == s[i + k + m];
    }
  }

  /** After the run token, the inside and the closer are still parentless and Attached, and apart from the run token. */
  lemma {:induction false} GroupInsideRoots(s0: State, s1: State, lst: seq<Handle>, start: nat, first: nat, last: nat, run: Handle)
    requires Wellformed(s0) && Wellformed(s1) && start <= first < last < |lst| && Roots(s0, lst[start..last + 1])
    requires Ceiling(lst[start..first + 1]) <= |s0.nodes| && RunMade(s0, s1, lst[start..first + 1], run)
    ensures Roots(s1, lst[first + 1..last])
    ensures Roots(s1, [run, lst[last]]) && run !in Elems(lst[first + 1..last]) && lst[last] !in Elems(lst[first + 1..last])
    ensures forall h :: h in Elems(lst[first + 1..last]) ==> h < |s0.nodes| && s1.parents[h].None?
  {
    var ins := lst[first + 1..last];
    var r := Elems(lst[start..first + 1]);
    var rs := lst[start..first + 1];
    GroupRunRoots(s0, lst, start, first, last);
    forall h | h in r ensures h < |s0.parents| && s0.parents[h].None? {
      var i :| 0 <= i < |rs| && rs[i] == h;
    }
    RootsKept(s0, s1, ins, r);
    RootsKept(s0, s1, [lst[last]], r);
    forall h | h in Elems(ins) ensures h < |s0.nodes| && s1.parents[h].None? {
      var i :| 0 <= i < |ins| && ins[i] == h;
    }
    assert lst[last] in Elems(rs) ==> false;
    assert [lst[last]][0] == lst[last];
    if start == first {
      assert rs[first - start] == run;
    }
    assert run != lst[last];
  }

  /** Before the group token is made, the run token, the inside's tree and the closer are distinct parentless Attached tokens. */
  lemma {:induction false} GroupPartsRoots(s1: State, s2: State, ins: set<Handle>, run: Handle, inner: Option<Handle>, closer: Handle)
    requires Wellformed(s1) && Wellformed(s2) && Grown(s1, s2) && Rewired(s1.parents, s2.parents, ins)
    requires forall h :: h in ins ==> h < |s1.parents| && s1.parents[h].None?
    requires Roots(s1, [run, closer]) && run !in ins && closer !in ins
    requires inner.Some? ==>
      |s1.nodes| <= inner.value < |s2.nodes| && s2.parents[inner.value].None? && Attached(s2, inner.value)
    ensures Roots(s2, [run] + Flank(inner) + [closer])
  {
    RootsKept(s1, s2, [run, closer], ins);
    assert [run, closer][0] == run && [run, closer][1] == closer;
    if inner.Some? {
      assert [run] + Flank(inner) + [closer] == [run, inner.value, closer];
    } else {
      assert [run] + Flank(inner) + [closer] == [run, closer];
    }
  }

  /** The parents a group changed are those under its parts, or under the tokens it made. */
  lemma {:induction false} GroupRewired(s0: State, ps1: seq<Option<Handle>>, ps2: seq<Option<Handle>>, ps3: seq<Option<Handle>>,
                     lst: seq<Handle>, start: nat, first: nat, last: nat, run: Handle, inner: Option<Handle>)
    requires Wellformed(s0) && start <= first < last < |lst|
    requires Rewired(s0.parents, ps1, Elems(lst[start..first + 1])) && |ps1| <= |ps2|
    requires Rewired(ps1, ps2, Elems(lst[first + 1..last]))
    requires Rewired(ps2, ps3, Elems([run] + Flank(inner) + [lst[last]]))
    requires Elems(lst[start..first + 1]) <= Elems(lst[start..last + 1])
    requires Elems(lst[first + 1..last]) <= Elems(lst[start..last + 1])
    requires lst[first] in Elems(lst[start..last + 1]) && lst[last] in Elems(lst[start..last + 1])
    requires start == first ==> run == lst[first]
    requires start < first ==> run == |s0.nodes|
    requires inner.Some? ==> |ps1| <= inner.value
    ensures Rewired(s0.parents, ps3, Elems(lst[start..last + 1]))
  {
    var e := Elems(lst[start..last + 1]);
    RewiredTrans(s0, ps1, ps2, Elems(lst[start..first + 1]), Elems(lst[first + 1..last]), e);
    RewiredTrans(s0, ps2, ps3, e, Elems([run] + Flank(inner) + [lst[last]]), e);
  }

  /** The group token has the shape of token_tree_split_paren's group. */
  lemma {:induction false} GroupTokenShape(ns0: seq<Node>, ns1: seq<Node>, ns2: seq<Node>, ns3: seq<Node>,
                                           lst: seq<Handle>, start: nat, first: nat, last: nat,
                                           run: Handle, inner: Option<Handle>, g: Handle, I: Option<Call>)
    requires Ordered(ns0) && Ordered(ns1) && Ordered(ns2) && Ordered(ns3)
    requires Extends(ns0, ns1) && Extends(ns1, ns2) && Extends(ns2, ns3)
    requires Ceiling(lst) <= |ns0| && start <= first < last < |lst|
    requires Ceiling(lst[start..first + 1]) <= |ns0| && Ceiling(lst[first + 1..last]) <= |ns0|
    requires run < |ns1| && Leaves(ns1, run) == HandlesLeaves(ns0, lst[start..first + 1])
    requires start == first ==> run == lst[first]
    requires start < first ==> ns1[run] == Node([], Subs(lst[start..first + 1]), [])
    requires inner.None? ==> lst[first + 1..last] == []
    requires inner.Some? ==>
      inner.value < |ns2| && Leaves(ns2, inner.value) == HandlesLeaves(ns1, lst[first + 1..last])
    requires g < |ns3| && ns3[g].left == [run] && ns3[g].right == [lst[last]]
    requires Made(I) && ns3[g].middle == GroupMiddle(I)
    requires ItemsCeiling(ns3[g].middle) <= |ns2|
    requires ItemsLeaves(ns2, ns3[g].middle) == FlankLeaves(ns2, inner)
    ensures GroupShape(ns0, ns3, lst, start, first, last, g, I)
  {
    ExtendsTrans(ns1, ns2, ns3);
    assert ns0[..|ns0|] == ns0 && ns1[..|ns1|] == ns1 && ns2[..|ns2|] == ns2;
    assert ns3[run] == ns1[run];
    LeavesFrame(ns1, ns3, |ns1|, run);
    ItemsFrame(ns2, ns3, |ns2|, ns3[g].middle);
    if inner.Some? {
      HandlesFrame(ns0, ns1, |ns0|, lst[first + 1..last]);
    }
  }

  /**
   * The token the group becomes: `GlslToken(middle)` (an empty token when
   * there is nothing between the delimiters), then the run added on its left
   * and the closer on its right.
   */
  method GroupToken(a: Arena, run: Handle, inner: Option<Handle>, closer: Handle) returns (r: Result<Handle>)
    requires a.Valid() && run < |a.nodes| && closer < |a.nodes| && (inner.Some? ==> inner.value < |a.nodes|)
    modifies a
    ensures a.Valid() && Extends(old(a.nodes), a.nodes)
    ensures r.Ok? ==> r.value == |old(a.nodes)| && r.value < |a.nodes| && a.parents[r.value] == None
    ensures r.Ok? ==> a.nodes[r.value] == Node([run], InnerMiddle(old(a.nodes), inner), [closer])
    ensures r.Ok? ==>
      ItemsCeiling(a.nodes[r.value].middle) <= |old(a.nodes)| &&
      ItemsLeaves(old(a.nodes), a.nodes[r.value].middle) == FlankLeaves(old(a.nodes), inner)
    ensures r.Ok? ==>
      Leaves(a.nodes, r.value) ==
        Join(Join(Leaves(old(a.nodes), run), FlankLeaves(old(a.nodes), inner)), Leaves(old(a.nodes), closer))
    ensures r.Ok? && Roots(old(a.St()), [run] + Flank(inner) + [closer]) ==>
      Rewired(old(a.parents), a.parents, Elems([run] + Flank(inner) + [closer])) && Attached(a.St(), r.value)
    ensures inner.Some? && Descended(old(a.nodes), One(Sub(inner.value))).Fail? ==>
      r == Fail(Descended(old(a.nodes), One(Sub(inner.value))).error)
    ensures r.Ok? && inner.Some? ==> Descended(old(a.nodes), One(Sub(inner.value))).Ok?
    ensures Roots(old(a.St()), [run] + Flank(inner) + [closer]) ==>
      (r.Fail? <==> inner.Some? && Descended(old(a.nodes), One(Sub(inner.value))).Fail?)
  {
    ghost var s0 := a.St();
    ghost var ns := a.nodes;
    ghost var p := InnerPayload(inner);
    ghost var roots := Roots(s0, [run] + Flank(inner) + [closer]);
    if roots {
      GroupPayloadRoots(s0, p, run, inner, closer);
    }
    var made := InnerToken(a, inner);
    if made.Fail? {
      return Fail(made.error);
    }
    var t := made.value;
    ghost var sN := a.St();
    ghost var m := a.nodes[t].middle;
    if roots {
      GroupFlanksKept(s0, sN, t, p, run, inner, closer);
      assert [run, closer][0] == run && [run, closer][1] == closer;
    }
    var added := AddFlanks(a, t, Some(run), Some(closer));
    ExtendsUpdate(ns, sN.nodes, t, a.nodes[t]);
    if added.Fail? {
      return Fail(added.error);
    }
    r := Ok(t);
    FinishedGroupLeaves(ns, a.nodes, run, m, closer);
    if Roots(s0, [run] + Flank(inner) + [closer]) {
      GroupAttached(s0, sN, a.St(), t, p, run, inner, closer);
    }
  }

  /** What a group token is made from: the tree of the inside, or nothing for an empty pair. */
  function InnerPayload(inner: Option<Handle>): Payload
  {
    if inner.Some? then One(Sub(inner.value)) else One(Nil)
  }

  /** The group token before its flanks are added: a fresh token made from the inside. */
  method InnerToken(a: Arena, inner: Option<Handle>) returns (r: Result<Handle>)
    requires a.Valid() && (inner.Some? ==> inner.value < |a.nodes|)
    modifies a
    ensures a.Valid() && Extends(old(a.nodes), a.nodes)
    ensures r.Ok? ==> r.value == |old(a.nodes)| && |a.nodes| == r.value + 1 && a.parents[r.value] == None
    ensures r.Ok? ==> a.nodes[r.value] == Node([], InnerMiddle(old(a.nodes), inner), [])
    ensures r.Ok? ==>
      ItemsCeiling(a.nodes[r.value].middle) <= |old(a.nodes)| &&
      ItemsLeaves(old(a.nodes), a.nodes[r.value].middle) == FlankLeaves(old(a.nodes), inner)
    ensures r.Ok? && RootItems(old(a.St()), PayloadItems(InnerPayload(inner))) ==>
      Attached(a.St(), r.value) && Rewired(old(a.parents), a.parents, Handles(PayloadItems(InnerPayload(inner))))
    ensures r.Fail? <==> inner.Some? && Descended(old(a.nodes), One(Sub(inner.value))).Fail?
    ensures r.Fail? ==> r.error == Descended(old(a.nodes), One(Sub(inner.value))).error
  {
    ghost var ns := a.nodes;
    r := a.NewToken(InnerPayload(inner));
    if r.Ok? {
      FreshMiddleLeaves(ns, a.nodes, inner);
    }
  }

  /** The value a group token is made from is a parentless Attached token, or nothing. */
  lemma {:induction false} GroupPayloadRoots(s0: State, p: Payload, run: Handle, inner: Option<Handle>, closer: Handle)
    requires Wellformed(s0) && Roots(s0, [run] + Flank(inner) + [closer])
    requires p == if inner.Some? then One(Sub(inner.value)) else One(Nil)
    ensures RootItems(s0, PayloadItems(p))
  {
    if inner.Some? {
      assert ([run] + Flank(inner) + [closer])[1] == inner.value;
    }
  }

  /** The group token made over parentless Attached tokens is Attached, and only their parents changed. */
  lemma {:induction false} GroupAttached(s0: State, sN: State, s: State, t: Handle, p: Payload, run: Handle, inner: Option<Handle>, closer: Handle)
    requires Wellformed(s0) && Wellformed(sN) && Wellformed(s) && t == |s0.nodes|
    requires run < t && closer < t && (inner.Some? ==> inner.value < t)
    requires p == if inner.Some? then One(Sub(inner.value)) else One(Nil)
    requires Roots(s0, [run] + Flank(inner) + [closer])
    requires |sN.nodes| == t + 1 && sN.nodes[..t] == s0.nodes
    requires sN.nodes[t].left == [] && sN.nodes[t].right == []
    requires Attached(sN, t) && Rewired(s0.parents, sN.parents, Handles(PayloadItems(p)))
    requires s.nodes == sN.nodes[t := Node([run], sN.nodes[t].middle, [closer])]
    requires s.parents == SetFlanks(sN.parents, t, Some(run), Some(closer))
    ensures Rewired(s0.parents, s.parents, Elems([run] + Flank(inner) + [closer])) && Attached(s, t)
  {
    var g := [run] + Flank(inner) + [closer];
    var hs := Handles(PayloadItems(p));
    GroupFlanksKept(s0, sN, t, p, run, inner, closer);
    assert Flank(Some(run)) + Flank(Some(closer)) == [run, closer];
    FlanksAttached(sN, s, t, Some(run), Some(closer));
    RewiredMono(s0.parents, sN.parents, hs, Elems(g));
    RewiredFlanks(s0.parents, sN.parents, s.parents, Elems(g), t, Elems([run, closer]));
  }

  /** Making the group token from the inside leaves the run and the closer parentless and Attached. */
  lemma {:induction false} GroupFlanksKept(s0: State, sN: State, t: Handle, p: Payload, run: Handle, inner: Option<Handle>, closer: Handle)
    requires Wellformed(s0) && Wellformed(sN) && t == |s0.nodes|
    requires run < t && closer < t && (inner.Some? ==> inner.value < t)
    requires p == if inner.Some? then One(Sub(inner.value)) else One(Nil)
    requires Roots(s0, [run] + Flank(inner) + [closer])
    requires |sN.nodes| == t + 1 && sN.nodes[..t] == s0.nodes
    requires Rewired(s0.parents, sN.parents, Handles(PayloadItems(p)))
    ensures Roots(sN, [run, closer]) && Handles(PayloadItems(p)) <= Elems([run] + Flank(inner) + [closer])
  {
    var g := [run] + Flank(inner) + [closer];
    var hs := Handles(PayloadItems(p));
    assert g[0] == run && g[|g| - 1] == closer;
    assert inner.Some? ==> g[1] == inner.value;
    assert forall k :: k in hs ==> k < |s0.parents| && s0.parents[k].None?;
    GrownKept(s0, sN, run + 1);
    GrownKept(s0, sN, closer + 1);
    AttachedKept(s0, sN, run, hs);
    AttachedKept(s0, sN, closer, hs);
  }

  /** The inside of a fresh group token, before its flanks are added, flattens as the inside itself. */
  lemma {:induction false} FreshMiddleLeaves(ns: seq<Node>, ms: seq<Node>, inner: Option<Handle>)
    requires Ordered(ns) && Ordered(ms) && |ms| == |ns| + 1 && ms[..|ns|] == ns
    requires inner.Some? ==> inner.value < |ns|
    requires ms[|ns|].left == [] && ms[|ns|].right == []
    requires inner.None? ==> ms[|ns|].middle == []
    requires inner.Some? ==> Leaves(ms, |ns|) == Leaves(ns, inner.value)
    ensures ItemsCeiling(ms[|ns|].middle) <= |ns|
    ensures ItemsLeaves(ns, ms[|ns|].middle) == FlankLeaves(ns, inner)
  {
    var t := |ns|;
    var m := ms[t].middle;
    assert Below(ms[t], t);
    assert Leaves(ms, t) == Join(Join(HandlesLeaves(ms, []), ItemsLeaves(ms, m)), HandlesLeaves(ms, []));
    JoinUnit(ItemsLeaves(ms, m));
    assert ns[..t] == ms[..t];
    ItemsFrame(ns, ms, t, m);
  }

  /** A group token with its flanks in place flattens as its left flank, its inside and its closer. */
  lemma {:induction false} FinishedGroupLeaves(ns: seq<Node>, fs: seq<Node>, run: Handle, m: seq<Item>, closer: Handle)
    requires Ordered(ns) && Ordered(fs) && |ns| < |fs| && fs[..|ns|] == ns
    requires run < |ns| && closer < |ns| && ItemsCeiling(m) <= |ns|
    requires fs[|ns|] == Node([run], m, [closer])
    ensures Leaves(fs, |ns|) == Join(Join(Leaves(ns, run), ItemsLeaves(ns, m)), Leaves(ns, closer))
  {
    FlankedTokenLeaves(ns, fs, Some(run), Some(closer));
    ItemsFrame(ns, fs, |ns|, m);
  }

  /** The group token flattens as the run, the inside and the closer it was made from. */
  lemma {:induction false} GroupTokenLeaves(ns0: seq<Node>, ns1: seq<Node>, ns2: seq<Node>,
                                           lst: seq<Handle>, start: nat, first: nat, last: nat,
                                           run: Handle, inner: Option<Handle>)
    requires Ordered(ns0) && Ordered(ns1) && Ordered(ns2) && Extends(ns0, ns1) && Extends(ns1, ns2)
    requires Ceiling(lst) <= |ns0| && start <= first < last < |lst|
    requires Ceiling(lst[start..first + 1]) <= |ns0| && Ceiling(lst[first + 1..last]) <= |ns0| && lst[last] < |ns0|
    requires run < |ns1| && Leaves(ns1, run) == HandlesLeaves(ns0, lst[start..first + 1])
    requires inner.None? ==> lst[first + 1..last] == []
    requires inner.Some? ==>
      inner.value < |ns2| && Leaves(ns2, inner.value) == HandlesLeaves(ns1, lst[first + 1..last])
    ensures Join(Join(Leaves(ns2, run), FlankLeaves(ns2, inner)), Leaves(ns2, lst[last])) ==
      Join(Join(HandlesLeaves(ns0, lst[start..first + 1]), HandlesLeaves(ns0, lst[first + 1..last])),
           Leaves(ns0, lst[last]))
  {
    ExtendsTrans(ns0, ns1, ns2);
    assert ns0[..|ns0|] == ns0 && ns1[..|ns1|] == ns1;
    LeavesFrame(ns1, ns2, |ns1|, run);
    LeavesFrame(ns0, ns2, |ns0|, lst[last]);
    if inner.Some? {
      HandlesFrame(ns0, ns1, |ns0|, lst[first + 1..last]);
    }
  }

  /**
   * The token `t` standing for the run `xs`, made from the arena `s0` to
   * the arena `s1`: a run of one token is that token, with nothing
   * changed; a longer one is wrapped in a fresh token holding the run in its
   * middle, as `GlslToken(left)` builds it. Either way it
   * flattens as the run. Over distinct parentless Attached tokens it is
   * parentless and Attached, and only parents under the run changed.
   */
  ghost predicate RunMade(s0: State, s1: State, xs: seq<Handle>, t: Handle)
    requires Wellformed(s0) && Wellformed(s1) && |xs| >= 1 && Ceiling(xs) <= |s0.nodes|
  {
    Extends(s0.nodes, s1.nodes) && t < |s1.nodes| &&
    (|xs| == 1 ==> t == xs[0] && s1 == s0) &&
    (|xs| > 1 ==> t == |s0.nodes| && s1.nodes[t] == Node([], Subs(xs), [])) &&
    Leaves(s1.nodes, t) == HandlesLeaves(s0.nodes, xs) &&
    (Roots(s0, xs) ==> Rewired(s0.parents, s1.parents, Elems(xs)) && s1.parents[t].None? && Attached(s1, t))
  }

  /**
   * The run absorbed left of an opener: a single token is used as it is,
   * several are wrapped in a fresh token.
   */
  method AbsorbedToken(a: Arena, run: seq<Handle>) returns (t: Handle)
    requires a.Valid() && |run| >= 1 && Ceiling(run) <= |a.nodes|
    modifies a
    ensures a.Valid() && RunMade(old(a.St()), a.St(), run, t)
  {
    ghost var s0 := a.St();
    if 1 < |run| {
      SubsLeaves(a.nodes, run);
      if Roots(s0, run) {
        RootsSubs(s0, run);
      }
      var made := a.NewToken(Many(Subs(run)));
      t := made.value;
    } else {
      t := run[0];
      CeilingBound(run, 0);
      assert run == [t];
      HandlesLeavesSingleton(a.nodes, t);
      assert a.nodes[..|a.nodes|] == a.nodes;
      RewiredSame(s0.parents, a.parents, Elems(run));
    }
  }

  // ---------------------------------------------------------------------
  // token_tree_simplify and get_single_token

  /**
   * token_tree_simplify: one simplify step on the tree. It reports false
   * exactly when there was nothing to strip, and then nothing changed; a
   * true report means the tree shrank by at least two slot entries, so
   * repeating the step until it reports false ends.
   */
  method SimplifyTree(a: Arena, h: Handle) returns (r: Result<bool>)
    requires a.Valid() && h < |a.nodes|
    modifies a
    ensures a.Valid() && |a.nodes| == |old(a.nodes)|
    ensures r == Ok(false) <==> FindSite(old(a.St()), h) == Ok(None)
    ensures r == Ok(false) ==> a.St() == old(a.St())
    ensures r == Ok(true) ==> Size(a.nodes) + 2 <= Size(old(a.nodes))
    ensures r.Fail? && FindSite(old(a.St()), h).Ok? ==> r.error in {NoParent, ChildNotFound}
    ensures Attached(old(a.St()), h) ==> (r.Fail? <==> FindSite(old(a.St()), h).Fail?)
    ensures Attached(old(a.St()), h) && FindSite(old(a.St()), h).Ok? && FindSite(old(a.St()), h).value.Some? ==>
      var c := FindSite(old(a.St()), h).value.value;
      r == Ok(true) && c < |a.nodes| &&
      a.nodes == old(a.nodes)[c := Node([], old(a.nodes)[c].middle, [])] &&
      var before := Leaves(old(a.nodes), c);
      (before.None? ==> Leaves(a.nodes, c).None?) &&
      (before.Some? ==> |before.value| == 3 && Leaves(a.nodes, c) == Some(before.value[1..2]))
  {
    ghost var s := a.St();
    r := a.Simplify(h);
    if Attached(s, h) && FindSite(s, h).Ok? && FindSite(s, h).value.Some? {
      AttachedStrip(s, h);
    }
  }

  /** get_single_token: a token's single child; None for anything that is not a token. */
  function SingleToken(ns: seq<Node>, it: Item): (r: Result<Option<Single>>)
    requires ItemCeiling(it) <= |ns|
    ensures r == Ok(None) <==> !it.Sub?
    ensures it.Sub? ==> r.Fail? == SingleChild(ns, it.handle).Fail?
    ensures it.Sub? && r.Ok? ==> r.value == Some(SingleChild(ns, it.handle).value)
    ensures it.Sub? && r.Fail? ==> r.error == SingleChild(ns, it.handle).error
  {
    if it.Sub? then
      match SingleChild(ns, it.handle)
      case Ok(c) => Ok(Some(c))
      case Fail(e) => Fail(e)
    else Ok(None)
  }

  /** Seeing through a token to its single child or its middle list never changes what it flattens to. */
  lemma {:induction false} SingleTokenLeaves(ns: seq<Node>, h: Handle)
    requires Ordered(ns) && h < |ns|
    ensures SingleToken(ns, Sub(h)) == Ok(Some(Composite)) ==> ns[h].left != [] || ns[h].right != []
    ensures SingleToken(ns, Sub(h)).Ok? && SingleToken(ns, Sub(h)).value.value.Only? ==>
      ItemCeiling(SingleToken(ns, Sub(h)).value.value.item) <= h &&
      Leaves(ns, h) == ItemLeaves(ns, SingleToken(ns, Sub(h)).value.value.item)
    ensures SingleToken(ns, Sub(h)).Ok? && SingleToken(ns, Sub(h)).value.value.Several? ==>
      ItemsCeiling(SingleToken(ns, Sub(h)).value.value.items) <= h &&
      Leaves(ns, h) == ItemsLeaves(ns, SingleToken(ns, Sub(h)).value.value.items)
  {
    var r := SingleChild(ns, h);
    if r.Ok? && !r.value.Composite? {
      SingleChildSeesThrough(ns, h);
      if r.value.Only? {
        ItemsLeavesSingleton(ns, r.value.item);
        assert ns[h].middle == [r.value.item];
      }
    }
  }
}

=== FILE: token_rewrite.dfy ===
/**
 * What one call of GlslToken.simplify does, stated on values: the arena of
 * slots together with every token's parent reference.
 *
 * The only live rewrite strips a `(` ... `)` pair around a middle that is a
 * leaf (or a token flattening to a single leaf). The search visits the token
 * itself, then its left children, then its right children, then its
 * token-valued middle elements, and stops at the first place that applies.
 * The flanks are detached through their own parent references, exactly as
 * removeFromParent does.
 */
module GlslRewrite {
  import opened GlslLeaf
  import opened GlslTree

  /** All tokens: their slots and their parent references. */
  datatype State = State(nodes: seq<Node>, parents: seq<Option<Handle>>)

  /** A parent was created after its child and exists. */
  predicate ParentsBelow(ns: seq<Node>, ps: seq<Option<Handle>>)
  {
    |ps| == |ns| && forall x :: 0 <= x < |ps| && ps[x].Some? ==> x < ps[x].value < |ns|
  }

  predicate Wellformed(s: State)
  {
    Ordered(s.nodes) && ParentsBelow(s.nodes, s.parents)
  }

  /** removeFromParent: pop `x` from its parent's slots and clear its parent. */
  function Detach(s: State, x: Handle): (r: Result<State>)
    requires Wellformed(s) && x < |s.nodes|
    ensures s.parents[x].None? ==> r == Fail(NoParent)
    ensures s.parents[x].Some? ==>
      (r.Fail? <==> RemoveChildFrom(s.nodes[s.parents[x].value], x).None?)
    ensures s.parents[x].Some? && r.Fail? ==> r.error == ChildNotFound
    ensures r.Ok? ==> Wellformed(r.value) && |r.value.nodes| == |s.nodes|
    ensures r.Ok? ==>
      var p := s.parents[x].value;
      r.value.nodes == s.nodes[p := RemoveChildFrom(s.nodes[p], x).value]
    ensures r.Ok? ==> r.value.parents == s.parents[x := None]
    ensures r.Ok? ==> Size(r.value.nodes) + 1 == Size(s.nodes)
  {
    match s.parents[x]
    case None => Fail(NoParent)
    case Some(p) =>
      match RemoveChildFrom(s.nodes[p], x)
      case None => Fail(ChildNotFound)
      case Some(n) =>
        assert Below(s.nodes[p], p);
        RemoveChildFromBelow(s.nodes[p], x, p);
        OrderedUpdate(s.nodes, p, n);
        SizeUpdate(s.nodes, p, n);
        Ok(State(s.nodes[p := n], s.parents[x := None]))
  }

  /** Detaching a left child of `c` from `c` leaves the right slot of `c` alone. */
  lemma DetachKeepsRight(s: State, x: Handle, c: Handle)
    requires Wellformed(s) && x < |s.nodes| && c < |s.nodes| && Detach(s, x).Ok?
    requires x in s.nodes[c].left
    ensures Detach(s, x).value.nodes[c].right == s.nodes[c].right
  {
  }

  /** A flank slot holding one token that resolves to the leaf `l`. */
  predicate FlankIs(ns: seq<Node>, hs: seq<Handle>, l: Leaf)
  {
    |hs| == 1 && hs[0] < |ns| && LeafOf(SingleChild(ns, hs[0])) == Some(l)
  }

  /** A flank slot holding one token whose getSingleChild raises. */
  predicate FlankRaises(ns: seq<Node>, hs: seq<Handle>)
  {
    |hs| == 1 && hs[0] < |ns| && SingleChild(ns, hs[0]).Fail?
  }

  /** A middle slot simplify may unwrap: one non-token, or one token flattening to exactly one leaf. */
  ghost predicate OneLeafMiddle(ns: seq<Node>, its: seq<Item>)
    requires Ordered(ns)
  {
    |its| == 1 &&
    (its[0].Sub? ==>
       its[0].handle < |ns| && Leaves(ns, its[0].handle).Some? && |Leaves(ns, its[0].handle).value| == 1)
  }

  /**
   * The test simplify applies to one token: one `(` on the left, one `)` on
   * the right, and a single middle element that is not a token or flattens
   * to exactly one leaf. Both flanks are queried before they are compared.
   */
  ghost function StripTest(s: State, c: Handle): (r: Result<bool>)
    requires Wellformed(s) && c < |s.nodes|
    ensures var n := s.nodes[c];
      r == Ok(true) <==>
        FlankIs(s.nodes, n.left, Paren(true)) && FlankIs(s.nodes, n.right, Paren(false)) &&
        OneLeafMiddle(s.nodes, n.middle)
    ensures var n := s.nodes[c];
      r.Fail? <==>
        |n.left| == 1 && |n.right| == 1 &&
        (FlankRaises(s.nodes, n.left) || FlankRaises(s.nodes, n.right) ||
         (FlankIs(s.nodes, n.left, Paren(true)) && FlankIs(s.nodes, n.right, Paren(false)) &&
          |n.middle| == 1 && n.middle[0].Sub? && n.middle[0].handle < |s.nodes| &&
          Leaves(s.nodes, n.middle[0].handle).None?))
    ensures var n := s.nodes[c];
      r.Fail? ==>
        r.error == (if FlankRaises(s.nodes, n.left) then SingleChild(s.nodes, n.left[0]).error
                    else if FlankRaises(s.nodes, n.right) then SingleChild(s.nodes, n.right[0]).error
                    else EmptyElement)
    ensures r.Fail? ==> r.error in {NoContent, EmptyMiddle, EmptyElement}
  {
    var n := s.nodes[c];
    assert Below(n, c);
    if |n.left| == 1 && |n.right| == 1 then
      CeilingBound(n.left, 0);
      CeilingBound(n.right, 0);
      var l := SingleChild(s.nodes, n.left[0]);
      var r := SingleChild(s.nodes, n.right[0]);
      if l.Fail? then Fail(l.error)
      else if r.Fail? then Fail(r.error)
      else if LeafOf(l) == Some(Paren(true)) && LeafOf(r) == Some(Paren(false)) && |n.middle| == 1 then
        match n.middle[0]
        case Sub(m) =>
          ItemsCeilingBound(n.middle, 0);
          (match Leaves(s.nodes, m)
           case None => Fail(EmptyElement)
           case Some(ls) => Ok(|ls| == 1))
        case _ => Ok(true)
      else Ok(false)
    else Ok(false)
  }

  /**
   * The first token, in simplify's search order below `h`, where the test
   * holds: None when there is none, Fail when a test on the way raises.
   */
  ghost function FindSite(s: State, h: Handle): (r: Result<Option<Handle>>)
    requires Wellformed(s) && h < |s.nodes|
    ensures r == Ok(None) ==> StripTest(s, h) == Ok(false)
    ensures StripTest(s, h) == Ok(true) ==> r == Ok(Some(h))
    ensures r.Ok? && r.value.Some? ==> r.value.value <= h && StripTest(s, r.value.value) == Ok(true)
    decreases h + 1, 0
  {
    var n := s.nodes[h];
    assert Below(n, h);
    match StripTest(s, h)
    case Fail(e) => Fail(e)
    case Ok(true) => Ok(Some(h))
    case Ok(false) =>
      var l := FindInHandles(s, n.left);
      if l != Ok(None) then l
      else
        var r := FindInHandles(s, n.right);
        if r != Ok(None) then r
        else FindInItems(s, n.middle)
  }

  /** The search over a list of child tokens, in order. */
  ghost function FindInHandles(s: State, hs: seq<Handle>): (r: Result<Option<Handle>>)
    requires Wellformed(s) && Ceiling(hs) <= |s.nodes|
    ensures r.Ok? && r.value.Some? ==>
      r.value.value < Ceiling(hs) && StripTest(s, r.value.value) == Ok(true)
    decreases Ceiling(hs), 1, |hs|
  {
    if hs == [] then Ok(None)
    else
      var init := FindInHandles(s, hs[..|hs| - 1]);
      if init != Ok(None) then init else FindSite(s, hs[|hs| - 1])
  }

  /** The search over the token-valued elements of a middle slot, in order. */
  ghost function FindInItems(s: State, its: seq<Item>): (r: Result<Option<Handle>>)
    requires Wellformed(s) && ItemsCeiling(its) <= |s.nodes|
    ensures r.Ok? && r.value.Some? ==>
      r.value.value < ItemsCeiling(its) && StripTest(s, r.value.value) == Ok(true)
    decreases ItemsCeiling(its), 1, |its|
  {
    if its == [] then Ok(None)
    else
      var init := FindInItems(s, its[..|its| - 1]);
      if init != Ok(None) then init
      else if its[|its| - 1].Sub? then FindSite(s, its[|its| - 1].handle)
      else Ok(None)
  }

  /**
   * What a simplify pass over a subtree does, given the outcome `f` of the
   * search over it: a raising search raises and changes nothing, a search
   * that finds nothing reports false and changes nothing, and a found site
   * is stripped.
   */
  ghost predicate Searched(s: State, f: Result<Option<Handle>>, r: Result<bool>, s2: State)
    requires Wellformed(s)
  {
    match f
    case Fail(e) => r == Fail(e) && s2 == s
    case Ok(None) => r == Ok(false) && s2 == s
    case Ok(Some(c)) =>
      c < |s.nodes| && |s.nodes[c].left| == 1 && |s.nodes[c].right| == 1 &&
      (r, s2) == StripAt(s, c)
  }

  /** A search that already stopped in a prefix stops there for the whole list. */
  lemma {:induction false} FindInHandlesPrefix(s: State, hs: seq<Handle>, i: nat)
    requires Wellformed(s) && Ceiling(hs) <= |s.nodes| && i <= |hs|
    ensures Ceiling(hs[..i]) <= |s.nodes|
    ensures FindInHandles(s, hs[..i]) != Ok(None) ==> FindInHandles(s, hs) == FindInHandles(s, hs[..i])
    decreases |hs|
  {
    CeilingPrefix(hs, i);
    if i < |hs| {
      var init := hs[..|hs| - 1];
      assert init[..i] == hs[..i];
      FindInHandlesPrefix(s, init, i);
    } else {
      assert hs[..i] == hs;
    }
  }

  lemma {:induction false} FindInItemsPrefix(s: State, its: seq<Item>, i: nat)
    requires Wellformed(s) && ItemsCeiling(its) <= |s.nodes| && i <= |its|
    ensures ItemsCeiling(its[..i]) <= |s.nodes|
    ensures FindInItems(s, its[..i]) != Ok(None) ==> FindInItems(s, its) == FindInItems(s, its[..i])
    decreases |its|
  {
    ItemsCeilingPrefix(its, i);
    if i < |its| {
      var init := its[..|its| - 1];
      assert init[..i] == its[..i];
      FindInItemsPrefix(s, init, i);
    } else {
      assert its[..i] == its;
    }
  }

  /**
   * The strip at site `c`: detach the left flank, then the right flank,
   * each from its own parent, then empty both flanks of `c`. A failing
   * detach raises with what has been done so far left in place.
   */
  function StripAt(s: State, c: Handle): (r: (Result<bool>, State))
    requires Wellformed(s) && c < |s.nodes|
    requires |s.nodes[c].left| == 1 && |s.nodes[c].right| == 1
    ensures Wellformed(r.1) && |r.1.nodes| == |s.nodes|
    ensures r.0 == Ok(true) || (r.0.Fail? && r.0.error in {NoParent, ChildNotFound})
    ensures r.0.Ok? ==> Size(r.1.nodes) + 2 <= Size(s.nodes)
    ensures r.0.Ok? ==> r.1.nodes[c].left == [] && r.1.nodes[c].right == []
  {
    var n := s.nodes[c];
    assert Below(n, c);
    CeilingBound(n.left, 0);
    CeilingBound(n.right, 0);
    match Detach(s, n.left[0])
    case Fail(e) => (Fail(e), s)
    case Ok(s1) =>
      DetachKeepsRight(s, n.left[0], c);
      match Detach(s1, n.right[0])
      case Fail(e) => (Fail(e), s1)
      case Ok(s2) =>
        var m := s2.nodes[c];
        var m' := m.(left := [], right := []);
        assert Below(m, c);
        OrderedUpdate(s2.nodes, c, m');
        SizeUpdate(s2.nodes, c, m');
        (Ok(true), State(s2.nodes[c := m'], s2.parents))
  }

  /** A token whose only content is one leaf flattens to that leaf. */
  lemma LeafFlank(ns: seq<Node>, h: Handle, l: Leaf)
    requires Ordered(ns) && h < |ns| && LeafOf(SingleChild(ns, h)) == Some(l)
    ensures Leaves(ns, h) == Some([l])
  {
    LeafTokenLeaves(ns, h, l);
  }

  /**
   * Where the test holds, the token flattens to `(`, then its middle element,
   * then `)`; the middle element flattens to one leaf unless it is empty.
   */
  lemma StripTestLeaves(s: State, c: Handle)
    requires Wellformed(s) && c < |s.nodes| && StripTest(s, c) == Ok(true)
    ensures ItemCeiling(s.nodes[c].middle[0]) <= c
    ensures var m := ItemLeaves(s.nodes, s.nodes[c].middle[0]);
      Leaves(s.nodes, c) == Join(Join(Some([Paren(true)]), m), Some([Paren(false)])) &&
      (m.Some? ==> |m.value| == 1)
  {
    var ns := s.nodes;
    var n := ns[c];
    assert Below(n, c);
    ItemsCeilingBound(n.middle, 0);
    CeilingBound(n.left, 0);
    CeilingBound(n.right, 0);
    LeafFlank(ns, n.left[0], Paren(true));
    LeafFlank(ns, n.right[0], Paren(false));
    assert n.left == [n.left[0]] && n.right == [n.right[0]] && n.middle == [n.middle[0]];
    assert n.left[..0] == [] && n.right[..0] == [];
    JoinUnit(Some([Paren(true)]));
    JoinUnit(Some([Paren(false)]));
    ItemsLeavesSingleton(ns, n.middle[0]);
    assert Leaves(ns, c) == Join(Join(HandlesLeaves(ns, n.left), ItemsLeaves(ns, n.middle)), HandlesLeaves(ns, n.right));
    if n.middle[0].Atom? {
      assert ItemLeaves(ns, n.middle[0]) == Some([n.middle[0].leaf]);
    }
  }

  /**
   * When both flanks name `c` as their parent, the strip succeeds, leaves
   * `c` with its middle only, and `c` then flattens to its old leaves minus
   * the first and the last.
   */
  lemma StripAtSite(s: State, c: Handle)
    requires Wellformed(s) && c < |s.nodes| && StripTest(s, c) == Ok(true)
    requires s.parents[s.nodes[c].left[0]] == Some(c)
    requires s.parents[s.nodes[c].right[0]] == Some(c)
    ensures StripAt(s, c).0 == Ok(true)
    ensures StripAt(s, c).1.nodes == s.nodes[c := Node([], s.nodes[c].middle, [])]
    ensures var before := Leaves(s.nodes, c);
      var after := Leaves(StripAt(s, c).1.nodes, c);
      (before.None? ==> after.None?) &&
      (before.Some? ==> |before.value| == 3 && after == Some(before.value[1..2]))
  {
    StripAtState(s, c);
    StrippedLeaves(s, c);
  }

  /** Both detaches of a strip at a site whose flanks name it as parent succeed. */
  lemma StripAtState(s: State, c: Handle)
    requires Wellformed(s) && c < |s.nodes| && StripTest(s, c) == Ok(true)
    requires s.parents[s.nodes[c].left[0]] == Some(c)
    requires s.parents[s.nodes[c].right[0]] == Some(c)
    ensures StripAt(s, c).0 == Ok(true)
    ensures StripAt(s, c).1.nodes == s.nodes[c := Node([], s.nodes[c].middle, [])]
  {
    var ns := s.nodes;
    var n := ns[c];
    var l0, r0 := n.left[0], n.right[0];
    assert Below(n, c);
    CeilingBound(n.left, 0);
    CeilingBound(n.right, 0);
    assert LeafOf(SingleChild(ns, l0)) != LeafOf(SingleChild(ns, r0));
    assert n.left == [l0] && n.right == [r0];
    var s1 := Detach(s, l0).value;
    assert s1.nodes == ns[c := n.(left := [])];
    assert s1.parents[r0] == Some(c);
    var s2 := Detach(s1, r0).value;
    assert s2.nodes == ns[c := n.(left := [], right := [])];
  }

  /** A strip site with its flanks emptied flattens to its old leaves minus the first and the last. */
  lemma StrippedLeaves(s: State, c: Handle)
    requires Wellformed(s) && c < |s.nodes| && StripTest(s, c) == Ok(true)
    ensures var after := s.nodes[c := Node([], s.nodes[c].middle, [])];
      Ordered(after) &&
      var before := Leaves(s.nodes, c);
      (before.None? ==> Leaves(after, c).None?) &&
      (before.Some? ==> |before.value| == 3 && Leaves(after, c) == Some(before.value[1..2]))
  {
    var ns := s.nodes;
    var n := ns[c];
    var after := ns[c := Node([], n.middle, [])];
    assert Below(n, c);
    StripTestLeaves(s, c);
    ItemsCeilingBound(n.middle, 0);
    // The middle element is older than `c`, so it flattens as before.
    OrderedUpdate(ns, c, Node([], n.middle, []));
    assert after[..c] == ns[..c];
    if n.middle[0].Sub? {
      LeavesFrame(ns, after, c, n.middle[0].handle);
    }
    var m := ItemLeaves(ns, n.middle[0]);
    assert ItemLeaves(after, n.middle[0]) == m;
    ItemsLeavesSingleton(after, n.middle[0]);
    assert Leaves(after, c) == Join(Join(HandlesLeaves(after, []), ItemsLeaves(after, n.middle)), HandlesLeaves(after, []));
    JoinUnit(m);
    assert Leaves(after, c) == m;
    if m.Some? {
      assert Leaves(ns, c).value == [Paren(true)] + m.value + [Paren(false)];
    }
  }
}

=== FILE: token_scan.dfy ===
/**
 * The left-to-right scan of token_tree_build and the backward walk of
 * token_tree_split_paren, each stated declaratively and then computed by a
 * loop that is proved to agree with the statement.
 *
 * The scan looks at what every token of the list resolves to. Brackets and
 * parens keep two independent depth counters; the first closing delimiter
 * that brings its counter back to 0 ends the scan with a group, and one
 * that takes it below 0 raises. Without a group, the list is split at the
 * depth-0 operator of highest precedence, the leftmost one on ties.
 */
module GlslScan {
  import opened GlslLeaf
  import opened GlslTree

  /** What the scan decides for a list of tokens. */
  datatype Decision =
    | Group(first: nat, last: nat)  // splice lst[first..last] into one token
    | SplitAt(index: nat)           // split at the operator at `index`
    | Whole                         // no group and no operator: wrap the list

  predicate InArena(ns: seq<Node>, lst: seq<Handle>)
  {
    forall i :: 0 <= i < |lst| ==> lst[i] < |ns|
  }

  /** What token `i` of the list resolves to (getSingleChild). */
  function View(ns: seq<Node>, lst: seq<Handle>, i: nat): Result<Single>
    requires InArena(ns, lst) && i < |lst|
  {
    SingleChild(ns, lst[i])
  }

  /** The leaf token `i` resolves to, if it resolves to one. */
  function LeafAt(ns: seq<Node>, lst: seq<Handle>, i: nat): Option<Leaf>
    requires InArena(ns, lst) && i < |lst|
  {
    LeafOf(View(ns, lst, i))
  }

  /** The bracket counter before token `k` is looked at. */
  function BracketDepth(ns: seq<Node>, lst: seq<Handle>, k: nat): int
    requires InArena(ns, lst) && k <= |lst|
  {
    if k == 0 then 0
    else
      var d := BracketDepth(ns, lst, k - 1);
      match LeafAt(ns, lst, k - 1)
      case Some(Bracket(o)) => UpdateCount(o, d)
      case _ => d
  }

  /** The paren counter before token `k` is looked at. */
  function ParenDepth(ns: seq<Node>, lst: seq<Handle>, k: nat): int
    requires InArena(ns, lst) && k <= |lst|
  {
    if k == 0 then 0
    else
      var d := ParenDepth(ns, lst, k - 1);
      match LeafAt(ns, lst, k - 1)
      case Some(Paren(o)) => UpdateCount(o, d)
      case _ => d
  }

  /**
   * Token `i` ends the scan: it raises, it is a brace, or it is a bracket
   * or paren that takes its counter to 0 or below.
   */
  predicate Halts(ns: seq<Node>, lst: seq<Handle>, i: nat)
    requires InArena(ns, lst) && i < |lst|
  {
    View(ns, lst, i).Fail? ||
    match LeafAt(ns, lst, i)
    case Some(Brace(_)) => true
    case Some(Bracket(o)) => UpdateCount(o, BracketDepth(ns, lst, i)) <= 0
    case Some(Paren(o)) => UpdateCount(o, ParenDepth(ns, lst, i)) <= 0
    case _ => false
  }

  /** The first index below `k` where the scan ends, or `k` when there is none. */
  function FirstHalt(ns: seq<Node>, lst: seq<Handle>, k: nat): (r: nat)
    requires InArena(ns, lst) && k <= |lst|
    ensures r <= k
    ensures r < k ==> Halts(ns, lst, r)
  {
    if k == 0 then 0
    else
      var f := FirstHalt(ns, lst, k - 1);
      if f < k - 1 then f
      else if Halts(ns, lst, k - 1) then k - 1
      else k
  }

  /** No index before FirstHalt ends the scan. */
  lemma {:induction false} FirstHaltIsFirst(ns: seq<Node>, lst: seq<Handle>, k: nat)
    requires InArena(ns, lst) && k <= |lst|
    ensures forall j :: 0 <= j < FirstHalt(ns, lst, k) ==> !Halts(ns, lst, j)
  {
    if k > 0 {
      FirstHaltIsFirst(ns, lst, k - 1);
    }
  }

  /** The scan ends at the first index where it halts. */
  lemma FirstHaltAt(ns: seq<Node>, lst: seq<Handle>, i: nat)
    requires InArena(ns, lst) && i < |lst| && Halts(ns, lst, i)
    requires forall j :: 0 <= j < i ==> !Halts(ns, lst, j)
    ensures FirstHalt(ns, lst, |lst|) == i
  {
    FirstHaltIsFirst(ns, lst, |lst|);
  }

  /** Token `i` opens a bracket (`bracket`) or a paren (`!bracket`). */
  predicate Opens(ns: seq<Node>, lst: seq<Handle>, i: nat, bracket: bool)
    requires InArena(ns, lst) && i < |lst|
  {
    LeafAt(ns, lst, i) == if bracket then Some(Bracket(true)) else Some(Paren(true))
  }

  /** The first opener of the given kind below `k`; -1 when there is none. */
  function FirstOpener(ns: seq<Node>, lst: seq<Handle>, k: nat, bracket: bool): (r: int)
    requires InArena(ns, lst) && k <= |lst|
    ensures -1 <= r < k
    ensures r >= 0 ==> Opens(ns, lst, r, bracket)
  {
    if k == 0 then -1
    else
      var f := FirstOpener(ns, lst, k - 1, bracket);
      if f >= 0 then f
      else if Opens(ns, lst, k - 1, bracket) then k - 1
      else -1
  }

  /** No opener of the kind comes before FirstOpener (none at all below `k` when it is -1). */
  lemma {:induction false} FirstOpenerIsFirst(ns: seq<Node>, lst: seq<Handle>, k: nat, bracket: bool)
    requires InArena(ns, lst) && k <= |lst|
    ensures var r := FirstOpener(ns, lst, k, bracket);
      forall j :: 0 <= j < k && (r < 0 || j < r) ==> !Opens(ns, lst, j, bracket)
  {
    if k > 0 {
      FirstOpenerIsFirst(ns, lst, k - 1, bracket);
    }
  }

  /** Before the scan ends, a counter is 0 exactly while no opener of its kind was seen, and never negative. */
  lemma {:induction false} DepthFacts(ns: seq<Node>, lst: seq<Handle>, k: nat)
    requires InArena(ns, lst) && k <= |lst|
    requires forall j :: 0 <= j < k ==> !Halts(ns, lst, j)
    ensures BracketDepth(ns, lst, k) >= 0
    ensures FirstOpener(ns, lst, k, true) < 0 <==> BracketDepth(ns, lst, k) == 0
    ensures ParenDepth(ns, lst, k) >= 0
    ensures FirstOpener(ns, lst, k, false) < 0 <==> ParenDepth(ns, lst, k) == 0
  {
    if k > 0 {
      DepthFacts(ns, lst, k - 1);
      assert !Halts(ns, lst, k - 1);
    }
  }

  /** A depth-0 operator: the only operators the split considers. */
  predicate Candidate(ns: seq<Node>, lst: seq<Handle>, i: nat)
    requires InArena(ns, lst) && i < |lst|
  {
    var l := LeafAt(ns, lst, i);
    l.Some? && l.value.Operator? && BracketDepth(ns, lst, i) <= 0 && ParenDepth(ns, lst, i) <= 0
  }

  function OperatorAt(ns: seq<Node>, lst: seq<Handle>, i: nat): Leaf
    requires InArena(ns, lst) && i < |lst| && Candidate(ns, lst, i)
  {
    LeafAt(ns, lst, i).value
  }

  /**
   * The operator the split picks among the first `k` tokens: one of highest
   * precedence, the leftmost of those; -1 when there is no candidate.
   */
  function Best(ns: seq<Node>, lst: seq<Handle>, k: nat): (r: int)
    requires InArena(ns, lst) && k <= |lst|
    ensures -1 <= r < k
    ensures r >= 0 ==> Candidate(ns, lst, r)
  {
    if k == 0 then -1
    else
      var b := Best(ns, lst, k - 1);
      if Candidate(ns, lst, k - 1) &&
         (b < 0 || PrecedesStrictly(OperatorAt(ns, lst, b), OperatorAt(ns, lst, k - 1)))
      then k - 1
      else b
  }

  /**
   * The pick is an operator of highest precedence among the candidates and
   * the leftmost of those: every candidate before it is strictly lower.
   */
  lemma {:induction false} BestIsLeftmostMaximum(ns: seq<Node>, lst: seq<Handle>, k: nat)
    requires InArena(ns, lst) && k <= |lst|
    ensures var r := Best(ns, lst, k);
      r < 0 <==> forall j :: 0 <= j < k ==> !Candidate(ns, lst, j)
    ensures var r := Best(ns, lst, k);
      r >= 0 ==> forall j :: 0 <= j < k && Candidate(ns, lst, j) ==>
        !PrecedesStrictly(OperatorAt(ns, lst, r), OperatorAt(ns, lst, j))
    ensures var r := Best(ns, lst, k);
      r >= 0 ==> forall j :: 0 <= j < r && Candidate(ns, lst, j) ==>
        PrecedesStrictly(OperatorAt(ns, lst, j), OperatorAt(ns, lst, r))
  {
    if k > 0 {
      BestIsLeftmostMaximum(ns, lst, k - 1);
    }
  }

  /** The decision of the scan, from the first place it ends or, failing that, from the operators. */
  function Decide(ns: seq<Node>, lst: seq<Handle>): (r: Result<Decision>)
    requires InArena(ns, lst)
    ensures r.Ok? && r.value.Group? ==>
      var f, l := r.value.first, r.value.last;
      f < l < |lst| && FirstHalt(ns, lst, |lst|) == l &&
      ((Opens(ns, lst, f, true) && LeafAt(ns, lst, l) == Some(Bracket(false)) &&
        f == FirstOpener(ns, lst, l, true) && BracketDepth(ns, lst, l) == 1) ||
       (Opens(ns, lst, f, false) && LeafAt(ns, lst, l) == Some(Paren(false)) &&
        f == FirstOpener(ns, lst, l, false) && ParenDepth(ns, lst, l) == 1))
    ensures r == Fail(BracketInconsistency) ==>
      var l := FirstHalt(ns, lst, |lst|);
      l < |lst| && LeafAt(ns, lst, l) == Some(Bracket(false)) && BracketDepth(ns, lst, l) == 0
    ensures r == Fail(ParenInconsistency) ==>
      var l := FirstHalt(ns, lst, |lst|);
      l < |lst| && LeafAt(ns, lst, l) == Some(Paren(false)) && ParenDepth(ns, lst, l) == 0
    ensures r.Ok? && !r.value.Group? ==> FirstHalt(ns, lst, |lst|) == |lst|
    ensures r.Ok? && r.value.SplitAt? ==> r.value.index == Best(ns, lst, |lst|) >= 0
    ensures r == Ok(Whole) <==>
      FirstHalt(ns, lst, |lst|) == |lst| && forall j :: 0 <= j < |lst| ==> !Candidate(ns, lst, j)
  {
    FirstHaltIsFirst(ns, lst, |lst|);
    BestIsLeftmostMaximum(ns, lst, |lst|);
    var i := FirstHalt(ns, lst, |lst|);
    if i < |lst| then
      DepthFacts(ns, lst, i);
      Halted(ns, lst, i)
    else
      var b := Best(ns, lst, |lst|);
      if b >= 0 then Ok(SplitAt(b)) else Ok(Whole)
  }

  /** The decision when the scan ends at token `i`. */
  function Halted(ns: seq<Node>, lst: seq<Handle>, i: nat): Result<Decision>
    requires InArena(ns, lst) && i < |lst| && Halts(ns, lst, i)
  {
    var v := View(ns, lst, i);
    if v.Fail? then Fail(v.error)
    else
      match LeafAt(ns, lst, i).value
      case Bracket(_) =>
        var f := FirstOpener(ns, lst, i, true);
        if f < 0 then Fail(BracketInconsistency) else Ok(Group(f, i))
      case Paren(_) =>
        var f := FirstOpener(ns, lst, i, false);
        if f < 0 then Fail(ParenInconsistency) else Ok(Group(f, i))
      case _ => Fail(UnknownDelimiter)
  }

  /** A scan that ends at token `i`, and at no token before it, decides as Halted says. */
  lemma HaltDecides(ns: seq<Node>, lst: seq<Handle>, i: nat)
    requires InArena(ns, lst) && i < |lst| && Halts(ns, lst, i)
    requires forall j :: 0 <= j < i ==> !Halts(ns, lst, j)
    ensures Decide(ns, lst) == Halted(ns, lst, i)
  {
    FirstHaltAt(ns, lst, i);
  }

  /** How the counters, the first openers and the pick change with token `i`. */
  lemma ScanStep(ns: seq<Node>, lst: seq<Handle>, i: nat)
    requires InArena(ns, lst) && i < |lst|
    ensures var l := LeafAt(ns, lst, i);
      BracketDepth(ns, lst, i + 1) ==
        if l.Some? && l.value.Bracket? then UpdateCount(l.value.opening, BracketDepth(ns, lst, i))
        else BracketDepth(ns, lst, i)
    ensures var l := LeafAt(ns, lst, i);
      ParenDepth(ns, lst, i + 1) ==
        if l.Some? && l.value.Paren? then UpdateCount(l.value.opening, ParenDepth(ns, lst, i))
        else ParenDepth(ns, lst, i)
    ensures FirstOpener(ns, lst, i + 1, true) ==
      if FirstOpener(ns, lst, i, true) >= 0 then FirstOpener(ns, lst, i, true)
      else if Opens(ns, lst, i, true) then i else -1
    ensures FirstOpener(ns, lst, i + 1, false) ==
      if FirstOpener(ns, lst, i, false) >= 0 then FirstOpener(ns, lst, i, false)
      else if Opens(ns, lst, i, false) then i else -1
    ensures Best(ns, lst, i + 1) ==
      if Candidate(ns, lst, i) &&
         (Best(ns, lst, i) < 0 || PrecedesStrictly(OperatorAt(ns, lst, Best(ns, lst, i)), OperatorAt(ns, lst, i)))
      then i else Best(ns, lst, i)
  {
  }

  /** The bracket counter (`bracket`) or the paren counter before token `k`. */
  function Depth(ns: seq<Node>, lst: seq<Handle>, k: nat, bracket: bool): int
    requires InArena(ns, lst) && k <= |lst|
  {
    if bracket then BracketDepth(ns, lst, k) else ParenDepth(ns, lst, k)
  }

  /**
   * The bracket or paren case of the scan loop at token `i`: update the
   * counter, and either end the scan there or note the first opener.
   */
  method CountDelimiter(ns: seq<Node>, lst: seq<Handle>, i: nat, bracket: bool, count: int, first: int)
    returns (stop: Option<Result<Decision>>, count': int, first': int)
    requires InArena(ns, lst) && i < |lst| && View(ns, lst, i).Ok?
    requires forall j :: 0 <= j < i ==> !Halts(ns, lst, j)
    requires LeafAt(ns, lst, i).Some?
    requires if bracket then LeafAt(ns, lst, i).value.Bracket? else LeafAt(ns, lst, i).value.Paren?
    requires count == Depth(ns, lst, i, bracket) && first == FirstOpener(ns, lst, i, bracket)
    ensures stop.Some? <==> Halts(ns, lst, i)
    ensures stop.Some? ==> stop.value == Halted(ns, lst, i)
    ensures stop.None? ==> count' == Depth(ns, lst, i + 1, bracket) && first' == FirstOpener(ns, lst, i + 1, bracket)
  {
    DepthFacts(ns, lst, i);
    ScanStep(ns, lst, i);
    var o := LeafAt(ns, lst, i).value.opening;
    count' := UpdateCount(o, count);
    first' := first;
    if count' <= 0 {
      if first < 0 {
        stop := Some(Fail(if bracket then BracketInconsistency else ParenInconsistency));
      } else {
        stop := Some(Ok(Group(first, i)));
      }
      return;
    }
    stop := None;
    if count' == 1 && first < 0 {
      first' := i;
    }
  }

  /** The operator case of the scan loop at token `i`: a depth-0 operator of higher precedence becomes the pick. */
  method PickOperator(ns: seq<Node>, lst: seq<Handle>, i: nat, leaf: Option<Leaf>, bracketCount: int, parenCount: int,
                      highest: Option<Leaf>, highestIndex: int)
    returns (highest': Option<Leaf>, highestIndex': int)
    requires InArena(ns, lst) && i < |lst| && leaf == LeafAt(ns, lst, i)
    requires leaf.Some? && leaf.value.Operator? ==>
      bracketCount == BracketDepth(ns, lst, i) && parenCount == ParenDepth(ns, lst, i)
    requires highestIndex == Best(ns, lst, i)
    requires highestIndex >= 0 ==> highest == Some(OperatorAt(ns, lst, highestIndex))
    requires highestIndex < 0 ==> highest == None
    ensures highestIndex' == Best(ns, lst, i + 1)
    ensures highestIndex' >= 0 ==> highest' == Some(OperatorAt(ns, lst, highestIndex'))
    ensures highestIndex' < 0 ==> highest' == None
  {
    ScanStep(ns, lst, i);
    highest', highestIndex' := highest, highestIndex;
    if leaf.Some? && leaf.value.Operator? && bracketCount <= 0 && parenCount <= 0 {
      if highest.None? || PrecedesStrictly(highest.value, leaf.value) {
        highest' := leaf;
        highestIndex' := i;
      }
    }
  }

  /** The scan loop of token_tree_build. */
  method Scan(ns: seq<Node>, lst: seq<Handle>) returns (r: Result<Decision>)
    requires InArena(ns, lst)
    ensures r == Decide(ns, lst)
  {
    var bracketCount, parenCount := 0, 0;
    var firstBracket, firstParen := -1, -1;
    var highest: Option<Leaf> := None;
    var highestIndex := -1;
    for i := 0 to |lst|
      invariant forall j :: 0 <= j < i ==> !Halts(ns, lst, j)
      invariant bracketCount == BracketDepth(ns, lst, i) && parenCount == ParenDepth(ns, lst, i)
      invariant firstBracket == FirstOpener(ns, lst, i, true)
      invariant firstParen == FirstOpener(ns, lst, i, false)
      invariant highestIndex == Best(ns, lst, i)
      invariant highestIndex >= 0 ==> highest == Some(OperatorAt(ns, lst, highestIndex))
      invariant highestIndex < 0 ==> highest == None
    {
      DepthFacts(ns, lst, i);
      ScanStep(ns, lst, i);
      var vv := SingleChild(ns, lst[i]);
      if vv.Fail? {
        HaltDecides(ns, lst, i);
        return Fail(vv.error);
      }
      var leaf := LeafOf(vv);
      assert leaf == LeafAt(ns, lst, i);
      if leaf.Some? && (leaf.value.Bracket? || leaf.value.Paren? || leaf.value.Brace?) {
        var stop: Option<Result<Decision>>;
        if leaf.value.Bracket? {
          stop, bracketCount, firstBracket := CountDelimiter(ns, lst, i, true, bracketCount, firstBracket);
        } else if leaf.value.Paren? {
          stop, parenCount, firstParen := CountDelimiter(ns, lst, i, false, parenCount, firstParen);
        } else {
          stop := Some(Fail(UnknownDelimiter));
        }
        if stop.Some? {
          HaltDecides(ns, lst, i);
          return stop.value;
        }
      }
      highest, highestIndex := PickOperator(ns, lst, i, leaf, bracketCount, parenCount, highest, highestIndex);
    }
    if highest.Some? {
      return Ok(SplitAt(highestIndex));
    }
    r := Ok(Whole);
  }

  /** Token `j` resolves to a field access, a name or a type keyword. */
  predicate Absorbable(ns: seq<Node>, lst: seq<Handle>, j: nat)
    requires InArena(ns, lst) && j < |lst|
  {
    var l := LeafAt(ns, lst, j);
    l.Some? && IsAbsorbable(l.value)
  }

  /**
   * The backward walk of token_tree_split_paren: the start of the longest
   * run of absorbable tokens that ends right before the opener.
   */
  method AbsorbStart(ns: seq<Node>, lst: seq<Handle>, first: nat) returns (r: Result<nat>)
    requires InArena(ns, lst) && first < |lst|
    ensures r.Ok? ==> r.value <= first
    ensures r.Ok? ==> forall j :: r.value <= j < first ==> Absorbable(ns, lst, j)
    ensures r.Ok? && r.value > 0 ==>
      View(ns, lst, r.value - 1).Ok? && !Absorbable(ns, lst, r.value - 1)
    ensures r.Fail? ==>
      exists j :: 0 <= j < first && View(ns, lst, j) == Fail(r.error) &&
        (forall k :: j < k < first ==> Absorbable(ns, lst, k))
    ensures (forall j :: 0 <= j < first ==> View(ns, lst, j).Ok?) ==> r.Ok?
  {
    var iterLeft := first - 1;
    while iterLeft >= 0
      invariant -1 <= iterLeft < first
      invariant forall j :: iterLeft < j < first ==> Absorbable(ns, lst, j)
    {
      var prospect := SingleChild(ns, lst[iterLeft]);
      if prospect.Fail? {
        assert View(ns, lst, iterLeft) == Fail(prospect.error);
        return Fail(prospect.error);
      }
      var leaf := LeafOf(prospect);
      if leaf.Some? && IsAbsorbable(leaf.value) {
        iterLeft := iterLeft - 1;
      } else {
        break;
      }
    }
    r := Ok(iterLeft + 1);
  }

  /** Every token before the closer of the group the scan decides on can be viewed. */
  lemma GroupViews(ns: seq<Node>, lst: seq<Handle>, f: nat, l: nat)
    requires InArena(ns, lst) && Decide(ns, lst) == Ok(Group(f, l))
    ensures forall j :: 0 <= j < l ==> View(ns, lst, j).Ok?
  {
    FirstHaltIsFirst(ns, lst, |lst|);
    forall j | 0 <= j < l ensures View(ns, lst, j).Ok? {
      assert !Halts(ns, lst, j);
    }
  }
}

=== FILE: token_trace.dfy ===
/**
 * What token_tree_build does, stated over values: a build call is recorded
 * as the arena it started from, the arena it left, its result and a trace
 * of the calls it made in turn, and `BuiltAs` says, branch by branch of the
 * scan's decision, what each recorded call must have done.
 */
module GlslTrace {
  import opened GlslLeaf
  import opened GlslTree
  import opened GlslRewrite
  import opened GlslScan
  import opened GlslAttach

  /** The arena `ms` grew from `ns` without touching any existing token. */
  predicate Extends(ns: seq<Node>, ms: seq<Node>)
  {
    |ns| <= |ms| && ms[..|ns|] == ns
  }

  lemma {:induction false} ExtendsUpdate(ns: seq<Node>, ms: seq<Node>, t: nat, n: Node)
    requires Extends(ns, ms) && |ns| <= t < |ms|
    ensures Extends(ns, ms[t := n])
  {
    assert ms[t := n][..|ns|] == ms[..|ns|];
  }

  lemma {:induction false} ExtendsTrans(ns: seq<Node>, ms: seq<Node>, ks: seq<Node>)
    requires Extends(ns, ms) && Extends(ms, ks)
    ensures Extends(ns, ks)
  {
    assert ks[..|ns|] == ks[..|ms|][..|ns|];
  }

  // ---------------------------------------------------------------------
  // Regrouping a list of tokens does not change its leaves

  lemma {:induction false} SliceCeiling(hs: seq<Handle>, i: nat, j: nat)
    requires i <= j <= |hs|
    ensures Ceiling(hs[i..j]) <= Ceiling(hs)
  {
    forall k | 0 <= k < |hs[i..j]| ensures hs[i..j][k] < Ceiling(hs) {
      CeilingBound(hs, i + k);
    }
    CeilingAtMost(hs[i..j], Ceiling(hs));
  }

  lemma {:induction false} HandlesLeavesSingleton(ns: seq<Node>, h: Handle)
    requires Ordered(ns) && h < |ns|
    ensures Ceiling([h]) == h + 1
    ensures HandlesLeaves(ns, [h]) == Leaves(ns, h)
  {
    assert [h][..0] == [];
    JoinUnit(Leaves(ns, h));
  }

  lemma {:induction false} HandlesLeaves3(ns: seq<Node>, x: seq<Handle>, y: seq<Handle>, z: seq<Handle>)
    requires Ordered(ns) && Ceiling(x) <= |ns| && Ceiling(y) <= |ns| && Ceiling(z) <= |ns|
    ensures Ceiling(x + y + z) <= |ns|
    ensures HandlesLeaves(ns, x + y + z) ==
      Join(Join(HandlesLeaves(ns, x), HandlesLeaves(ns, y)), HandlesLeaves(ns, z))
  {
    HandlesLeavesAppend(ns, x, y);
    HandlesLeavesAppend(ns, x + y, z);
  }

  /** A list of tokens cut in three flattens as the three pieces in order. */
  lemma {:induction false} HandlesLeavesSlices(ns: seq<Node>, lst: seq<Handle>, i: nat, j: nat)
    requires Ordered(ns) && Ceiling(lst) <= |ns| && i <= j <= |lst|
    ensures Ceiling(lst[..i]) <= |ns| && Ceiling(lst[i..j]) <= |ns| && Ceiling(lst[j..]) <= |ns|
    ensures HandlesLeaves(ns, lst) ==
      Join(Join(HandlesLeaves(ns, lst[..i]), HandlesLeaves(ns, lst[i..j])), HandlesLeaves(ns, lst[j..]))
  {
    var x, y, z := lst[..i], lst[i..j], lst[j..];
    SliceCeiling(lst, 0, i);
    assert x == lst[0..i];
    SliceCeiling(lst, i, j);
    SliceCeiling(lst, j, |lst|);
    assert z == lst[j..|lst|];
    ThreeParts(lst, i, j);
    HandlesLeaves3(ns, x, y, z);
  }

  lemma {:induction false} ThreeParts<T>(s: seq<T>, i: nat, j: nat)
    requires i <= j <= |s|
    ensures s == s[..i] + s[i..j] + s[j..]
  {
  }

  lemma {:induction false} MidSlices<T>(s: seq<T>, start: nat, first: nat, last: nat)
    requires start <= first < last < |s|
    ensures s[start..last + 1][..first + 1 - start] == s[start..first + 1]
    ensures s[start..last + 1][first + 1 - start..last - start] == s[first + 1..last]
    ensures s[start..last + 1][last - start..] == [s[last]]
  {
    var mid := s[start..last + 1];
    assert forall i :: 0 <= i < |mid| ==> mid[i] == s[start + i];
  }

  /** Splitting at the operator: the leaves left of it, its own, then those right of it. */
  lemma {:induction false} SplitLeaves(ns: seq<Node>, lst: seq<Handle>, k: nat)
    requires Ordered(ns) && Ceiling(lst) <= |ns| && k < |lst|
    ensures Ceiling(lst[..k]) <= |ns| && Ceiling(lst[k + 1..]) <= |ns| && lst[k] < |ns|
    ensures HandlesLeaves(ns, lst) ==
      Join(Join(HandlesLeaves(ns, lst[..k]), Leaves(ns, lst[k])), HandlesLeaves(ns, lst[k + 1..]))
  {
    HandlesLeavesSlices(ns, lst, k, k + 1);
    CeilingBound(lst, k);
    assert lst[k..k + 1] == [lst[k]];
    HandlesLeavesSingleton(ns, lst[k]);
  }

  /**
   * Splitting around a group: the leaves before the absorbed run, then the
   * run, the inside and the closer, then the leaves after the closer.
   */
  lemma {:induction false} RegroupLeaves(ns: seq<Node>, lst: seq<Handle>, start: nat, first: nat, last: nat)
    requires Ordered(ns) && Ceiling(lst) <= |ns| && start <= first < last < |lst|
    ensures Ceiling(lst[..start]) <= |ns| && Ceiling(lst[start..first + 1]) <= |ns|
    ensures Ceiling(lst[first + 1..last]) <= |ns| && lst[last] < |ns| && Ceiling(lst[last + 1..]) <= |ns|
    ensures HandlesLeaves(ns, lst) ==
      Join(Join(HandlesLeaves(ns, lst[..start]),
                Join(Join(HandlesLeaves(ns, lst[start..first + 1]), HandlesLeaves(ns, lst[first + 1..last])),
                     Leaves(ns, lst[last]))),
           HandlesLeaves(ns, lst[last + 1..]))
  {
    HandlesLeavesSlices(ns, lst, start, last + 1);
    MidLeaves(ns, lst, start, first, last);
  }

  /** The group from the run start to the closer flattens as the run, the inside and the closer. */
  lemma {:induction false} MidLeaves(ns: seq<Node>, lst: seq<Handle>, start: nat, first: nat, last: nat)
    requires Ordered(ns) && Ceiling(lst) <= |ns| && start <= first < last < |lst|
    ensures Ceiling(lst[start..first + 1]) <= |ns| && Ceiling(lst[first + 1..last]) <= |ns| && lst[last] < |ns|
    ensures Ceiling(lst[start..last + 1]) <= |ns|
    ensures HandlesLeaves(ns, lst[start..last + 1]) ==
      Join(Join(HandlesLeaves(ns, lst[start..first + 1]), HandlesLeaves(ns, lst[first + 1..last])),
           Leaves(ns, lst[last]))
  {
    var mid := lst[start..last + 1];
    SliceCeiling(lst, start, last + 1);
    MidSlices(lst, start, first, last);
    HandlesLeavesSlices(ns, mid, first + 1 - start, last - start);
    CeilingBound(lst, last);
    HandlesLeavesSingleton(ns, lst[last]);
  }

  // ---------------------------------------------------------------------
  // token_tree_build and token_tree_split_paren

  // ---------------------------------------------------------------------
  // The shape of what token_tree_build returns

  lemma {:induction false} InArenaOf(ns: seq<Node>, lst: seq<Handle>)
    requires Ceiling(lst) <= |ns|
    ensures InArena(ns, lst)
  {
    forall i | 0 <= i < |lst| ensures lst[i] < |ns| {
      CeilingBound(lst, i);
    }
  }

  /**
   * The token of the operator branch for `lst` split at `k`: the operator
   * alone in the middle, the tree of `lst[..k]` on the left and the tree of
   * `lst[k + 1..]` on the right, each flank empty exactly when its side is.
   */
  ghost predicate OperatorShape(ns0: seq<Node>, ns: seq<Node>, lst: seq<Handle>, k: nat, op: Leaf, t: Handle)
    requires Ordered(ns0) && Ordered(ns) && Ceiling(lst) <= |ns0| && k < |lst|
  {
    SplitLeaves(ns0, lst, k);
    t < |ns| && ns[t].middle == [Atom(op)] &&
    (ns[t].left == [] <==> k == 0) &&
    (ns[t].right == [] <==> k + 1 == |lst|) &&
    (k > 0 ==>
       |ns[t].left| == 1 && ns[t].left[0] < |ns| &&
       Leaves(ns, ns[t].left[0]) == HandlesLeaves(ns0, lst[..k])) &&
    (k + 1 < |lst| ==>
       |ns[t].right| == 1 && ns[t].right[0] < |ns| &&
       Leaves(ns, ns[t].right[0]) == HandlesLeaves(ns0, lst[k + 1..]))
  }

  /** The backward walk stopped at `start`: the tokens from `start` up to the opener are all absorbed, and the one before is not absorbable. */
  predicate AbsorbedRun(ns: seq<Node>, lst: seq<Handle>, start: nat, first: nat)
    requires InArena(ns, lst) && first < |lst|
  {
    start <= first &&
    (forall j :: start <= j < first ==> Absorbable(ns, lst, j)) &&
    (start > 0 ==> View(ns, lst, start - 1).Ok? && !Absorbable(ns, lst, start - 1))
  }

  /**
   * The group token of token_tree_split_paren for the run `lst[start..first + 1]`
   * (absorbed tokens and the opener), the inside `lst[first + 1..last]` built
   * by the call `I` and the closer `lst[last]`: on the left the opener itself
   * when nothing was absorbed, otherwise a token holding the whole run in its
   * middle; in the middle the descended tree of the inside, or nothing for an
   * empty pair; the closer itself on the right. The left flattens as the run
   * and the middle as the inside.
   */
  ghost predicate GroupShape(ns0: seq<Node>, ns: seq<Node>, lst: seq<Handle>, start: nat, first: nat, last: nat,
                             g: Handle, I: Option<Call>)
    requires Ordered(ns0) && Ordered(ns) && Ceiling(lst) <= |ns0| && start <= first < last < |lst|
  {
    MidLeaves(ns0, lst, start, first, last);
    g < |ns| && ns[g].right == [lst[last]] &&
    |ns[g].left| == 1 && ns[g].left[0] < |ns| &&
    (start == first ==> ns[g].left == [lst[first]]) &&
    (start < first ==> ns[ns[g].left[0]] == Node([], Subs(lst[start..first + 1]), [])) &&
    Leaves(ns, ns[g].left[0]) == HandlesLeaves(ns0, lst[start..first + 1]) &&
    Made(I) && ns[g].middle == GroupMiddle(I) &&
    ItemsCeiling(ns[g].middle) <= |ns| &&
    ItemsLeaves(ns, ns[g].middle) == HandlesLeaves(ns0, lst[first + 1..last])
  }

  /** What `GlslToken(middle)` puts in the middle slot for the inside's tree `inner`: that tree descended, or nothing. */
  ghost function InnerMiddle(ns: seq<Node>, inner: Option<Handle>): seq<Item>
    requires Ordered(ns) && (inner.Some? ==> inner.value < |ns|)
  {
    if inner.Some? && Descended(ns, One(Sub(inner.value))).Ok? then
      PayloadItems(Descended(ns, One(Sub(inner.value))).value)
    else []
  }

  /** The middle slot of the group token made from the build `I` of the inside. */
  ghost function GroupMiddle(I: Option<Call>): seq<Item>
    requires Made(I)
  {
    if I.Some? then InnerMiddle(I.value.to, Some(I.value.res.value)) else []
  }

  /** A group token keeps its shape while the arena grows. */
  lemma {:induction false} GroupShapeStable(ns0: seq<Node>, ns: seq<Node>, ms: seq<Node>, lst: seq<Handle>,
                         start: nat, first: nat, last: nat, g: Handle, I: Option<Call>)
    requires Ordered(ns0) && Ordered(ns) && Ordered(ms) && Extends(ns, ms)
    requires Ceiling(lst) <= |ns0| && start <= first < last < |lst|
    requires GroupShape(ns0, ns, lst, start, first, last, g, I)
    ensures GroupShape(ns0, ms, lst, start, first, last, g, I)
  {
    assert ms[..|ns|] == ns;
    assert ms[g] == ns[g] && ms[ns[g].left[0]] == ns[ns[g].left[0]];
    LeavesFrame(ns, ms, |ns|, ns[g].left[0]);
    ItemsFrame(ns, ms, |ns|, ns[g].middle);
  }

  /**
   * One call of token_tree_build on a non-empty list of tokens: the arena,
   * with its parents, it started from once every element was a token, the
   * arena it left, what it returned, and the calls it made in turn.
   */
  datatype Call = Call(from: State, to: seq<Node>, res: Result<Handle>, how: Trace)

  /** The calls one call of token_tree_build made, by the decision of its scan. */
  datatype Trace =
    | Direct                                          // a scan error, or the list wrapped whole
    | Split(left: Option<Call>, right: Option<Call>)  // the side builds of the operator, where made
    | Grouped(start: nat, g: Handle, inner: Option<Call>, rest: Option<Call>)
      // the start of the absorbed run, the group token, the build of the
      // inside and the build of the list around the group token, where made

  /** The call ran on a well-formed arena and grew it; its tree is new. */
  ghost predicate Called(c: Call)
  {
    Wellformed(c.from) && Ordered(c.to) && Extends(c.from.nodes, c.to) &&
    (c.res.Ok? ==> |c.from.nodes| <= c.res.value < |c.to|)
  }

  /** Where the call was made, it ran on an arena grown from `ns0` and left one that `ns` grew from. */
  ghost predicate Within(ns0: seq<Node>, c: Option<Call>, ns: seq<Node>)
  {
    c.None? || (Called(c.value) && Extends(ns0, c.value.from.nodes) && Extends(c.value.to, ns))
  }

  /** The call, where it was made, returned a tree. */
  predicate Succeeded(c: Option<Call>)
  {
    c.Some? ==> c.value.res.Ok?
  }

  /** What the call adds to a slot: its tree, or nothing. */
  function Tree(c: Option<Call>): seq<Handle>
  {
    if c.Some? && c.value.res.Ok? then [c.value.res.value] else []
  }

  /** `GlslToken(middle)` can be made from the build of a group's inside: it was empty, or its tree descends. */
  ghost predicate Made(c: Option<Call>)
  {
    c.None? ||
    (c.value.res.Ok? && Ordered(c.value.to) && c.value.res.value < |c.value.to| &&
     Descended(c.value.to, One(Sub(c.value.res.value))).Ok?)
  }

  /** Where the call was made, it is the build of `xs`, as its trace records it. */
  ghost predicate SideBuilt(c: Option<Call>, xs: seq<Handle>)
    decreases c, 2
  {
    c.None? ||
    (Called(c.value) && Ceiling(xs) <= |c.value.from.nodes| &&
     BuiltAs(c.value.from, c.value.to, xs, c.value.res, c.value.how))
  }

  /** A list with neither a group nor an operator is wrapped whole, as the constructor descends it. */
  ghost predicate WholeBuilt(ns0: seq<Node>, ns: seq<Node>, lst: seq<Handle>, r: Result<Handle>)
    requires Ordered(ns0) && Ordered(ns) && Ceiling(lst) <= |ns0|
  {
    SubsLeaves(ns0, lst);
    var p := Descended(ns0, Many(Subs(lst)));
    (r.Fail? <==> p.Fail?) &&
    (r.Fail? ==> r.error == p.error) &&
    (r.Ok? ==> r.value < |ns| && ns[r.value] == Node([], PayloadItems(p.value), []))
  }

  /**
   * The operator branch for `lst` split at `k`: the side left of the
   * operator is built, then, if that succeeded, the side right of it; the
   * first failure is the result, then a missing left side for an operator
   * that cannot be a prefix. Over distinct parentless Attached tokens
   * nothing else fails. The token holds the operator with the side trees
   * as its flanks.
   */
  ghost predicate SplitBuilt(s0: State, ns: seq<Node>, lst: seq<Handle>, k: nat, op: Leaf, r: Result<Handle>, tr: Trace)
    requires Wellformed(s0) && Ordered(ns) && Ceiling(lst) <= |s0.nodes| && k < |lst| && tr.Split?
    decreases tr, 1
  {
    (r.Fail? && SplitSteps(s0, ns, lst, k, op, r, tr)) ||
    (r.Ok? && SplitSteps(s0, ns, lst, k, op, r, tr) && SplitToken(s0.nodes, ns, lst, k, op, r.value, tr))
  }

  /** The calls of the operator branch and the result they decide. */
  ghost predicate SplitSteps(s0: State, ns: seq<Node>, lst: seq<Handle>, k: nat, op: Leaf, r: Result<Handle>, tr: Trace)
    requires Wellformed(s0) && Ordered(ns) && Ceiling(lst) <= |s0.nodes| && k < |lst| && tr.Split?
    decreases tr, 0
  {
    var ns0, L, R := s0.nodes, tr.left, tr.right;
    (L.Some? <==> k > 0) &&
    (R.Some? <==> k + 1 < |lst| && Succeeded(L)) &&
    Within(ns0, L, ns) && Within(ns0, R, ns) && SideBuilt(L, lst[..k]) && SideBuilt(R, lst[k + 1..]) &&
    (!Succeeded(L) ==> r == Fail(L.value.res.error)) &&
    (Succeeded(L) && !Succeeded(R) ==> r == Fail(R.value.res.error)) &&
    (Succeeded(L) && Succeeded(R) && k == 0 && !IsPrefixOperator(op) ==> r == Fail(MissingOperand)) &&
    (Roots(s0, lst) ==>
       (L.Some? ==> Roots(L.value.from, lst[..k])) &&
       (R.Some? ==> Roots(R.value.from, lst[k + 1..])) &&
       (Succeeded(L) && Succeeded(R) && (k > 0 || IsPrefixOperator(op)) ==> r.Ok?))
  }

  /** The operator token `t`: the operator with the side trees as its flanks. */
  ghost predicate SplitToken(ns0: seq<Node>, ns: seq<Node>, lst: seq<Handle>, k: nat, op: Leaf, t: Handle, tr: Trace)
    requires Ordered(ns0) && Ordered(ns) && Ceiling(lst) <= |ns0| && k < |lst| && tr.Split?
  {
    SplitLeaves(ns0, lst, k);
    t < |ns| && ns[t] == Node(Tree(tr.left), [Atom(op)], Tree(tr.right)) &&
    OperatorShape(ns0, ns, lst, k, op, t)
  }

  /**
   * The group branch for the group `lst[f..l + 1]`: the run left of the
   * opener is absorbed, the inside is built, `GlslToken` is made of its tree
   * with the run and the closer as flanks, and the list with the group token
   * in place of the run, the group and the closer is built again; its
   * result is the result. The first failure is the result. Over distinct
   * parentless Attached tokens, only a failed build or a failed descent of
   * the inside's tree stops it.
   */
  ghost predicate GroupBuilt(s0: State, ns: seq<Node>, lst: seq<Handle>, f: nat, l: nat, r: Result<Handle>, tr: Trace)
    requires Wellformed(s0) && Ordered(ns) && Ceiling(lst) <= |s0.nodes| && InArena(s0.nodes, lst)
    requires f < l < |lst| && tr.Grouped?
    decreases tr, 1
  {
    (r.Fail? && GroupSteps(s0, ns, lst, f, l, r, tr)) ||
    (r.Ok? && GroupSteps(s0, ns, lst, f, l, r, tr) && GroupShape(s0.nodes, ns, lst, tr.start, f, l, tr.g, tr.inner))
  }

  /** The calls of the group branch and the result they decide. */
  ghost predicate GroupSteps(s0: State, ns: seq<Node>, lst: seq<Handle>, f: nat, l: nat, r: Result<Handle>, tr: Trace)
    requires Wellformed(s0) && Ordered(ns) && Ceiling(lst) <= |s0.nodes| && InArena(s0.nodes, lst)
    requires f < l < |lst| && tr.Grouped?
    decreases tr, 0
  {
    var ns0, st, g, I, R := s0.nodes, tr.start, tr.g, tr.inner, tr.rest;
    AbsorbedRun(ns0, lst, st, f) &&
    (I.Some? <==> f + 1 < l) &&
    Within(ns0, I, ns) && SideBuilt(I, lst[f + 1..l]) &&
    (!Succeeded(I) ==> r == Fail(I.value.res.error)) &&
    (Succeeded(I) && !Made(I) ==> r == Fail(Descended(I.value.to, One(Sub(I.value.res.value))).error)) &&
    Within(ns0, R, ns) && SideBuilt(R, lst[..st] + [g] + lst[l + 1..]) &&
    (R.Some? ==> Made(I) && r == R.value.res) &&
    (R.None? ==> r.Fail?) &&
    (Roots(s0, lst) ==>
       (I.Some? ==> Roots(I.value.from, lst[f + 1..l])) &&
       (R.Some? <==> Made(I)) &&
       (R.Some? ==> Roots(R.value.from, lst[..st] + [g] + lst[l + 1..])))
  }

  /**
   * What token_tree_build does with a non-empty list of tokens, by the
   * decision of its scan: the scan's error, the list wrapped whole, the
   * operator branch or the group branch, each with the calls it made.
   */
  ghost predicate BuiltAs(s0: State, ns: seq<Node>, lst: seq<Handle>, r: Result<Handle>, tr: Trace)
    requires Wellformed(s0) && Ordered(ns) && Ceiling(lst) <= |s0.nodes|
    decreases tr, 2
  {
    InArenaOf(s0.nodes, lst);
    match Decide(s0.nodes, lst)
    case Fail(e) => r == Fail(e)
    case Ok(Whole) => WholeBuilt(s0.nodes, ns, lst, r)
    case Ok(SplitAt(k)) => tr.Split? && SplitBuilt(s0, ns, lst, k, OperatorAt(s0.nodes, lst, k), r, tr)
    case Ok(Group(f, l)) => tr.Grouped? && GroupBuilt(s0, ns, lst, f, l, r, tr)
  }

  /**
   * What building the tokens `xs` does, from the arena `s0` to the arena
   * `s1`: no tokens make no call, build nothing and leave every parent;
   * otherwise the call is made, as `SideMade` says.
   */
  ghost predicate SideCall(s0: State, s1: State, xs: seq<Handle>, r: Result<Option<Handle>>, c: Option<Call>)
    requires Wellformed(s0) && Wellformed(s1) && Ceiling(xs) <= |s0.nodes|
  {
    (xs == [] && c.None? && r == Ok(None) && Extends(s0.nodes, s1.nodes) && Rewired(s0.parents, s1.parents, {})) ||
    (xs != [] && c.Some? && SideMade(s0, s1, xs, r, c.value))
  }

  /**
   * The build `c` of the tokens `xs`, from the arena `s0` to the arena
   * `s1`: it fails exactly when the call fails, with its error; otherwise
   * its tree is a fresh parentless token flattening as `xs`. Over distinct
   * parentless Attached tokens the tree is Attached and only parents under
   * `xs` changed.
   */
  ghost predicate SideMade(s0: State, s1: State, xs: seq<Handle>, r: Result<Option<Handle>>, c: Call)
    requires Wellformed(s0) && Wellformed(s1) && Ceiling(xs) <= |s0.nodes|
  {
    Extends(s0.nodes, s1.nodes) && Within(s0.nodes, Some(c), s1.nodes) && c.to == s1.nodes &&
    SideBuilt(Some(c), xs) &&
    (r.Fail? <==> c.res.Fail?) &&
    (r.Fail? ==> r.error == c.res.error) &&
    (r.Ok? ==>
       r.value == Some(c.res.value) && |s0.nodes| <= c.res.value < |s1.nodes| && s1.parents[c.res.value] == None &&
       Leaves(s1.nodes, c.res.value) == HandlesLeaves(s0.nodes, xs)) &&
    (Roots(s0, xs) ==> Roots(c.from, xs)) &&
    (r.Ok? && Roots(s0, xs) ==> Rewired(s0.parents, s1.parents, Elems(xs)) && Attached(s1, c.res.value))
  }

  /** The flank slot holding the token, if there is one. */
  function Flank(o: Option<Handle>): seq<Handle>
  {
    if o.Some? then [o.value] else []
  }

  /** What a flank flattens to: nothing when there is no token. */
  ghost function FlankLeaves(ns: seq<Node>, o: Option<Handle>): Option<seq<Leaf>>
    requires Ordered(ns) && (o.Some? ==> o.value < |ns|)
  {
    if o.Some? then Leaves(ns, o.value) else Some([])
  }

  /**
   * What making the operator token does, from the arena `s0` to the arena
   * `s`: a missing left side fails for an operator that cannot be a prefix;
   * a made token is fresh, parentless, holds the operator with the sides as
   * its flanks and flattens as left side, operator, right side. Only parents
   * under the sides change. Over distinct parentless Attached sides the
   * token is Attached and nothing else fails.
   */
  ghost predicate OperatorCall(s0: State, s: State, left: Option<Handle>, op: Leaf, right: Option<Handle>, r: Result<Handle>)
    requires Wellformed(s0) && Wellformed(s)
    requires (left.Some? ==> left.value < |s0.nodes|) && (right.Some? ==> right.value < |s0.nodes|)
  {
    Extends(s0.nodes, s.nodes) &&
    (left.None? && !IsPrefixOperator(op) ==> r == Fail(MissingOperand)) &&
    (r.Ok? ==> r.value == |s0.nodes| && r.value < |s.nodes| && s.parents[r.value] == None) &&
    (r.Ok? ==> s.nodes[r.value] == Node(Flank(left), [Atom(op)], Flank(right))) &&
    (r.Ok? ==>
       Leaves(s.nodes, r.value) == Join(Join(FlankLeaves(s0.nodes, left), Some([op])), FlankLeaves(s0.nodes, right))) &&
    Rewired(s0.parents, s.parents, Elems(Flank(left) + Flank(right))) &&
    (r.Ok? && Roots(s0, Flank(left) + Flank(right)) ==> Attached(s, r.value)) &&
    (Roots(s0, Flank(left) + Flank(right)) ==> (r.Fail? <==> left.None? && !IsPrefixOperator(op)))
  }

  /**
   * What making the group token of token_tree_split_paren does, from the
   * arena `s0` to the arena `s`: the run `lst[start..first + 1]` is
   * absorbed and the inside is built, as `InsideBuilt` says; then either it
   * stopped, as `GroupStopped` says, or the token was made, as `GroupMade`
   * says.
   */
  ghost predicate GroupCall(s0: State, s: State, lst: seq<Handle>, start: nat, first: nat, last: nat,
                            r: Result<Handle>, I: Option<Call>)
    requires Wellformed(s0) && Wellformed(s) && Ceiling(lst) <= |s0.nodes| && start <= first < last < |lst|
  {
    (r.Fail? && InsideBuilt(s0, s, lst, start, first, last, I) && GroupStopped(s0, lst, start, first, last, r.error, I)) ||
    (r.Ok? && InsideBuilt(s0, s, lst, start, first, last, I) && GroupMade(s0, s, lst, start, first, last, r.value, I))
  }

  /**
   * The inside `lst[first + 1..last]` of the group, where it is not empty,
   * is built by the call `I`, within the arenas `s0` and `s`; over distinct
   * parentless Attached tokens it is built over such tokens.
   */
  ghost predicate InsideBuilt(s0: State, s: State, lst: seq<Handle>, start: nat, first: nat, last: nat, I: Option<Call>)
    requires Wellformed(s0) && Wellformed(s) && Ceiling(lst) <= |s0.nodes| && start <= first < last < |lst|
  {
    Extends(s0.nodes, s.nodes) &&
    (I.Some? <==> first + 1 < last) &&
    Within(s0.nodes, I, s.nodes) && SideBuilt(I, lst[first + 1..last]) &&
    (Roots(s0, lst[start..last + 1]) && I.Some? ==> Roots(I.value.from, lst[first + 1..last]))
  }

  /**
   * Making the group token stopped with the error `e`: the first failure,
   * of the build of the inside or of the descent of its tree. Over
   * distinct parentless Attached tokens nothing else stops it.
   */
  ghost predicate GroupStopped(s0: State, lst: seq<Handle>, start: nat, first: nat, last: nat, e: Error, I: Option<Call>)
    requires Wellformed(s0) && start <= first < last < |lst| && (I.Some? ==> Called(I.value))
  {
    (!Succeeded(I) ==> e == I.value.res.error) &&
    (Succeeded(I) && !Made(I) ==> e == Descended(I.value.to, One(Sub(I.value.res.value))).error) &&
    (Roots(s0, lst[start..last + 1]) ==> !Made(I))
  }

  /**
   * The group token `g`, made from the arena `s0` to the arena `s` of the
   * tree of the inside built by `I`: fresh, parentless, of the group's
   * shape, flattening as run, inside and closer. Over distinct parentless
   * Attached tokens it is Attached and only parents under the run, the
   * group and the closer changed.
   */
  ghost predicate GroupMade(s0: State, s: State, lst: seq<Handle>, start: nat, first: nat, last: nat,
                            g: Handle, I: Option<Call>)
    requires Wellformed(s0) && Wellformed(s) && Ceiling(lst) <= |s0.nodes| && start <= first < last < |lst|
  {
    MidLeaves(s0.nodes, lst, start, first, last);
    Made(I) && |s0.nodes| <= g < |s.nodes| && s.parents[g] == None &&
    Leaves(s.nodes, g) ==
      Join(Join(HandlesLeaves(s0.nodes, lst[start..first + 1]), HandlesLeaves(s0.nodes, lst[first + 1..last])),
           Leaves(s0.nodes, lst[last])) &&
    GroupShape(s0.nodes, s.nodes, lst, start, first, last, g, I) &&
    (Roots(s0, lst[start..last + 1]) ==>
       Rewired(s0.parents, s.parents, Elems(lst[start..last + 1])) && Attached(s, g))
  }
}

=== FILE: token_tree.dfy ===
/**
 * The token tree as values: the slots of a GlslToken, the "see-through"
 * query, the leaf sequence a token flattens to, the collapsing of
 * degenerate wrappers and the removal of one child.
 *
 * Tokens live in an arena and are addressed by handles. A token only ever
 * refers to tokens created before it, so every handle a node mentions is
 * smaller than the node's own handle (`Ordered`); this is what makes the
 * recursive definitions below well founded.
 */
module GlslTree {
  import opened GlslLeaf

  datatype Option<T> = None | Some(value: T)

  /** The conditions under which the source raises. */
  datatype Error =
    | InvalidChild          // a non-token added to the left or right slot
    | ParentConflict        // a second, different parent assigned
    | ChildNotFound         // removeChild of a token that no slot holds
    | NoParent              // removeFromParent of a token without parent
    | NoContent             // getSingleChild of a token with empty slots
    | EmptyMiddle           // empty middle with only one flank
    | NonToken              // a non-token inside a list being descended
    | BracketInconsistency  // a closing bracket at depth 0
    | ParenInconsistency    // a closing paren at depth 0
    | UnknownDelimiter      // a paren-class leaf that is neither ( ) nor [ ]
    | MissingOperand        // no left operand for a non-prefix operator
    | EmptyElement          // an empty middle element met while flattening

  datatype Result<T> = Ok(value: T) | Fail(error: Error)

  type Handle = nat

  /** A middle element: a leaf, a token, or an empty (falsy) value. */
  datatype Item = Atom(leaf: Leaf) | Sub(handle: Handle) | Nil

  /** The three slots of a token. */
  datatype Node = Node(left: seq<Handle>, middle: seq<Item>, right: seq<Handle>)

  /** What getSingleChild returns: the token itself, one middle element, or the middle list. */
  datatype Single = Composite | Only(item: Item) | Several(items: seq<Item>)

  /** What the constructor and token_descend receive: one value or a list. */
  datatype Payload = One(item: Item) | Many(items: seq<Item>)

  function Max(a: nat, b: nat): nat { if a < b then b else a }

  /** One more than the largest handle in `hs`; 0 when there is none. */
  function Ceiling(hs: seq<Handle>): nat
  {
    if hs == [] then 0 else Max(Ceiling(hs[..|hs| - 1]), hs[|hs| - 1] + 1)
  }

  function ItemCeiling(it: Item): nat
  {
    if it.Sub? then it.handle + 1 else 0
  }

  /** One more than the largest token handle among `its`; 0 when there is none. */
  function ItemsCeiling(its: seq<Item>): nat
  {
    if its == [] then 0 else Max(ItemsCeiling(its[..|its| - 1]), ItemCeiling(its[|its| - 1]))
  }

  function PayloadItems(p: Payload): seq<Item>
  {
    match p
    case One(it) => [it]
    case Many(its) => its
  }

  /** The payloads the constructor's `if token:` skips. */
  predicate Falsy(p: Payload)
  {
    p == One(Nil) || p == Many([])
  }

  /** Every handle the node mentions is below `h`. */
  predicate Below(n: Node, h: nat)
  {
    Ceiling(n.left) <= h && ItemsCeiling(n.middle) <= h && Ceiling(n.right) <= h
  }

  predicate Ordered(ns: seq<Node>)
  {
    forall h :: 0 <= h < |ns| ==> Below(ns[h], h)
  }

  /** getSingleChild: see through a token that has no flanks. */
  function SingleChild(ns: seq<Node>, h: Handle): (r: Result<Single>)
    requires h < |ns|
    ensures var n := ns[h];
      r == Ok(Composite) <==>
        |n.left| + |n.right| > 0 && (n.middle != [] || (n.left != [] && n.right != []))
    ensures var n := ns[h];
      r == Fail(EmptyMiddle) <==> n.middle == [] && ((n.left == []) != (n.right == []))
    ensures var n := ns[h];
      r == Fail(NoContent) <==> n.left == [] && n.middle == [] && n.right == []
    ensures var n := ns[h];
      r.Ok? && r.value.Only? <==> n.left == [] && n.right == [] && |n.middle| == 1
    ensures var n := ns[h];
      r.Ok? && r.value.Only? ==> r.value.item == n.middle[0]
    ensures var n := ns[h];
      r.Ok? && r.value.Several? <==> n.left == [] && n.right == [] && |n.middle| > 1
    ensures r.Ok? && r.value.Several? ==> r.value.items == ns[h].middle
  {
    var n := ns[h];
    if 0 < |n.left| + |n.right| then
      if n.middle == [] && (n.left == [] || n.right == []) then Fail(EmptyMiddle)
      else Ok(Composite)
    else if n.middle != [] then
      if |n.middle| <= 1 then Ok(Only(n.middle[0])) else Ok(Several(n.middle))
    else Fail(NoContent)
  }

  /** The single leaf a token resolves to, if it resolves to one. */
  function LeafOf(r: Result<Single>): Option<Leaf>
  {
    if r.Ok? && r.value.Only? && r.value.item.Atom? then Some(r.value.item.leaf) else None
  }

  function Join(a: Option<seq<Leaf>>, b: Option<seq<Leaf>>): Option<seq<Leaf>>
  {
    if a.Some? && b.Some? then Some(a.value + b.value) else None
  }

  /** The leaves `h` flattens to, left slot then middle then right; None for an empty element. */
  ghost function Leaves(ns: seq<Node>, h: Handle): Option<seq<Leaf>>
    requires Ordered(ns) && h < |ns|
    decreases h + 1, 0
  {
    var n := ns[h];
    Join(Join(HandlesLeaves(ns, n.left), ItemsLeaves(ns, n.middle)), HandlesLeaves(ns, n.right))
  }

  ghost function HandlesLeaves(ns: seq<Node>, hs: seq<Handle>): Option<seq<Leaf>>
    requires Ordered(ns) && Ceiling(hs) <= |ns|
    decreases Ceiling(hs), 1, |hs|
  {
    if hs == [] then Some([])
    else Join(HandlesLeaves(ns, hs[..|hs| - 1]), Leaves(ns, hs[|hs| - 1]))
  }

  /** The leaves of one middle element. */
  ghost function ItemLeaves(ns: seq<Node>, it: Item): Option<seq<Leaf>>
    requires Ordered(ns) && ItemCeiling(it) <= |ns|
    decreases ItemCeiling(it), 1
  {
    match it
    case Atom(l) => Some([l])
    case Sub(c) => Leaves(ns, c)
    case Nil => None
  }

  ghost function ItemsLeaves(ns: seq<Node>, its: seq<Item>): Option<seq<Leaf>>
    requires Ordered(ns) && ItemsCeiling(its) <= |ns|
    decreases ItemsCeiling(its), 2, |its|
  {
    if its == [] then Some([])
    else Join(ItemsLeaves(ns, its[..|its| - 1]), ItemLeaves(ns, its[|its| - 1]))
  }

  function Subs(hs: seq<Handle>): (its: seq<Item>)
    ensures |its| == |hs|
    ensures forall i :: 0 <= i < |hs| ==> its[i] == Sub(hs[i])
  {
    seq(|hs|, i requires 0 <= i < |hs| => Sub(hs[i]))
  }

  lemma JoinAssoc(x: Option<seq<Leaf>>, y: Option<seq<Leaf>>, z: Option<seq<Leaf>>)
    ensures Join(Join(x, y), z) == Join(x, Join(y, z))
  {
    if x.Some? && y.Some? && z.Some? {
      assert x.value + y.value + z.value == x.value + (y.value + z.value);
    }
  }

  lemma {:induction false} CeilingAppend(a: seq<Handle>, b: seq<Handle>)
    ensures Ceiling(a + b) == Max(Ceiling(a), Ceiling(b))
    decreases |b|
  {
    if b == [] {
      assert a + b == a;
    } else {
      var b' := b[..|b| - 1];
      assert (a + b)[..|a + b| - 1] == a + b';
      CeilingAppend(a, b');
    }
  }

  lemma {:induction false} ItemsCeilingAppend(a: seq<Item>, b: seq<Item>)
    ensures ItemsCeiling(a + b) == Max(ItemsCeiling(a), ItemsCeiling(b))
    decreases |b|
  {
    if b == [] {
      assert a + b == a;
    } else {
      var b' := b[..|b| - 1];
      assert (a + b)[..|a + b| - 1] == a + b';
      ItemsCeilingAppend(a, b');
    }
  }

  /** Every handle of `hs` is below its ceiling. */
  lemma {:induction false} CeilingBound(hs: seq<Handle>, i: nat)
    requires i < |hs|
    ensures hs[i] < Ceiling(hs)
    decreases |hs|
  {
    if i < |hs| - 1 {
      CeilingBound(hs[..|hs| - 1], i);
    }
  }

  lemma ItemsCeilingBounds(its: seq<Item>)
    ensures forall i :: 0 <= i < |its| ==> ItemCeiling(its[i]) <= ItemsCeiling(its)
  {
    forall i | 0 <= i < |its| {
      ItemsCeilingBound(its, i);
    }
  }

  lemma {:induction false} ItemsCeilingBound(its: seq<Item>, i: nat)
    requires i < |its|
    ensures ItemCeiling(its[i]) <= ItemsCeiling(its)
    decreases |its|
  {
    if i < |its| - 1 {
      ItemsCeilingBound(its[..|its| - 1], i);
    }
  }

  /** Flattening a concatenation of sibling tokens concatenates their leaves. */
  lemma {:induction false} HandlesLeavesAppend(ns: seq<Node>, a: seq<Handle>, b: seq<Handle>)
    requires Ordered(ns) && Ceiling(a) <= |ns| && Ceiling(b) <= |ns|
    ensures Ceiling(a + b) <= |ns|
    ensures HandlesLeaves(ns, a + b) == Join(HandlesLeaves(ns, a), HandlesLeaves(ns, b))
    decreases |b|
  {
    CeilingAppend(a, b);
    if b == [] {
      assert a + b == a;
      var x := HandlesLeaves(ns, a);
      if x.Some? { assert x.value + [] == x.value; }
    } else {
      var b' := b[..|b| - 1];
      var last := b[|b| - 1];
      assert b == b' + [last];
      CeilingAppend(b', [last]);
      CeilingAppend(a, b');
      assert (a + b)[..|a + b| - 1] == a + b';
      assert (a + b)[|a + b| - 1] == last;
      HandlesLeavesAppend(ns, a, b');
      calc {
        HandlesLeaves(ns, a + b);
        Join(HandlesLeaves(ns, a + b'), Leaves(ns, last));
        Join(Join(HandlesLeaves(ns, a), HandlesLeaves(ns, b')), Leaves(ns, last));
        { JoinAssoc(HandlesLeaves(ns, a), HandlesLeaves(ns, b'), Leaves(ns, last)); }
        Join(HandlesLeaves(ns, a), Join(HandlesLeaves(ns, b'), Leaves(ns, last)));
        Join(HandlesLeaves(ns, a), HandlesLeaves(ns, b));
      }
    }
  }

  lemma {:induction false} ItemsLeavesAppend(ns: seq<Node>, a: seq<Item>, b: seq<Item>)
    requires Ordered(ns) && ItemsCeiling(a) <= |ns| && ItemsCeiling(b) <= |ns|
    ensures ItemsCeiling(a + b) <= |ns|
    ensures ItemsLeaves(ns, a + b) == Join(ItemsLeaves(ns, a), ItemsLeaves(ns, b))
    decreases |b|
  {
    ItemsCeilingAppend(a, b);
    if b == [] {
      assert a + b == a;
      var x := ItemsLeaves(ns, a);
      if x.Some? { assert x.value + [] == x.value; }
    } else {
      var b' := b[..|b| - 1];
      var last := b[|b| - 1];
      assert b == b' + [last];
      ItemsCeilingAppend(b', [last]);
      ItemsCeilingAppend(a, b');
      assert (a + b)[..|a + b| - 1] == a + b';
      assert (a + b)[|a + b| - 1] == last;
      ItemsLeavesAppend(ns, a, b');
      calc {
        ItemsLeaves(ns, a + b);
        Join(ItemsLeaves(ns, a + b'), ItemLeaves(ns, last));
        Join(Join(ItemsLeaves(ns, a), ItemsLeaves(ns, b')), ItemLeaves(ns, last));
        { JoinAssoc(ItemsLeaves(ns, a), ItemsLeaves(ns, b'), ItemLeaves(ns, last)); }
        Join(ItemsLeaves(ns, a), Join(ItemsLeaves(ns, b'), ItemLeaves(ns, last)));
        Join(ItemsLeaves(ns, a), ItemsLeaves(ns, b));
      }
    }
  }

  /** A list of tokens flattens the same as a middle slot holding those tokens. */
  lemma {:induction false} SubsLeaves(ns: seq<Node>, hs: seq<Handle>)
    requires Ordered(ns) && Ceiling(hs) <= |ns|
    ensures ItemsCeiling(Subs(hs)) == Ceiling(hs)
    ensures ItemsLeaves(ns, Subs(hs)) == HandlesLeaves(ns, hs)
    decreases |hs|
  {
    if hs != [] {
      var init := hs[..|hs| - 1];
      assert Subs(hs)[..|hs| - 1] == Subs(init);
      SubsLeaves(ns, init);
    }
  }

  /** The leaves of a token only depend on the tokens created up to it. */
  lemma {:induction false} LeavesFrame(ns: seq<Node>, ms: seq<Node>, k: nat, h: Handle)
    requires Ordered(ns) && Ordered(ms) && k <= |ns| && k <= |ms| && ns[..k] == ms[..k]
    requires h < k
    ensures Leaves(ns, h) == Leaves(ms, h)
    decreases h + 1, 0
  {
    assert ns[h] == ns[..k][h] == ms[..k][h] == ms[h];
    assert Below(ns[h], h);
    HandlesFrame(ns, ms, k, ns[h].left);
    ItemsFrame(ns, ms, k, ns[h].middle);
    HandlesFrame(ns, ms, k, ns[h].right);
  }

  lemma {:induction false} HandlesFrame(ns: seq<Node>, ms: seq<Node>, k: nat, hs: seq<Handle>)
    requires Ordered(ns) && Ordered(ms) && k <= |ns| && k <= |ms| && ns[..k] == ms[..k]
    requires Ceiling(hs) <= k
    ensures HandlesLeaves(ns, hs) == HandlesLeaves(ms, hs)
    decreases Ceiling(hs), 1, |hs|
  {
    if hs != [] {
      HandlesFrame(ns, ms, k, hs[..|hs| - 1]);
      LeavesFrame(ns, ms, k, hs[|hs| - 1]);
    }
  }

  lemma {:induction false} ItemsFrame(ns: seq<Node>, ms: seq<Node>, k: nat, its: seq<Item>)
    requires Ordered(ns) && Ordered(ms) && k <= |ns| && k <= |ms| && ns[..k] == ms[..k]
    requires ItemsCeiling(its) <= k
    ensures ItemsLeaves(ns, its) == ItemsLeaves(ms, its)
    decreases ItemsCeiling(its), 1, |its|
  {
    if its != [] {
      ItemsFrame(ns, ms, k, its[..|its| - 1]);
      if its[|its| - 1].Sub? {
        LeavesFrame(ns, ms, k, its[|its| - 1].handle);
      }
    }
  }

  lemma JoinUnit(x: Option<seq<Leaf>>)
    ensures Join(Some([]), x) == x && Join(x, Some([])) == x
  {
    if x.Some? {
      assert [] + x.value == x.value;
      assert x.value + [] == x.value;
    }
  }

  /** The leaves of a one-element middle are the leaves of that element. */
  lemma ItemsLeavesSingleton(ns: seq<Node>, it: Item)
    requires Ordered(ns) && ItemCeiling(it) <= |ns|
    ensures ItemsCeiling([it]) == ItemCeiling(it)
    ensures ItemsLeaves(ns, [it]) == ItemLeaves(ns, it)
  {
    assert [it][..0] == [];
    JoinUnit(ItemLeaves(ns, it));
  }

  /** Seeing through a token with no flanks does not change what it flattens to. */
  lemma SingleChildSeesThrough(ns: seq<Node>, h: Handle)
    requires Ordered(ns) && h < |ns|
    requires SingleChild(ns, h).Ok? && !SingleChild(ns, h).value.Composite?
    ensures ItemsCeiling(ns[h].middle) <= h
    ensures Leaves(ns, h) == ItemsLeaves(ns, ns[h].middle)
  {
    var n := ns[h];
    assert Below(n, h);
    assert Leaves(ns, h) == Join(Join(HandlesLeaves(ns, n.left), ItemsLeaves(ns, n.middle)), HandlesLeaves(ns, n.right));
    JoinUnit(ItemsLeaves(ns, n.middle));
  }

  /** A token that resolves to one leaf flattens to exactly that leaf. */
  lemma LeafTokenLeaves(ns: seq<Node>, h: Handle, l: Leaf)
    requires Ordered(ns) && h < |ns|
    requires SingleChild(ns, h) == Ok(Only(Atom(l)))
    ensures Leaves(ns, h) == Some([l])
  {
    var n := ns[h];
    assert Below(n, h);
    var m := n.middle;
    assert m[..|m| - 1] == [];
    assert ItemsCeiling(m[..|m| - 1]) == 0;
    assert ItemsLeaves(ns, m[..|m| - 1]) == Some([]);
    assert |m| == 1 && m[|m| - 1] == Atom(l);
    assert ItemsLeaves(ns, m) == Join(Some([]), Some([l]));
    assert HandlesLeaves(ns, n.left) == Some([]);
    assert HandlesLeaves(ns, n.right) == Some([]);
    assert Leaves(ns, h) == Join(Join(HandlesLeaves(ns, n.left), ItemsLeaves(ns, m)), HandlesLeaves(ns, n.right));
    var e: seq<Leaf> := [];
    assert e + [l] == [l];
    assert [l] + e == [l];
  }

  // ---------------------------------------------------------------------
  // token_descend

  function PayloadCeiling(p: Payload): nat
  {
    match p
    case One(it) => ItemCeiling(it)
    case Many(its) => ItemsCeiling(its)
  }

  /** What a payload flattens to once placed in a middle slot. */
  ghost function PayloadLeaves(ns: seq<Node>, p: Payload): Option<seq<Leaf>>
    requires Ordered(ns) && PayloadCeiling(p) <= |ns|
  {
    match p
    case One(it) => ItemLeaves(ns, it)
    case Many(its) => ItemsLeaves(ns, its)
  }

  predicate AllTokens(its: seq<Item>)
  {
    forall i :: 0 <= i < |its| ==> its[i].Sub?
  }

  /** A payload token_descend stops at: a non-token, a token with flanks, or a list that is not a singleton. */
  predicate Settled(ns: seq<Node>, p: Payload)
    requires PayloadCeiling(p) <= |ns|
  {
    match p
    case One(it) => it.Sub? ==> SingleChild(ns, it.handle) == Ok(Composite)
    case Many(its) => |its| != 1 && AllTokens(its)
  }

  /**
   * token_descend: follow single children down until a token with flanks,
   * a non-token or a list of several tokens is reached.
   */
  function Descended(ns: seq<Node>, p: Payload): (r: Result<Payload>)
    requires Ordered(ns) && PayloadCeiling(p) <= |ns|
    ensures r.Ok? ==> PayloadCeiling(r.value) <= PayloadCeiling(p) && Settled(ns, r.value)
    ensures p.Many? && !AllTokens(p.items) ==> r == Fail(NonToken)
    ensures p.One? && !p.item.Sub? ==> r == Ok(p)
    ensures p.Many? && AllTokens(p.items) && |p.items| != 1 ==> r == Ok(p)
    decreases PayloadCeiling(p), if p.One? then 0 else 1
  {
    match p
    case One(it) =>
      if !it.Sub? then Ok(p)
      else
        var h := it.handle;
        assert Below(ns[h], h);
        (match SingleChild(ns, h)
         case Fail(e) => Fail(e)
         case Ok(Composite) => Ok(p)
         case Ok(Only(c)) =>
           ItemsCeilingBound(ns[h].middle, 0);
           Descended(ns, One(c))
         case Ok(Several(its)) => Descended(ns, Many(its)))
    case Many(its) =>
      if !AllTokens(its) then Fail(NonToken)
      else if |its| == 1 then
        ItemsCeilingBound(its, 0);
        Descended(ns, One(its[0]))
      else Ok(p)
  }

  /** Descending never changes what the payload flattens to. */
  lemma {:induction false} DescendedLeaves(ns: seq<Node>, p: Payload)
    requires Ordered(ns) && PayloadCeiling(p) <= |ns|
    requires Descended(ns, p).Ok?
    ensures PayloadLeaves(ns, Descended(ns, p).value) == PayloadLeaves(ns, p)
    decreases PayloadCeiling(p), if p.One? then 0 else 1
  {
    match p
    case One(it) =>
      if it.Sub? {
        var h := it.handle;
        assert Below(ns[h], h);
        match SingleChild(ns, h) {
          case Ok(Composite) =>
          case Ok(Only(c)) =>
            ItemsCeilingBound(ns[h].middle, 0);
            SingleChildSeesThrough(ns, h);
            ItemsLeavesSingleton(ns, c);
            DescendedLeaves(ns, One(c));
          case Ok(Several(its)) =>
            SingleChildSeesThrough(ns, h);
            DescendedLeaves(ns, Many(its));
        }
      }
    case Many(its) =>
      if |its| == 1 {
        ItemsCeilingBound(its, 0);
        assert its == [its[0]];
        ItemsLeavesSingleton(ns, its[0]);
        DescendedLeaves(ns, One(its[0]));
      }
  }

  /** The tokens whose parent token_descend clears on a successful descent. */
  function Visited(ns: seq<Node>, p: Payload): (v: set<Handle>)
    requires Ordered(ns) && PayloadCeiling(p) <= |ns|
    ensures forall x :: x in v ==> x < PayloadCeiling(p)
    decreases PayloadCeiling(p), if p.One? then 0 else 1
  {
    match p
    case One(it) =>
      if !it.Sub? then {}
      else
        var h := it.handle;
        assert Below(ns[h], h);
        (match SingleChild(ns, h)
         case Ok(Only(c)) =>
           ItemsCeilingBound(ns[h].middle, 0);
           {h} + Visited(ns, One(c))
         case Ok(Several(its)) => {h} + Visited(ns, Many(its))
         case _ => {h})
    case Many(its) =>
      if |its| == 1 && its[0].Sub? then
        ItemsCeilingBound(its, 0);
        Visited(ns, One(its[0]))
      else
        ItemsCeilingBounds(its);
        set i | 0 <= i < |its| && its[i].Sub? :: its[i].handle
  }

  // ---------------------------------------------------------------------
  // removeChild

  /** Index of the first occurrence of `x` in `s`, or `|s|` when there is none. */
  function Find<T(==)>(s: seq<T>, x: T): (i: nat)
    ensures i <= |s|
    ensures i < |s| ==> s[i] == x
    ensures x !in s[..i]
  {
    if s == [] then 0
    else if s[0] == x then 0
    else
      var j := Find(s[1..], x);
      assert s[..j + 1] == [s[0]] + s[1..][..j];
      j + 1
  }

  /** `s` without its element at index `i`, as `list.pop(i)` leaves it. */
  function RemoveAt<T>(s: seq<T>, i: nat): (r: seq<T>)
    requires i < |s|
    ensures |r| == |s| - 1
    ensures forall k :: 0 <= k < i ==> r[k] == s[k]
    ensures forall k :: i <= k < |r| ==> r[k] == s[k + 1]
    ensures multiset(r) + multiset{s[i]} == multiset(s)
  {
    assert s == s[..i] + [s[i]] + s[i + 1..];
    s[..i] + s[i + 1..]
  }

  /** The slots of `n` once the first occurrence of child `x` is popped: left, then right, then middle. */
  function RemoveChildFrom(n: Node, x: Handle): (r: Option<Node>)
    ensures r.None? <==> x !in n.left && x !in n.right && Sub(x) !in n.middle
    ensures r.Some? && x in n.left ==>
      r.value == n.(left := RemoveAt(n.left, Find(n.left, x)))
    ensures r.Some? && x !in n.left && x in n.right ==>
      r.value == n.(right := RemoveAt(n.right, Find(n.right, x)))
    ensures r.Some? && x !in n.left && x !in n.right ==>
      r.value == n.(middle := RemoveAt(n.middle, Find(n.middle, Sub(x))))
    ensures r.Some? ==> NodeSize(r.value) + 1 == NodeSize(n)
  {
    if x in n.left then Some(n.(left := RemoveAt(n.left, Find(n.left, x))))
    else if x in n.right then Some(n.(right := RemoveAt(n.right, Find(n.right, x))))
    else if Sub(x) in n.middle then Some(n.(middle := RemoveAt(n.middle, Find(n.middle, Sub(x)))))
    else None
  }

  /** Number of slot entries of one token. */
  function NodeSize(n: Node): nat
  {
    |n.left| + |n.middle| + |n.right|
  }

  /** Number of slot entries over the whole arena. */
  function Size(ns: seq<Node>): nat
  {
    if ns == [] then 0 else Size(ns[..|ns| - 1]) + NodeSize(ns[|ns| - 1])
  }

  /** Replacing one token changes the total by the difference of the two sizes. */
  lemma {:induction false} SizeUpdate(ns: seq<Node>, k: nat, n: Node)
    requires k < |ns|
    ensures Size(ns[k := n]) + NodeSize(ns[k]) == Size(ns) + NodeSize(n)
    decreases |ns|
  {
    var ms := ns[k := n];
    if k < |ns| - 1 {
      assert ms[..|ms| - 1] == ns[..|ns| - 1][k := n];
      SizeUpdate(ns[..|ns| - 1], k, n);
    } else {
      assert ms[..|ms| - 1] == ns[..|ns| - 1];
    }
  }

  // ---------------------------------------------------------------------
  // Keeping the arena ordered

  lemma {:induction false} CeilingAtMost(hs: seq<Handle>, c: nat)
    requires forall i :: 0 <= i < |hs| ==> hs[i] < c
    ensures Ceiling(hs) <= c
    decreases |hs|
  {
    if hs != [] {
      CeilingAtMost(hs[..|hs| - 1], c);
    }
  }

  lemma {:induction false} ItemsCeilingAtMost(its: seq<Item>, c: nat)
    requires forall i :: 0 <= i < |its| ==> ItemCeiling(its[i]) <= c
    ensures ItemsCeiling(its) <= c
    decreases |its|
  {
    if its != [] {
      ItemsCeilingAtMost(its[..|its| - 1], c);
    }
  }

  lemma CeilingPrefix(hs: seq<Handle>, i: nat)
    requires i <= |hs|
    ensures Ceiling(hs[..i]) <= Ceiling(hs)
  {
    forall k | 0 <= k < |hs[..i]| ensures hs[..i][k] < Ceiling(hs) {
      CeilingBound(hs, k);
    }
    CeilingAtMost(hs[..i], Ceiling(hs));
  }

  lemma ItemsCeilingPrefix(its: seq<Item>, i: nat)
    requires i <= |its|
    ensures ItemsCeiling(its[..i]) <= ItemsCeiling(its)
  {
    forall k | 0 <= k < |its[..i]| ensures ItemCeiling(its[..i][k]) <= ItemsCeiling(its) {
      ItemsCeilingBound(its, k);
    }
    ItemsCeilingAtMost(its[..i], ItemsCeiling(its));
  }

  lemma RemoveAtCeiling(hs: seq<Handle>, i: nat)
    requires i < |hs|
    ensures Ceiling(RemoveAt(hs, i)) <= Ceiling(hs)
  {
    var r := RemoveAt(hs, i);
    forall k | 0 <= k < |r| ensures r[k] < Ceiling(hs) {
      CeilingBound(hs, if k < i then k else k + 1);
    }
    CeilingAtMost(r, Ceiling(hs));
  }

  lemma ItemsRemoveAtCeiling(its: seq<Item>, i: nat)
    requires i < |its|
    ensures ItemsCeiling(RemoveAt(its, i)) <= ItemsCeiling(its)
  {
    var r := RemoveAt(its, i);
    forall k | 0 <= k < |r| ensures ItemCeiling(r[k]) <= ItemsCeiling(its) {
      ItemsCeilingBound(its, if k < i then k else k + 1);
    }
    ItemsCeilingAtMost(r, ItemsCeiling(its));
  }

  /** Popping a child never adds a reference, so the node stays below its handle. */
  lemma RemoveChildFromBelow(n: Node, x: Handle, h: nat)
    requires Below(n, h) && RemoveChildFrom(n, x).Some?
    ensures Below(RemoveChildFrom(n, x).value, h)
  {
    if x in n.left {
      RemoveAtCeiling(n.left, Find(n.left, x));
    } else if x in n.right {
      RemoveAtCeiling(n.right, Find(n.right, x));
    } else {
      ItemsRemoveAtCeiling(n.middle, Find(n.middle, Sub(x)));
    }
  }

  lemma OrderedUpdate(ns: seq<Node>, h: Handle, n: Node)
    requires Ordered(ns) && h < |ns| && Below(n, h)
    ensures Ordered(ns[h := n])
  {
    var ms := ns[h := n];
    forall k | 0 <= k < |ms| ensures Below(ms[k], k) {
      if k != h { assert ms[k] == ns[k]; }
    }
  }

  lemma OrderedAppend(ns: seq<Node>, n: Node)
    requires Ordered(ns) && Below(n, |ns|)
    ensures Ordered(ns + [n])
  {
    var ms := ns + [n];
    forall k | 0 <= k < |ms| ensures Below(ms[k], k) {
      if k < |ns| { assert ms[k] == ns[k]; }
    }
  }

  lemma CeilingSnoc(hs: seq<Handle>, x: Handle)
    ensures Ceiling(hs + [x]) == Max(Ceiling(hs), x + 1)
  {
    assert (hs + [x])[..|hs|] == hs;
  }

  lemma ItemsCeilingSnoc(its: seq<Item>, it: Item)
    ensures ItemsCeiling(its + [it]) == Max(ItemsCeiling(its), ItemCeiling(it))
  {
    assert (its + [it])[..|its|] == its;
  }

  /** The first match found by a left-to-right scan is the one Find names. */
  lemma {:induction false} FindFirst<T>(s: seq<T>, x: T, i: nat)
    requires i < |s| && s[i] == x && x !in s[..i]
    ensures Find(s, x) == i
  {
    var j := Find(s, x);
    assert forall k :: 0 <= k < i ==> s[..i][k] == s[k];
    assert forall k :: 0 <= k < j ==> s[..j][k] == s[k];
  }

  /** An empty element met in a prefix makes the whole list fail to flatten. */
  lemma {:induction false} HandlesLeavesNonePrefix(ns: seq<Node>, hs: seq<Handle>, i: nat)
    requires Ordered(ns) && Ceiling(hs) <= |ns| && i <= |hs|
    requires Ceiling(hs[..i]) <= |ns| && HandlesLeaves(ns, hs[..i]).None?
    ensures HandlesLeaves(ns, hs).None?
    decreases |hs|
  {
    if i < |hs| {
      var init := hs[..|hs| - 1];
      assert init[..i] == hs[..i];
      CeilingPrefix(hs, |hs| - 1);
      HandlesLeavesNonePrefix(ns, init, i);
    } else {
      assert hs[..i] == hs;
    }
  }

  lemma {:induction false} ItemsLeavesNonePrefix(ns: seq<Node>, its: seq<Item>, i: nat)
    requires Ordered(ns) && ItemsCeiling(its) <= |ns| && i <= |its|
    requires ItemsCeiling(its[..i]) <= |ns| && ItemsLeaves(ns, its[..i]).None?
    ensures ItemsLeaves(ns, its).None?
    decreases |its|
  {
    if i < |its| {
      var init := its[..|its| - 1];
      assert init[..i] == its[..i];
      ItemsCeilingPrefix(its, |its| - 1);
      ItemsLeavesNonePrefix(ns, init, i);
    } else {
      assert its[..i] == its;
    }
  }

  /** Every token left in a descended payload had its parent cleared on the way. */
  lemma {:induction false} DescendedInVisited(ns: seq<Node>, p: Payload, x: Handle)
    requires Ordered(ns) && PayloadCeiling(p) <= |ns| && Descended(ns, p).Ok?
    requires Sub(x) in PayloadItems(Descended(ns, p).value)
    ensures x in Visited(ns, p)
    decreases PayloadCeiling(p), if p.One? then 0 else 1
  {
    match p
    case One(it) =>
      if it.Sub? {
        var h := it.handle;
        assert Below(ns[h], h);
        match SingleChild(ns, h) {
          case Ok(Composite) =>
          case Ok(Only(c)) =>
            ItemsCeilingBound(ns[h].middle, 0);
            DescendedInVisited(ns, One(c), x);
          case Ok(Several(its)) =>
            DescendedInVisited(ns, Many(its), x);
        }
      }
    case Many(its) =>
      if |its| == 1 {
        ItemsCeilingBound(its, 0);
        DescendedInVisited(ns, One(its[0]), x);
      } else {
        var k :| 0 <= k < |its| && its[k] == Sub(x);
        assert its[k].Sub? && its[k].handle == x;
      }
  }

  /**
   * A fresh token whose middle holds the descended payload flattens exactly
   * as the payload did.
   */
  lemma FreshTokenLeaves(ns: seq<Node>, p: Payload)
    requires Ordered(ns) && PayloadCeiling(p) <= |ns| && Descended(ns, p).Ok?
    ensures Ordered(ns + [Node([], PayloadItems(Descended(ns, p).value), [])])
    ensures Leaves(ns + [Node([], PayloadItems(Descended(ns, p).value), [])], |ns|) == PayloadLeaves(ns, p)
  {
    var q := Descended(ns, p).value;
    var its := PayloadItems(q);
    var h := |ns|;
    var ms := ns + [Node([], its, [])];
    assert ItemsCeiling(its) == PayloadCeiling(q) by {
      if q.One? { ItemsCeilingSnoc([], q.item); assert [] + [q.item] == [q.item]; }
    }
    OrderedAppend(ns, Node([], its, []));
    assert ms[..h] == ns[..h];
    ItemsFrame(ms, ns, h, its);
    assert ms[h] == Node([], its, []);
    assert Leaves(ms, h) == Join(Join(HandlesLeaves(ms, []), ItemsLeaves(ms, its)), HandlesLeaves(ms, []));
    JoinUnit(ItemsLeaves(ns, its));
    if q.One? {
      ItemsLeavesSingleton(ns, q.item);
      assert its == [q.item];
    }
    DescendedLeaves(ns, p);
  }
}
